=== FILE: README.md ===
# lode_star: a Dafny model of the NMEA position simulator

lode_star simulates a GPS receiver. A *generator* produces position fixes:
- a circle around a point;
- a CSV route, a GeoJSON route, or a replayed NMEA log;
- in the `lode_star` client, a GeoJSON route advanced by hand.

An NMEA 0183 codec turns each fix into an RMC and a GGA sentence (`$body*CS\r\n`). The server sends both sentences to every connected client and drops the clients whose send fails.

This project models that logic in Dafny and proves its properties. It covers:
- **The codec.** The XOR checksum and its two upper-case hex digits, the framing, and the 13-field RMC and 15-field GGA layouts. Also the hemisphere and degree-field formatting, and the decoder's checks (`$` prefix, unverified `*` suffix, talker-id dispatch, field counts, validity flag, `2000+YY` years).
- **Both decoders as one.** The core decoder and the older one in `generator.py` are instances of one decoder. They differ only in the set of talker ids they accept (a `Dialect`).
- **The generators.** The iteration protocol (`None` means end of sequence) and the file cursor with Python's negative indexing. The three loaders (CSV rows, GeoJSON features, NMEA lines). The dynamic generator's `key=value` words and point counter.
- **The registry and the command-line glue.** The generator registry, and the two command lines' `create_generator`.
- **The lode_star client.** Its transmitting gate, its route loader, and its route-advance state machine.
- **Client-list maintenance.** Broadcasting as a sequential filter over a "send succeeds" oracle, plus cleanup and the FIFO queue.

Numbers:
- Decimal rendering (`:09.6f`, `:.1f`) and `float()` are fields of a `Numerics` record. The predicate `Lawful` states what the round trips rely on: a rendering reads back within its last digit.
- Reals are exact.
- Python's `int()` is modelled concretely for text in ASCII digits: the surrounding blanks CPython skips, a sign, and underscores between digits. Unlike `strip()`, those blanks leave out the ASCII separators U+001C–U+001F.
- Time is an abstract date-time record. Its text rendering (`%H%M%S.%f`, `%d%m%y`) is concrete.

Where the plugins and the core disagree on types, the model follows the code:
- The CSV and GeoJSON plugins import the index-less `Position` of `generator.py` and build it without an index. They are modelled with that record (`LegacyPosition`).
- The NMEA replay decodes with the older decoder and then sets an `index` attribute on each record (`nmea_generator.py:39`). The model gives it `core.py`'s numbered `Position`.
- The dynamic generator builds its record with `index=` (`dynamic_generator.py:116-126`), but it imports the index-less `Position` of `generator.py` (line 5). As written every call therefore raises `TypeError`: `Dynamic.StepAsWritten` models that. `Dynamic.Step` builds the numbered record the code evidently means (see Findings).
- Two plugin imports do not resolve as written:
  - `csv_generator.py:5` imports `NMEAGenerator` from `lode_server.generator`, which does not define it.
  - `geojson_generator.py:4` and `nmea_generator.py:1` import `FileGenerator` from there too, but it is defined only in `core.py`.

  The model gives each plugin the class it evidently means.
- `FileGenerator._positions` (`core.py:250`) is a class-level list, so every instance appends to the same list. The model keeps one list per generator.

## Model

| member | source | states |
|---|---|---|
| Checksum.ChecksumText | src/lode_server/core.py:80-91 | The checksum is made only of upper-case hex digits. For an ASCII body it is exactly two digits, and their value is the XOR of all the body's character codes. |
| Checksum.CalculateChecksum | src/lode_server/core.py:80-91 | The loop over the body's characters returns the two-digit hex XOR checksum. |
| Checksum.AsciiCodeXorBelow128 | src/lode_server/core.py:88-90 | The XOR of ASCII codes stays below 128, so two hex digits always suffice. |
| Checksum.CodeXorAppend | src/lode_server/core.py:88-90 | The checksum of a concatenation is the XOR of the checksums of its parts. |
| Checksum.ChecksumDetectsOneChange | src/lode_server/core.py:88-90 | Changing any one character of the body changes its checksum. |
| Sentences.Frame | src/lode_server/core.py:102-108 | A sentence is `$`, then the body, then `*`, the body's checksum and `\r\n`, with every part at its exact position. |
| Sentences.FrameChecksumOk | src/lode_server/core.py:102-108 | Framing an ASCII body always gives a sentence whose checksum field matches its body. |
| Sentences.FieldsIgnoreSuffix | src/lode_server/core.py:138-141 | The decoder cuts at the first `*` and splits on commas. Whatever follows the `*` is ignored, so the checksum is never verified. |
| Sentences.FieldsOfFrame | src/lode_server/core.py:138-141 | Framing comma-joined fields and cutting the sentence apart again gives back exactly those fields. |
| Encoder.MinutesOf | src/lode_server/core.py:61-77 | The minutes lie in [0, 60). The coordinate is ±(whole degrees truncated toward zero + minutes/60), with the sign taken from the coordinate. |
| Encoder.DegreesTextParts | src/lode_server/core.py:61-77 | A degree field is exactly `width` digits of the absolute truncated degrees, followed by the minutes rendering. |
| Encoder.FormatCoords | src/lode_server/core.py:61-77 | The latitude hemisphere is `S` exactly when the latitude is negative, and `N` otherwise. The longitude hemisphere is `W` exactly when the longitude is negative, and `E` otherwise. |
| Encoder.SouthOfEquator | src/lode_server/core.py:61-77 | Latitude -0.5 formats as degrees `00`, 30 minutes, hemisphere `S`: the sign survives only in the letter. |
| Encoder.RmcLayout | src/lode_server/core.py:122-125 | The RMC body has 13 fields: `GPRMC`, time, `A`, coordinates, knots, course `0.0`, date, empty magnetic-variation fields and mode `A`. |
| Encoder.GgaLayout | src/lode_server/core.py:102-107 | The GGA body has 15 fields: `GPGGA`, time, coordinates, fix quality 1, 08 satellites, HDOP 1.0, the elevation in metres, geoid separation 0.0 M, and empty DGPS fields. |
| Encoder.RmcFieldsParts | src/lode_server/core.py:110-126 | Each part of a fix sits in its own RMC field: time 1, latitude 3-4, longitude 5-6, speed in knots 7, date 9. |
| Encoder.GgaFieldsParts | src/lode_server/core.py:93-108 | Each part of a fix sits in its own GGA field: time 1, latitude 2-3, longitude 4-5, elevation 9. |
| Encoder.EncodeRmc | src/lode_server/core.py:110-126 | An encoded RMC sentence starts with `$` and ends with `\r\n`. |
| Encoder.EncodeGga | src/lode_server/core.py:93-108 | An encoded GGA sentence starts with `$` and ends with `\r\n`. |
| Encoder.SafeSentence | src/lode_server/core.py:102-108 | Fields free of `,` and `*`, in ASCII, frame into a sentence with a correct checksum that splits back into those fields. |
| Encoder.RmcSentence | src/lode_server/core.py:110-126 | Every encoded RMC sentence has a correct checksum and splits back into the 13 fields written. |
| Encoder.GgaSentence | src/lode_server/core.py:93-108 | Every encoded GGA sentence has a correct checksum and splits back into the 15 fields written. |
| Encoder.EncodeIgnoresIndex | src/lode_server/core.py:93-126 | The point number is not part of either sentence. |
| Numerics.ReadFloat | src/lode_server/core.py:143-167 | A numeric field succeeds exactly when `float()` accepts it, and yields that value. Otherwise it fails with the caller's number error. The CSV loader reads its cells the same way. |
| Decoder.ParseDegrees | src/lode_server/core.py:170-190 | An empty coordinate or empty hemisphere reads as 0.0. A failure is always a number error. |
| Decoder.HemisphereFlips | src/lode_server/core.py:170-190 | The negative letter (`S`/`W`) negates the value. Any other non-empty letter reads as the positive hemisphere. |
| Decoder.MicroOf | src/lode_server/core.py:193-210 | A time without a fractional part has zero microseconds. |
| Decoder.ParseDay | src/lode_server/core.py:193-210 | The year is 2000 plus the two-character year field, so it lies in [1991, 2099], since `int()` also accepts a sign. |
| Decoder.ParseDateTime | src/lode_server/core.py:193-210 | An empty time gives no date-time. Without a date the date is today's. With a date the year is 2000+YY. The clock always comes from the time field. |
| Decoder.DecodeRmc | src/lode_server/core.py:143-155 | Fewer than 10 fields, or a flag other than `A`, is an invalid RMC. On success the fix has index 0, elevation 0.0, the defaults for the route hints, and the date-time read from fields 1 and 9. |
| Decoder.DecodeGga | src/lode_server/core.py:156-167 | Fewer than 10 fields is an invalid GGA. On success the fix has index 0, speed 0.0 and today's date. |
| Decoder.DecodeFields | src/lode_server/core.py:141-168 | A talker id outside the dialect's RMC and GGA sets is unsupported. Otherwise the fields go to the RMC or the GGA reader, whose guarantees the result keeps. |
| Decoder.Decode | src/lode_server/core.py:135-168 | Input without a leading `$` is rejected, and so is an unsupported talker id. Every decoded fix carries index 0 and the default duration, transition and description. |
| Decoder.DecodeIgnoresChecksum | src/lode_server/core.py:139-141 | Two sentences that differ only after the `*` decode identically. |
| RoundTrip.DegreesRoundTrip | src/lode_server/core.py:170-179 | A degree field written by the encoder reads back within the minutes' last digit of the original coordinate, with the sign restored from the hemisphere. |
| RoundTrip.LatitudeRoundTrip | src/lode_server/core.py:171-179 | Every latitude on Earth formats into text that the latitude parser reads back to within the tolerance. |
| RoundTrip.LongitudeRoundTrip | src/lode_server/core.py:182-190 | Every longitude on Earth formats into text that the longitude parser reads back to within the tolerance. |
| RoundTrip.ClockRoundTrip | src/lode_server/core.py:193-210 | The rendered time of day parses back to the same hour, minute and second. |
| RoundTrip.DayRoundTrip | src/lode_server/core.py:193-210 | The rendered date parses back to the same day and month, in the year 2000 + (year mod 100). |
| RoundTrip.DateTimeRoundTrip | src/lode_server/core.py:193-210 | The rendered time and date parse back to the same clock and day, in the year 2000 + (year mod 100). |
| RoundTrip.TimeOnTodayRoundTrip | src/lode_server/core.py:193-210 | The rendered time without a date parses back to the same clock on today's date. |
| RoundTrip.DecodedRmc | src/lode_server/core.py:143-155 | RMC fields that pass every check decode to the fix with those coordinates, the knots turned to km/h, and that date-time. |
| RoundTrip.DecodedGga | src/lode_server/core.py:156-167 | GGA fields that pass every check decode to the fix with those coordinates, that elevation and that time. |
| RoundTrip.RmcFieldsRoundTrip | src/lode_server/core.py:110-155 | The fields the encoder writes for a fix on Earth pass the RMC reader. They read back the coordinates within the tolerance and the speed within a tenth of a knot, with the same clock and day. |
| RoundTrip.GgaFieldsRoundTrip | src/lode_server/core.py:93-167 | The fields the encoder writes for a fix on Earth pass the GGA reader. They read back the coordinates, the elevation within 0.1 m, and the clock on today's date. |
| RoundTrip.Dispatch | src/lode_server/core.py:141-168 | A sentence whose talker id is in the RMC set goes to the RMC reader, and one in the GGA set goes to the GGA reader. |
| RoundTrip.RmcDispatch | src/lode_server/core.py:110-145 | An encoded RMC sentence passes the `$` check and reaches the RMC branch with exactly the fields the encoder wrote. |
| RoundTrip.GgaDispatch | src/lode_server/core.py:93-143 | An encoded GGA sentence passes the `$` check and reaches the GGA branch with exactly the fields the encoder wrote. |
| RoundTrip.RmcRoundTrip | src/lode_server/core.py:110-155 | Decoding an encoded RMC sentence succeeds and restores the fix: index 0, elevation 0.0, coordinates and speed within tolerance, and the same clock and day. |
| RoundTrip.GgaRoundTrip | src/lode_server/core.py:93-167 | Decoding an encoded GGA sentence succeeds and restores the fix: index 0, speed 0.0, coordinates and elevation within tolerance, and the same clock on today's date. |
| Positions.Fix | src/lode_server/core.py:38-46 | A fix carries exactly the given fields, with duration 0.0, transition `auto` and an empty description. |
| Positions.DropIndex | src/lode_server/generator.py:33-40 | The older record is the newer one without its index, and adding the index back restores it. |
| Positions.WithIndex | src/lode_server/core.py:38-46 | Adding an index keeps the coordinates and the time. |
| Legacy.LegacyEncoderAgrees | src/lode_server/generator.py:73-120 | The older encoder writes exactly the sentences the core encoder writes, whatever the index. |
| Legacy.LegacyDecode | src/lode_server/generator.py:129-162 | The older decoder rejects input without `$` and talker ids outside GPRMC/RMC/GPGGA/GGA. Its fixes carry the default duration, transition and description. |
| Legacy.DialectsAgree | src/lode_server/generator.py:129-162 | Two decoders that accept the same talker ids give the same answer on every input. |
| Legacy.LegacyDecodeAgrees | src/lode_server/generator.py:129-162 | Away from the GN talker ids, the older decoder succeeds exactly when the core decoder does. It returns the same fix minus the index, or the same error. |
| Legacy.GnTalkersUnsupported | src/lode_server/generator.py:137-162 | GNRMC and GNGGA are unsupported by the older decoder, while the core decoder accepts them. |
| Legacy.LegacyRmcRoundTrip | src/lode_server/generator.py:104-149 | The older codec's RMC round trip restores the coordinates within tolerance, elevation 0.0, and the clock and day. |
| Legacy.LegacyGgaRoundTrip | src/lode_server/generator.py:87-161 | The older codec's GGA round trip restores the coordinates and elevation within tolerance, speed 0.0, and the clock on today's date. |
| Iteration.Next | src/lode_server/core.py:234-245 | `__next__` stops exactly when the update returns `None`, and otherwise yields that value unchanged. |
| Iteration.NextLosesNothing | src/lode_server/generator.py:229-240 | The update's answer can be recovered from `__next__`'s outcome. |
| Iteration.PyIndex | src/lode_server/core.py:258-263 | Python list indexing: any index in [-n, n) succeeds, a negative one counting from the end, and any other index raises. |
| Iteration.Advance | src/lode_server/core.py:253-263 | A cursor at or past the end yields `None` and stays put. A cursor below -n raises. Otherwise it yields the record and moves one on. The list itself never changes. |
| Iteration.ExhaustedForever | src/lode_server/core.py:253-263 | Once the cursor reaches the end, every later call returns `None`. |
| Iteration.OutOfRangeForever | src/lode_server/core.py:253-263 | A cursor below -n raises on every call. |
| Iteration.ReplayFrom | src/lode_server/generators/csv_generator.py:79-90 | From position k the cursor yields the records k, k+1, … in order, then `None` forever. |
| Iteration.Replay | src/lode_server/core.py:253-263 | A fresh cursor yields every record once, in order, then `None` forever. |
| Iteration.ReplayFromNegative | src/lode_server/core.py:253-263 | A negative start -k first yields the last k records, then the whole list, then `None` forever. |
| Broadcast.ClientEvents | src/lode_server/core.py:281-290 | Each client is sent RMC first. GGA is tried only after RMC went out. The client is closed exactly when a send failed, and a healthy client gets exactly RMC then GGA. |
| Broadcast.Survivors | src/lode_server/core.py:278-290 | The kept clients are all from the list and healthy, and every healthy client is kept. |
| Broadcast.BroadcastTo | src/lode_server/core.py:278-290 | The loop over the snapshot, removing failed clients from the live list, leaves exactly the healthy clients in their original order. It produces every client's events in turn. |
| Broadcast.AllHealthyKept | src/lode_server/core.py:278-290 | When every send succeeds, the client list is unchanged. |
| Broadcast.EveryClientTried | src/lode_server/core.py:281-290 | Every client in the snapshot is sent RMC at its turn, however many earlier clients failed. |
| Broadcast.SurvivorGetsBoth | src/lode_server/core.py:281-284 | A healthy client receives RMC immediately followed by GGA. |
| Broadcast.ClosedExactlyFailed | src/lode_server/core.py:285-290 | A client is closed exactly when it is in the list and one of its sends failed. |
| Broadcast.Cleanup | src/lode_server/core.py:292-300 | Cleanup closes every client, in order, and leaves the list empty. |
| Broadcast.NothingAfterCleanup | src/lode_server/core.py:292-300 | After cleanup, draining any queue sends to no one and closes no one, and a second cleanup closes nothing. |
| Broadcast.DrainNoClients | src/lode_server/core.py:328-330 | With no client connected, draining the queue sends nothing and leaves the list empty. |
| Broadcast.AddData | src/lode_server/core.py:338-340 | `add_data` appends the pair at the back of the queue and keeps everything before it. |
| Broadcast.DrainSurvivors | src/lode_server/core.py:328-330 | After draining the queue, a client remains exactly when it was connected and received every queued pair. |
| Broadcast.DrainInOrder | src/lode_server/core.py:328-330 | Draining two queues back to back is draining their concatenation: pairs go out in FIFO order. |
| Broadcast.AddedLast | src/lode_server/core.py:328-340 | A pair added last is broadcast after everything queued before it, to the clients that survived those. |
| Registry.Register | src/lode_server/generators/__init__.py:20-22 | Registering adds the name to the registry and hands the class back unchanged. |
| Registry.Get | src/lode_server/generators/__init__.py:38-40 | Lookup fails with "unknown generator type" exactly for an unregistered name, and otherwise returns the registered class. |
| Registry.Message | src/lode_server/generators/__init__.py:38-39 | The error text ends with the unknown name. |
| Registry.GetAfterRegister | src/lode_server/generators/__init__.py:20-40 | After registering a class under a name, lookup of that name returns the class. |
| Registry.OtherNamesUnaffected | src/lode_server/generators/__init__.py:21 | Registering one name leaves every other name's lookup unchanged. |
| Registry.ReRegisterOverwrites | src/lode_server/generators/__init__.py:21 | Registering a name twice is the same as registering it once with the second class. |
| Registry.LastRegistrationWins | src/lode_server/generators/__init__.py:21 | In a sequence of registrations, each name resolves to its last registered class. |
| Options.AfterFirstEquals | src/lode_server/generators/dynamic_generator.py:31-48 | `word.split("=", 1)[1]` exists exactly when the word holds `=`, and it is everything after the first `=`. |
| Options.SettingIsSplit | src/lode_server/generators/dynamic_generator.py:31-48 | For a `key=` word, the value read is what the split gives. |
| Dynamic.ApplyWord | src/lode_server/generators/dynamic_generator.py:31-48 | `speed=`, `duration=` and `radius=` must parse as numbers or fail with their own error. `transition=` takes the raw text. Any other word changes nothing. |
| Dynamic.Configure | src/lode_server/generators/dynamic_generator.py:26-51 | Fewer than two arguments fail. Otherwise the settings are the defaults after the words, the counter and angle start at 0, and the centre is computed from the parsed coordinates. |
| Dynamic.UnknownWordsIgnored | src/lode_server/generators/dynamic_generator.py:31-48 | Words with no known key change no setting. |
| Dynamic.WordsCompose | src/lode_server/generators/dynamic_generator.py:31-48 | Applying two word lists in a row is applying their concatenation, and the first failure stops the rest. |
| Dynamic.LaterWordWins | src/lode_server/generators/dynamic_generator.py:31-48 | A later word with the same key overrides an earlier one. |
| Dynamic.DefaultSettings | src/lode_server/generators/dynamic_generator.py:17-22 | With only the two coordinates, the settings are speed 10.0, duration 1.0, transition `auto` and radius 0.1. |
| Dynamic.Turned | src/lode_server/generators/dynamic_generator.py:104-114 | One call's state change: the counter goes up by one, the new angle lies in [0, 2π), and nothing else changes. |
| Dynamic.Step | src/lode_server/generators/dynamic_generator.py:97-126 | The intended call, with the numbered record. Each call counts one more point and keeps the new angle in [0, 2π). It emits a position on the circle at that angle carrying the configured speed, duration and transition, with elevation 0.0 and an empty description. |
| Dynamic.StandsStill | src/lode_server/generators/dynamic_generator.py:104-110 | With no positive radius the angle never changes. |
| Dynamic.StepAsWritten | src/lode_server/generators/dynamic_generator.py:104-126 | As written a call fails with the `TypeError` of the unexpected `index` argument, after it has already moved the angle into [0, 2π) and counted one more point. |
| Dynamic.AsWrittenLosesPoint | src/lode_server/generators/dynamic_generator.py:110-126 | As written a call leaves the same state as the intended call, but fails where the intended call hands out point `index + 1`. |
| Dynamic.RunAsWritten | src/lode_server/generators/dynamic_generator.py:97-126 | Calling the code as written once per clock reading gives exactly one outcome per reading. |
| Dynamic.EveryCallFails | src/lode_server/generators/dynamic_generator.py:110-126 | As written no call ever yields a point. Every call fails, the counter still rises by one per call, and the settings stay. |
| Dynamic.RunNumbersPoints | src/lode_server/generators/dynamic_generator.py:97-126 | For the intended generator: it never ends. Its k-th point is numbered k+1 past the start and carries its clock reading and the configured settings. |
| CsvSource.RowPoint | src/lode_server/generators/csv_generator.py:47-65 | A row with fewer than five cells fails. Columns 1-4 are latitude, longitude, speed and elevation. Missing optional columns default to duration 0.0, transition `auto` and an empty description. A conversion failure names a bad cell. |
| CsvSource.LoadRows | src/lode_server/generators/csv_generator.py:42-70 | The loop over the rows: at most one point per row. A failure is always a short row or a bad number. |
| CsvSource.LoadCsv | src/lode_server/generators/csv_generator.py:37-77 | The load succeeds exactly when every row loads and at least one point results. Zero points is an error. |
| CsvSource.Load | src/lode_server/generators/csv_generator.py:21-35 | Without a file argument the constructor fails. Otherwise it loads that file. |
| CsvSource.SkippedRowsIgnored | src/lode_server/generators/csv_generator.py:44-45 | Empty rows and rows whose first cell starts with `#` leave no trace. |
| CsvSource.RowsConvertInOrder | src/lode_server/generators/csv_generator.py:42-71 | Over data rows, the load succeeds exactly when every row converts, and the k-th point is the k-th row's, in file order. |
| CsvSource.OnlyCommentsNoRoute | src/lode_server/generators/csv_generator.py:71-74 | A file of only comments and blank rows is rejected for holding no points. |
| CsvSource.FiveCellsDefaults | src/lode_server/generators/csv_generator.py:57-59 | Five numeric cells give a point with every optional field at its default. |
| GeoJsonSource.Convert | src/lode_server/generators/geojson_generator.py:38-51 | Latitude is `coordinates[1]` and longitude `coordinates[0]`. Without `properties`, speed, elevation and duration are 0, transition is `auto` and the description is empty. With a dictionary of properties, speed, elevation and duration are `float()` of the member or of 0, and transition and description are the member or the default. A `properties` that is not a dictionary fails the feature. |
| GeoJsonSource.LoadFeatures | src/lode_server/generators/geojson_generator.py:34-51 | The loop over the features keeps at most one record per feature. Any failure is a bad feature. |
| GeoJsonSource.LoadDocument | src/lode_server/generators/geojson_generator.py:22-57 | A non-dictionary document or a missing `features` key fails. Success means the features loaded to at least one point. |
| GeoJsonSource.Load | src/lode_server/generators/geojson_generator.py:14-20 | Without a file argument the constructor fails. Otherwise it loads that document. |
| GeoJsonSource.Points | src/lode_server/generators/geojson_generator.py:34-36 | Every feature kept is a `Point` feature. |
| GeoJsonSource.OnlyPointsInOrder | src/lode_server/generators/geojson_generator.py:34-51 | Non-point features leave no trace: loading all the features is loading only the points among them. |
| GeoJsonSource.PointStep | src/lode_server/generators/geojson_generator.py:34-51 | A point feature's turn of the loop succeeds exactly when it converts and the rest loads, and its record comes first. |
| GeoJsonSource.PointsConvertInOrder | src/lode_server/generators/geojson_generator.py:34-51 | Over point features, the load succeeds exactly when each converts, and the k-th record is the k-th feature's, in document order. |
| GeoJsonSource.NoPointNoRoute | src/lode_server/generators/geojson_generator.py:53-57 | A collection with no `Point` feature is rejected. |
| NmeaSource.ApplyParam | src/lode_server/generators/nmea_generator.py:18-27 | `duration=` sets the pause and `index=` the cursor start. A value that does not parse raises "invalid duration". Other words change nothing. |
| NmeaSource.ApplyParams | src/lode_server/generators/nmea_generator.py:18-27 | A failure over the words is always the invalid-duration error. |
| NmeaSource.Stamp | src/lode_server/generators/nmea_generator.py:39-42 | A kept record gets its number, and the configured pause when one was given. Every other field is the decoded one. |
| NmeaSource.Attempt | src/lode_server/generators/nmea_generator.py:37-44 | A line yields a record exactly when the older decoder accepts it. |
| NmeaSource.NumberAsWritten | src/lode_server/generators/nmea_generator.py:34-44 | As written, a replay without a `duration=` word keeps nothing. |
| NmeaSource.LoadLines | src/lode_server/generators/nmea_generator.py:31-44 | The intended loader keeps one record per line the older decoder accepts. |
| NmeaSource.LoadLinesInOrder | src/lode_server/generators/nmea_generator.py:31-44 | The intended loader keeps every decodable line, in file order, numbered 1, 2, … without gaps, with the configured pause. |
| NmeaSource.NumberDecoded | src/lode_server/generators/nmea_generator.py:34-44 | The numbering counts kept records only: the k-th kept record is numbered start+k. |
| NmeaSource.AsWrittenWithDuration | src/lode_server/generators/nmea_generator.py:40 | With a `duration=` word the code as written loads exactly what the intended loader does. |
| NmeaSource.UndecodableSkipped | src/lode_server/generators/nmea_generator.py:43-44 | A line the decoder rejects is skipped without effect, and is never fatal. |
| NmeaSource.NoDurationLosesDecodedLine | src/lode_server/generators/nmea_generator.py:40-44 | A decodable line is lost without a `duration=` word, where the intended loader keeps it as record 1. |
| NmeaSource.EncodedLineLost | src/lode_server/generators/nmea_generator.py:40-44 | Even a sentence the codec itself wrote is lost without a `duration=` word. |
| NmeaSource.Load | src/lode_server/generators/nmea_generator.py:12-29 | The constructor with the intended loader (`LoadLines`; see Findings). Without a file argument the constructor fails. Otherwise it succeeds exactly when every word parses, and fails only with the invalid-duration error. On success the cursor starts at the `index=` value over the intended loader's numbered, decoded records. |
| NmeaSource.LoadAsWritten | src/lode_server/generators/nmea_generator.py:12-44 | The constructor as written: the same failures as `Load`, and with no `duration=` word an empty record list. |
| NmeaSource.AsWrittenLoadAgrees | src/lode_server/generators/nmea_generator.py:12-44 | The constructor as written succeeds exactly when the intended one does, with the same start, and equals it once a `duration=` word was given. |
| NmeaSource.PlainReplayAsWritten | src/lode_server/generators/nmea_generator.py:12-44 | As written, a replay with no words gives an empty cursor at 0, whatever the file holds, and every pull reports exhaustion. |
| NmeaSource.NoWordsLoad | src/lode_server/generators/nmea_generator.py:12-29 | A file argument alone gives a cursor at the front of the records, with no pause set. |
| NmeaSource.PlainReplay | src/lode_server/generators/nmea_generator.py:12-44 | For the intended loader (see Findings): with no words, the constructor succeeds at the front of the records, and the replay yields every decoded line once, in order, then ends for good. |
| Star.NewState | src/lode_star/cli.py:19-27 | A new generator is not transmitting and sits at 0°, 0°. |
| Star.StartTransmission | src/lode_star/cli.py:34-37 | Starting transmission sets the gate and changes nothing else. |
| Star.GenerateRmc | src/lode_star/cli.py:79-98 | RMC is empty exactly while not transmitting. Afterwards it is a framed sentence. |
| Star.GenerateGga | src/lode_star/cli.py:100-118 | GGA is empty exactly while not transmitting. Afterwards it is a framed sentence. |
| Star.SameRmcAsServer | src/lode_star/cli.py:61-98 | Once transmitting, the client's RMC sentence is the server codec's for the same position, at the speed those knots stand for. |
| Star.SameGgaAsServer | src/lode_star/cli.py:100-132 | Once transmitting, the client's GGA sentence is the server codec's for the same position and elevation. |
| Star.SilentUntilStarted | src/lode_star/cli.py:24-37 | A fresh generator emits nothing until transmission starts, and then emits both sentences. |
| Star.RoutePoints | src/lode_star/cli.py:200-206 | A failure in the feature loop is always a bad feature. |
| Star.LoadRoute | src/lode_star/cli.py:190-215 | Anything but a `FeatureCollection` dictionary is rejected. A successful load holds at least one point. |
| Star.RouteKeepsPointsInOrder | src/lode_star/cli.py:200-206 | The route keeps exactly the `Point` features, in document order, each with its own coordinates. |
| Star.OnlyFeatureCollections | src/lode_star/cli.py:196-197 | A document typed `Feature` is rejected whatever its features. |
| Star.SetPosition | src/lode_star/cli.py:217-229 | A point sets the position exactly when its coordinates are two numbers and its properties a dictionary: longitude first, then latitude, and the time becomes now. |
| Star.NewRoute | src/lode_star/cli.py:172-188 | A route generator starts at point 0, not waiting and not transmitting, positioned at the first point. |
| Star.SpeedKnots | src/lode_star/cli.py:231-237 | The route's speed is 0.0 past the last point or when the point has no `speed`, the point's number when it has one, and a failure when its properties are not a dictionary. |
| Star.Elevation | src/lode_star/cli.py:239-245 | The route's elevation is 0.0 past the last point or when the point has no `elevation`, the point's number when it has one, and a failure when its properties are not a dictionary. |
| Star.GeneratorKnots | src/lode_star/cli.py:47-52 | The dynamic generator keeps the base class's speed 0.0; the route generator reports its current point's `speed`, and 0.0 past the last point. |
| Star.CurrentProperty | src/lode_star/cli.py:231-245 | The speed or elevation is 0.0 with no current point, the point's numeric property when present, and 0.0 when the property is absent. |
| Star.Moved | src/lode_star/cli.py:296-303 | Moving on succeeds exactly when the next point's position could be set. It advances the index by one and ends the stop and the wait. |
| Star.Advance | src/lode_star/cli.py:294-310 | While waiting and before the last point, it moves exactly one point on, clears the wait and the stop, and takes the next point's position. In every other case nothing changes. |
| Star.AutoStep | src/lode_star/cli.py:286-290 | The automatic advance moves one point on only when the pacing says so and a next point exists. Otherwise nothing changes. |
| Star.AdvanceStaysInRange | src/lode_star/cli.py:286-297 | Neither way of advancing takes the index past the last point. |
| Star.AdvanceStopsAtLast | src/lode_star/cli.py:307-310 | At the last point an advance request changes nothing. |
| Star.SetPositionAsWritten | src/lode_star/cli.py:217-219 | Setting the position blocks exactly when the caller already holds the lock. |
| Star.AdvanceAsWrittenBlocks | src/lode_star/cli.py:294-306 | As written, a request that should move the route to a next point whose properties are a dictionary blocks forever. When those properties are not a dictionary, the name lookup at line 299 raises before the second lock is taken, and the request fails without moving, as the intended advance does. Every other request is the intended no-op. |
| Star.AutoStepAsWrittenBlocks | src/lode_star/cli.py:286-290 | As written, the automatic advance blocks exactly when it should move on. |
| Star.ApplyStarWord | src/lode_star/cli.py:154-164 | `speed=` and `interval=` must parse as numbers or fail with their own error. Other words are ignored. |
| Star.ApplyStarWords | src/lode_star/cli.py:154-164 | The words never change the position or the heading. A failure is a bad speed or a bad interval. |
| Star.NewDynamic | src/lode_star/cli.py:140-164 | Fewer than two arguments fail, and so does a bad latitude. The position is the parsed coordinates, not yet transmitting, heading 0. |
| Star.CreateGenerator | src/lode_star/cli.py:335-351 | `generate` and `route` build their generators exactly when the constructors succeed. Any other method is rejected by name. |
| Star.GenerateNeverBuilds | src/lode_star/cli.py:346-347 | As written, `generate` never builds a generator. `route` and unknown methods behave as intended. |
| Star.GenerateWithDefaults | src/lode_star/cli.py:150-152 | Two numbers suffice for the intended `generate`: speed 10, heading 0, interval 1 s. |
| ServerCli.CreateGenerator | src/lode_server/cli.py:11-23 | An unregistered source fails with the registry's error. Otherwise the result is the registered constructor's own success or failure on the parameters. |
| ServerCli.CreateAfterRegister | src/lode_server/cli.py:22-23 | A class just registered is the one `create_generator` applies. |
| ServerCli.BroadcastData | src/lode_server/cli.py:45-69 | Both sentences are encoded once. The client list keeps exactly the clients both of whose sends succeeded, in order, and every client in the snapshot is tried. |
| Text.SplitJoin | src/lode_server/core.py:141 | Splitting comma-joined, comma-free fields gives back those fields. |
| Text.Strip | src/lode_server/core.py:138 | After `strip()` neither end is a character `str.strip()` discards, and the text is no longer than before. |
| Text.StripDropsSeparator | src/lode_server/core.py:138 | `strip()` discards the ASCII separator U+001C. |
| Text.IntStrip | src/lode_server/core.py:174 | The blanks `int()` skips are gone from both ends, and the text is no longer than before. |
| Text.IntRefusesSeparator | src/lode_server/core.py:174 | `int()` rejects text led by U+001C, which `strip()` would discard. |
| Text.LeadingBlankSkipped | src/lode_server/core.py:174 | A blank `int()` skips, placed before a run of digits, leaves the value of the digits. |
| Text.IntSkipsNoBreakSpace | src/lode_server/core.py:174 | `int()` skips a leading no-break space U+00A0 and reads the digit after it. |
| Decoder.SeparatorLatitudeRejected | src/lode_server/core.py:171-177 | A latitude field led by U+001C fails with a number error, because `int()` rejects its degrees. |
| Text.PyIntOfPadded | src/lode_server/core.py:199-205 | `int()` reads a zero-padded decimal back to its value. |
| Text.ZeroPad | src/lode_server/core.py:61-77 | Zero padding gives digits of the number's value, exactly `width` long when it fits. |
| DateTimes.DaysInMonth | src/lode_server/core.py:193-210 | A month has 28 to 31 days, and 29 exactly in a leap February. |
| DateTimes.Make | src/lode_server/core.py:200-210 | A date-time is built exactly when the date and the time are valid. |
| DateTimes.CenturyKeepsDate | src/lode_server/core.py:117 | A valid date stays valid when the century is replaced by 2000, so a two-digit year always reads back. |
| Numerics.Trunc | src/lode_server/core.py:61-77 | `int()` on a float truncates toward zero. |
| Numerics.FloorMod | src/lode_server/generators/dynamic_generator.py:110 | Python's `%` on floats gives a result in [0, m) that differs from the operand by a whole multiple of m. |
| Json.Iterate | src/lode_server/generators/geojson_generator.py:34 | Iterating a list gives its items and a string its characters. Numbers, booleans and null cannot be iterated. |
| Json.GetOr | src/lode_server/generators/geojson_generator.py:39 | `dict.get` returns the member when present and the default when absent. Anything but a dictionary raises. |

## Left out

- Sockets, accept loops, threads, the data queue's blocking, and daemon threads are left out. Sending is an oracle `delivers(client, text)`, where false means the send raised. Being a function of the client and the text alone, it gives a client the same outcome every time it is sent the same sentence, which a real socket does not promise; no lemma relies on that. A client's `close()` cannot fail in the model, and its error is swallowed in the source anyway.
- Locks are modelled only as far as they decide whether the lode_star route advance can finish. The lock-holding code's timing is not modelled.
- The pacing and stop timing of `update_position` (`src/lode_star/cli.py:247-285`) is left out. Whether it decided to move on is the `moveToNext` parameter of `Star.AutoStep`.
- Console printing, `input()` gating, `get_current_point_info`, and `load_generators` with its entry-point discovery are left out.
- Decimal rendering and `float()` are not computed. They are fields of `Numerics`, and the round trips assume the predicate `Lawful`. NaN and infinities are not modelled.
- Reals are exact, so the km/h-to-knots products are exact. Float rounding is left out.
- The great-circle trigonometry of the dynamic generator (`_calculate_center`, `_calculate_position_on_circle`) is left out. It is the abstract `Geometry` record.
- `int()`: Unicode decimal digits other than ASCII are left out. Unicode whitespace is stripped as `int()` does.
- `datetime.now()` is the parameter `now`, one reading per load.
- The sharing of `FileGenerator._positions` (`core.py:250`) is left out. It is one class-level list, so a second file generator would append to the first one's points. The model gives each generator its own list, as the loaders evidently intend.
- File opening, the CSV tokenizer and the JSON parser are left out. The loaders take split rows, lines, or a parsed `Json` value.
- GeoJsonSource.Convert: a coordinate that is not a JSON number, or a `transition`/`description` that is not a string, fails the load. Python would store such a value as is.
- Json.Iterate: a non-empty dictionary given as `features` is reported as not iterable. Python would iterate its keys and then fail on the first one.
- Star.SetPosition: a failure leaves no partial state, and the coordinates must be two JSON numbers. In Python `lon` and `lat` are already assigned when a later line raises, and a pair of booleans would be accepted as coordinates. A pair of other non-numbers is unpacked and then raises at the `:.6f` print (`cli.py:225`), which the model matches.
- Decoder.HemisphereFlips relates the two hemispheres only for non-empty text and letters. The empty cases are covered by Decoder.ParseDegrees.
- Dynamic.Increment: its contract states only the no-radius case, because the angle step is float arithmetic on an abstract geometry.
- Encoder.EncodeRmc, Encoder.EncodeGga: their own contracts state only the framing. The contents are stated by Encoder.RmcSentence, Encoder.GgaSentence and the round trips.

## Findings

| source | as written | input that shows it | evidently intended | confidence | as-written member | corrected member |
|---|---|---|---|---|---|---|
| src/lode_star/cli.py:135-164 | `DynamicNMEAGenerator` never defines `update_position`, which the abstract base class requires, so instantiating it raises `TypeError` | `create_generator("generate", "55.75", "37.61")` | builds a dynamic generator at that position with speed 10, heading 0 and interval 1 s | not executed; follows from Python's abstract-class rule | Star.GenerateNeverBuilds | Star.GenerateWithDefaults |
| src/lode_server/generators/nmea_generator.py:40 | `self._duration` is set only by a `duration=` word; without one the read raises `AttributeError`, and the `except` at line 43 swallows it for every line | the generator with no words over a file holding one valid `$GPRMC` sentence | that sentence becomes record 1 with its decoded pause | not executed | NmeaSource.NoDurationLosesDecodedLine | NmeaSource.NumberDecoded |
| src/lode_server/generators/dynamic_generator.py:116-126 | `Position` comes from `lode_server.generator` (line 5), whose dataclass (`generator.py:8-40`) has no `index` field, so `Position(index=…)` raises `TypeError` on every call, after the angle (line 110) and the counter (line 114) have moved | `next()` on `DynamicGenerator("55.75", "37.61")` | a point on the circle, numbered 1 | not executed; follows from the dataclass's generated `__init__` | Dynamic.EveryCallFails | Dynamic.RunNumbersPoints |
| src/lode_star/cli.py:296-303 | `advance_to_next_point` calls `_set_position_from_point` while holding `self.lock`, and that method takes the same non-re-entrant `threading.Lock` again (line 219) | a route of two points whose second point has dictionary properties, waiting for a manual transition, when an advance is requested | move to the second point | not executed; follows from `threading.Lock` not being re-entrant | Star.AdvanceAsWrittenBlocks | Star.Advance |

=== FILE: broadcast.dfy ===
/** The client list of the broadcasting server, as a sequential operation.
    Sockets are opaque values of a type `C`; whether `sendall` of a sentence
    to a client succeeds is a given function `delivers`, so a broadcast is a
    walk over a snapshot of the list that sends RMC then GGA to each client
    and closes and removes a client at its first failed send. */
module Broadcast {

  /** What one client sees during a broadcast or a cleanup. */
  datatype Event<C> =
    | Sent(client: C, data: string)        // `sendall` returned
    | SendFailed(client: C, data: string)  // `sendall` raised
    | Closed(client: C)                    // `close()` was called (its own errors ignored)

  /** A client that takes both sentences stays connected. */
  predicate Healthy<C>(c: C, rmc: string, gga: string, delivers: (C, string) -> bool) {
    delivers(c, rmc) && delivers(c, gga)
  }

  /** The body of the loop for one client: GGA is attempted only after RMC
      went out, and the first failure closes the client. */
  function ClientEvents<C>(c: C, rmc: string, gga: string, delivers: (C, string) -> bool): (r: seq<Event<C>>)
    ensures |r| >= 2
    ensures r[0] == (if delivers(c, rmc) then Sent(c, rmc) else SendFailed(c, rmc))
    ensures Closed(c) in r <==> !Healthy(c, rmc, gga, delivers)
    ensures Healthy(c, rmc, gga, delivers) ==> r == [Sent(c, rmc), Sent(c, gga)]
  {
    if !delivers(c, rmc) then [SendFailed(c, rmc), Closed(c)]
    else if !delivers(c, gga) then [Sent(c, rmc), SendFailed(c, gga), Closed(c)]
    else [Sent(c, rmc), Sent(c, gga)]
  }

  /** The reference result: the healthy clients, in list order. */
  function Survivors<C>(clients: seq<C>, rmc: string, gga: string, delivers: (C, string) -> bool): (r: seq<C>)
    ensures |r| <= |clients|
    ensures forall i :: 0 <= i < |r| ==> r[i] in clients && Healthy(r[i], rmc, gga, delivers)
    ensures forall i :: 0 <= i < |clients| && Healthy(clients[i], rmc, gga, delivers) ==> clients[i] in r
  {
    if clients == [] then []
    else (if Healthy(clients[0], rmc, gga, delivers) then [clients[0]] else [])
         + Survivors(clients[1..], rmc, gga, delivers)
  }

  /** The reference trace: each client's events, in list order. */
  function Events<C>(clients: seq<C>, rmc: string, gga: string, delivers: (C, string) -> bool): (r: seq<Event<C>>)
    ensures |r| >= 2 * |clients|
  {
    if clients == [] then []
    else ClientEvents(clients[0], rmc, gga, delivers) + Events(clients[1..], rmc, gga, delivers)
  }

  /** Filtering commutes with splitting the list: survivors keep their
      relative order. */
  lemma {:induction false} SurvivorsConcat<C>(a: seq<C>, b: seq<C>, rmc: string, gga: string,
                                              delivers: (C, string) -> bool)
    ensures Survivors(a + b, rmc, gga, delivers) == Survivors(a, rmc, gga, delivers) + Survivors(b, rmc, gga, delivers)
  {
    if a != [] {
      assert (a + b)[1..] == a[1..] + b;
      SurvivorsConcat(a[1..], b, rmc, gga, delivers);
    } else {
      assert a + b == b;
    }
  }

  lemma {:induction false} EventsConcat<C>(a: seq<C>, b: seq<C>, rmc: string, gga: string,
                                           delivers: (C, string) -> bool)
    ensures Events(a + b, rmc, gga, delivers) == Events(a, rmc, gga, delivers) + Events(b, rmc, gga, delivers)
  {
    if a != [] {
      assert (a + b)[1..] == a[1..] + b;
      EventsConcat(a[1..], b, rmc, gga, delivers);
    } else {
      assert a + b == b;
    }
  }

  /** When every client is healthy the list is left as it was. */
  lemma {:induction false} AllHealthyKept<C>(clients: seq<C>, rmc: string, gga: string, delivers: (C, string) -> bool)
    requires forall i :: 0 <= i < |clients| ==> Healthy(clients[i], rmc, gga, delivers)
    ensures Survivors(clients, rmc, gga, delivers) == clients
  {
    if clients != [] {
      assert Healthy(clients[0], rmc, gga, delivers);
      AllHealthyKept(clients[1..], rmc, gga, delivers);
    }
  }

  /** Python's `list.remove(x)`: drop the first element equal to `x`. */
  function RemoveFirst<C(==)>(s: seq<C>, x: C): (r: seq<C>)
    requires x in s
    ensures |r| == |s| - 1
  {
    if s[0] == x then s[1..] else [s[0]] + RemoveFirst(s[1..], x)
  }

  /** Removing a client that is not among the kept ones ahead of it takes
      exactly that client out. */
  lemma {:induction false} RemoveFirstAfter<C>(a: seq<C>, x: C, b: seq<C>)
    requires x !in a
    ensures RemoveFirst(a + [x] + b, x) == a + b
  {
    if a != [] {
      assert (a + [x] + b)[1..] == a[1..] + [x] + b;
      RemoveFirstAfter(a[1..], x, b);
      assert [a[0]] + (a[1..] + b) == a + b;
    } else {
      assert a + [x] + b == [x] + b;
    }
  }

  /** One turn of the walk over the snapshot: a healthy client leaves the
      live list as it was, a failed one is the first of its kind in it and
      is removed. */
  lemma KeptStep<C>(snapshot: seq<C>, i: int, rmc: string, gga: string, delivers: (C, string) -> bool)
    requires 0 <= i < |snapshot|
    ensures var kept := Survivors(snapshot[..i], rmc, gga, delivers) + snapshot[i..];
            var next := Survivors(snapshot[..i + 1], rmc, gga, delivers) + snapshot[i + 1..];
      && (Healthy(snapshot[i], rmc, gga, delivers) ==> next == kept)
      && (!Healthy(snapshot[i], rmc, gga, delivers) ==> snapshot[i] in kept && next == RemoveFirst(kept, snapshot[i]))
  {
    assert snapshot[i..] == [snapshot[i]] + snapshot[i + 1..];
    assert snapshot[..i + 1] == snapshot[..i] + [snapshot[i]];
    KeptSplit(snapshot[..i], snapshot[i], snapshot[i + 1..], rmc, gga, delivers);
  }

  /** The same turn with the walked prefix, the current client and the
      rest of the snapshot named apart. */
  lemma KeptSplit<C>(prefix: seq<C>, conn: C, rest: seq<C>, rmc: string, gga: string, delivers: (C, string) -> bool)
    ensures var kept := Survivors(prefix, rmc, gga, delivers) + ([conn] + rest);
            var next := Survivors(prefix + [conn], rmc, gga, delivers) + rest;
      && (Healthy(conn, rmc, gga, delivers) ==> next == kept)
      && (!Healthy(conn, rmc, gga, delivers) ==> conn in kept && next == RemoveFirst(kept, conn))
  {
    var done := Survivors(prefix, rmc, gga, delivers);
    SurvivorsConcat(prefix, [conn], rmc, gga, delivers);
    var kept := done + ([conn] + rest);
    if Healthy(conn, rmc, gga, delivers) {
      assert Survivors([conn], rmc, gga, delivers) == [conn];
      assert (done + [conn]) + rest == kept;
    } else {
      assert Survivors([conn], rmc, gga, delivers) == [];
      assert done + [] == done;
      UnhealthyDropped(prefix, conn, rmc, gga, delivers);
      RemoveFirstAfter(done, conn, rest);
      assert done + [conn] + rest == kept;
    }
  }

  /** A client that failed is not among the survivors. */
  lemma UnhealthyDropped<C>(clients: seq<C>, c: C, rmc: string, gga: string, delivers: (C, string) -> bool)
    requires !Healthy(c, rmc, gga, delivers)
    ensures c !in Survivors(clients, rmc, gga, delivers)
  {
  }

  lemma EventsStep<C>(snapshot: seq<C>, i: int, rmc: string, gga: string, delivers: (C, string) -> bool)
    requires 0 <= i < |snapshot|
    ensures Events(snapshot[..i + 1], rmc, gga, delivers)
         == Events(snapshot[..i], rmc, gga, delivers) + ClientEvents(snapshot[i], rmc, gga, delivers)
  {
    assert snapshot[..i + 1] == snapshot[..i] + [snapshot[i]];
    EventsConcat(snapshot[..i], [snapshot[i]], rmc, gga, delivers);
    assert Events([snapshot[i]], rmc, gga, delivers) == ClientEvents(snapshot[i], rmc, gga, delivers);
  }

  /** `_broadcast` (and `broadcast_data`): walk a snapshot of the list; send
      RMC then GGA; on the first failure close the client and remove it from
      the live list. The result is the reference filter and trace. */
  method BroadcastTo<C(==)>(clients: seq<C>, rmc: string, gga: string, delivers: (C, string) -> bool)
    returns (kept: seq<C>, events: seq<Event<C>>)
    ensures kept == Survivors(clients, rmc, gga, delivers)
    ensures events == Events(clients, rmc, gga, delivers)
  {
    var snapshot := clients;
    kept := clients;
    events := [];
    for i := 0 to |snapshot|
      invariant kept == Survivors(snapshot[..i], rmc, gga, delivers) + snapshot[i..]
      invariant events == Events(snapshot[..i], rmc, gga, delivers)
    {
      var conn := snapshot[i];
      KeptStep(snapshot, i, rmc, gga, delivers);
      EventsStep(snapshot, i, rmc, gga, delivers);
      if !delivers(conn, rmc) {
        events := events + [SendFailed(conn, rmc), Closed(conn)];
        kept := RemoveFirst(kept, conn);
      } else if !delivers(conn, gga) {
        events := events + [Sent(conn, rmc), SendFailed(conn, gga), Closed(conn)];
        kept := RemoveFirst(kept, conn);
      } else {
        events := events + [Sent(conn, rmc), Sent(conn, gga)];
      }
    }
    assert snapshot[..|snapshot|] == snapshot;
  }

  /** A failed client never stops the walk: every client in the snapshot is
      sent RMC, and the events for the `i`-th client follow those of the
      clients before it. */
  lemma EveryClientTried<C>(clients: seq<C>, i: int, rmc: string, gga: string, delivers: (C, string) -> bool)
    requires 0 <= i < |clients|
    ensures var events := Events(clients, rmc, gga, delivers);
            var at := |Events(clients[..i], rmc, gga, delivers)|;
      && at < |events|
      && events[at] == (if delivers(clients[i], rmc) then Sent(clients[i], rmc) else SendFailed(clients[i], rmc))
  {
    SplitAt(clients, i, rmc, gga, delivers);
  }

  /** A client that stays connected is sent RMC and then, right after, GGA. */
  lemma SurvivorGetsBoth<C>(clients: seq<C>, i: int, rmc: string, gga: string, delivers: (C, string) -> bool)
    requires 0 <= i < |clients| && Healthy(clients[i], rmc, gga, delivers)
    ensures var events := Events(clients, rmc, gga, delivers);
            var at := |Events(clients[..i], rmc, gga, delivers)|;
      && at + 1 < |events|
      && events[at] == Sent(clients[i], rmc) && events[at + 1] == Sent(clients[i], gga)
  {
    SplitAt(clients, i, rmc, gga, delivers);
  }

  /** The trace splits at the `i`-th client. */
  lemma SplitAt<C>(clients: seq<C>, i: int, rmc: string, gga: string, delivers: (C, string) -> bool)
    requires 0 <= i < |clients|
    ensures Events(clients, rmc, gga, delivers)
         == Events(clients[..i], rmc, gga, delivers)
            + ClientEvents(clients[i], rmc, gga, delivers)
            + Events(clients[i + 1..], rmc, gga, delivers)
  {
    assert clients == clients[..i] + ([clients[i]] + clients[i + 1..]);
    EventsConcat(clients[..i], [clients[i]] + clients[i + 1..], rmc, gga, delivers);
    assert ([clients[i]] + clients[i + 1..])[1..] == clients[i + 1..];
  }

  /** Exactly the clients whose send raised are closed. */
  lemma {:induction false} ClosedExactlyFailed<C>(clients: seq<C>, c: C, rmc: string, gga: string,
                                                  delivers: (C, string) -> bool)
    ensures Closed(c) in Events(clients, rmc, gga, delivers) <==> c in clients && !Healthy(c, rmc, gga, delivers)
  {
    if clients != [] {
      ClosedExactlyFailed(clients[1..], c, rmc, gga, delivers);
      var head := ClientEvents(clients[0], rmc, gga, delivers);
      var rest := Events(clients[1..], rmc, gga, delivers);
      assert Closed(c) in head + rest <==> Closed(c) in head || Closed(c) in rest;
      assert Closed(c) in head <==> c == clients[0] && !Healthy(c, rmc, gga, delivers) by {
        if Closed(c) in head {
          var k :| 0 <= k < |head| && head[k] == Closed(c);
        }
      }
      assert c in clients <==> c == clients[0] || c in clients[1..];
    }
  }

  /** `_cleanup`: close every client, ignoring errors, then clear the list. */
  function Cleanup<C>(clients: seq<C>): (r: (seq<C>, seq<Event<C>>))
    ensures r.0 == []
    ensures |r.1| == |clients| && forall i :: 0 <= i < |clients| ==> r.1[i] == Closed(clients[i])
  {
    ([], seq(|clients|, i requires 0 <= i < |clients| => Closed(clients[i])))
  }

  /** After cleanup nothing more happens: draining any queue sends to no
      one and closes no one, and a second cleanup closes nothing. */
  lemma NothingAfterCleanup<C>(clients: seq<C>, q: Queue, delivers: (C, string) -> bool)
    ensures Drain(q, Cleanup(clients).0, delivers) == ([], [])
    ensures Cleanup(Cleanup(clients).0) == ([], [])
  {
    DrainNoClients(q, delivers);
  }

  /** With no client connected, draining the queue has no effect. */
  lemma {:induction false} DrainNoClients<C>(q: Queue, delivers: (C, string) -> bool)
    ensures Drain(q, [], delivers) == ([], [])
    decreases |q|
  {
    var none: seq<C> := [];
    if q != [] {
      DrainNoClients(q[1..], delivers);
      var rest := Drain(q[1..], none, delivers);
      assert rest.0 == [] && rest.1 == [];
      assert Survivors(none, q[0].0, q[0].1, delivers) == none;
      assert Events(none, q[0].0, q[0].1, delivers) == [];
      var r := Drain(q, none, delivers);
      assert r.0 == rest.0;
      assert r.1 == Events(none, q[0].0, q[0].1, delivers) + rest.1;
      assert r.0 == [] && r.1 == [];
    } else {
      var r := Drain(q, none, delivers);
      assert r.0 == [] && r.1 == [];
    }
  }

  /** The sentence pairs waiting to be broadcast. */
  type Queue = seq<(string, string)>

  /** `add_data`: put a pair at the back of the queue. */
  function AddData(q: Queue, rmc: string, gga: string): (r: Queue)
    ensures |r| == |q| + 1 && r[..|q|] == q && r[|q|] == (rmc, gga)
  {
    q + [(rmc, gga)]
  }

  /** The `run` loop's drain: take pairs from the front and broadcast each
      to the clients still connected. */
  function Drain<C>(q: Queue, clients: seq<C>, delivers: (C, string) -> bool): (r: (seq<C>, seq<Event<C>>))
    ensures |r.0| <= |clients|
    decreases |q|
  {
    if q == [] then (clients, [])
    else
      var kept := Survivors(clients, q[0].0, q[0].1, delivers);
      var rest := Drain(q[1..], kept, delivers);
      (rest.0, Events(clients, q[0].0, q[0].1, delivers) + rest.1)
  }

  /** A client is still connected after a drain exactly when it took every
      sentence of every pair. */
  predicate TookAll<C>(c: C, q: Queue, delivers: (C, string) -> bool) {
    forall k :: 0 <= k < |q| ==> Healthy(c, q[k].0, q[k].1, delivers)
  }

  lemma {:induction false} DrainSurvivors<C>(q: Queue, clients: seq<C>, c: C, delivers: (C, string) -> bool)
    ensures c in Drain(q, clients, delivers).0 <==> c in clients && TookAll(c, q, delivers)
    decreases |q|
  {
    if q != [] {
      var kept := Survivors(clients, q[0].0, q[0].1, delivers);
      DrainSurvivors(q[1..], kept, c, delivers);
      if TookAll(c, q[1..], delivers) && Healthy(c, q[0].0, q[0].1, delivers) {
        forall k | 0 <= k < |q|
          ensures Healthy(c, q[k].0, q[k].1, delivers)
        {
          if k > 0 {
            assert q[k] == q[1..][k - 1];
          }
        }
      }
      if TookAll(c, q, delivers) {
        assert Healthy(c, q[0].0, q[0].1, delivers);
        forall k | 0 <= k < |q| - 1
          ensures Healthy(c, q[1..][k].0, q[1..][k].1, delivers)
        {
          assert q[1..][k] == q[k + 1];
        }
      }
    }
  }

  /** First in, first out: draining `q1 + q2` is draining `q1` and then
      `q2` against the clients that remain. */
  lemma {:induction false} DrainInOrder<C>(q1: Queue, q2: Queue, clients: seq<C>, delivers: (C, string) -> bool)
    ensures var first := Drain(q1, clients, delivers);
            var second := Drain(q2, first.0, delivers);
      Drain(q1 + q2, clients, delivers) == (second.0, first.1 + second.1)
    decreases |q1|
  {
    if q1 == [] {
      assert q1 + q2 == q2;
      assert Drain(q1, clients, delivers) == (clients, []);
      assert [] + Drain(q2, clients, delivers).1 == Drain(q2, clients, delivers).1;
    } else {
      var p, rest := q1[0], q1[1..];
      assert q1 == [p] + rest;
      assert q1 + q2 == [p] + (rest + q2);
      var kept := Survivors(clients, p.0, p.1, delivers);
      var head := Events(clients, p.0, p.1, delivers);
      DrainCons(p, rest, clients, delivers);
      DrainCons(p, rest + q2, clients, delivers);
      DrainInOrder(rest, q2, kept, delivers);
      JoinDrains(Drain(q1 + q2, clients, delivers), Drain(rest + q2, kept, delivers), Drain(rest, kept, delivers),
                 Drain(q1, clients, delivers), head, q2, delivers);
    }
  }

  /** The bookkeeping of the inductive step: with `x` the drain of the whole
      queue, `t` of its tail, `f` of the first queue's tail and `y` of the
      first queue, all after the same head events. */
  lemma JoinDrains<C>(x: (seq<C>, seq<Event<C>>), t: (seq<C>, seq<Event<C>>), f: (seq<C>, seq<Event<C>>),
                      y: (seq<C>, seq<Event<C>>), head: seq<Event<C>>, q2: Queue, delivers: (C, string) -> bool)
    requires x == (t.0, head + t.1)
    requires t == (Drain(q2, f.0, delivers).0, f.1 + Drain(q2, f.0, delivers).1)
    requires y == (f.0, head + f.1)
    ensures x == (Drain(q2, y.0, delivers).0, y.1 + Drain(q2, y.0, delivers).1)
  {
    assert head + (f.1 + Drain(q2, f.0, delivers).1) == (head + f.1) + Drain(q2, f.0, delivers).1;
  }

  /** Draining a queue that starts with `p`: broadcast `p`, then drain the
      rest against the survivors. */
  lemma DrainCons<C>(p: (string, string), q: Queue, clients: seq<C>, delivers: (C, string) -> bool)
    ensures var kept := Survivors(clients, p.0, p.1, delivers);
      Drain([p] + q, clients, delivers)
        == (Drain(q, kept, delivers).0, Events(clients, p.0, p.1, delivers) + Drain(q, kept, delivers).1)
  {
    assert ([p] + q)[1..] == q;
  }

  /** A pair put by `add_data` is broadcast after everything already waiting. */
  lemma AddedLast<C>(q: Queue, rmc: string, gga: string, clients: seq<C>, delivers: (C, string) -> bool)
    ensures var first := Drain(q, clients, delivers);
      Drain(AddData(q, rmc, gga), clients, delivers)
        == (Survivors(first.0, rmc, gga, delivers), first.1 + Events(first.0, rmc, gga, delivers))
  {
    DrainInOrder(q, [(rmc, gga)], clients, delivers);
    var first := Drain(q, clients, delivers);
    var last: Queue := [(rmc, gga)];
    assert last[1..] == [];
    var events := Events(first.0, rmc, gga, delivers);
    assert Drain(last, first.0, delivers) == (Survivors(first.0, rmc, gga, delivers), events + []);
    assert events + [] == events;
    assert AddData(q, rmc, gga) == q + last;
  }
}

=== FILE: checksum.dfy ===
/** The NMEA 0183 checksum: the exclusive or of the character codes of a sentence
    body, rendered as uppercase hexadecimal padded to two digits. */
module Checksum {
  import opened Text

  /** Bitwise exclusive or of two naturals, one binary digit at a time. */
  function Xor(a: nat, b: nat): nat
    decreases a + b
  {
    if a == 0 && b == 0 then 0 else 2 * Xor(a / 2, b / 2) + (a + b) % 2
  }

  lemma XorDigits(a: nat, b: nat)
    ensures Xor(a, b) % 2 == (a + b) % 2
    ensures Xor(a, b) / 2 == Xor(a / 2, b / 2)
  {
    if a == 0 && b == 0 {
    } else {
      var q, bit := Xor(a / 2, b / 2), (a + b) % 2;
      assert Xor(a, b) == 2 * q + bit;
      HalfAndBit(q, bit);
    }
  }

  /** Halving `2q + bit` gives back `q` and `bit`. */
  lemma HalfAndBit(q: nat, bit: nat)
    requires bit < 2
    ensures (2 * q + bit) % 2 == bit && (2 * q + bit) / 2 == q
  {
    var x := 2 * q + bit;
    assert x == 2 * (x / 2) + x % 2;
  }

  lemma {:induction false} XorZero(a: nat)
    ensures Xor(a, 0) == a && Xor(0, a) == a
    decreases a
  {
    if a != 0 {
      XorZero(a / 2);
    }
  }

  lemma {:induction false} XorCommutes(a: nat, b: nat)
    ensures Xor(a, b) == Xor(b, a)
    decreases a + b
  {
    if a != 0 || b != 0 {
      XorCommutes(a / 2, b / 2);
    }
  }

  lemma {:induction false} XorSelf(a: nat)
    ensures Xor(a, a) == 0
    decreases a
  {
    if a != 0 {
      XorSelf(a / 2);
    }
  }

  /** A natural is determined by its lowest binary digit and the rest. */
  lemma HalvesDetermine(x: nat, y: nat)
    requires x % 2 == y % 2 && x / 2 == y / 2
    ensures x == y
  {
  }

  lemma ParityChain(u: nat, p: nat, x: nat, y: nat, z: nat)
    requires p % 2 == (x + y) % 2 && u % 2 == (p + z) % 2
    ensures u % 2 == (x + y + z) % 2
  {
    var q := p / 2;
    var k := (x + y) / 2;
    assert p == 2 * q + p % 2;
    assert x + y == 2 * k + (x + y) % 2;
    assert p + z == 2 * (q - k) + (x + y + z);
  }

  lemma XorParityLeft(a: nat, b: nat, c: nat)
    ensures Xor(Xor(a, b), c) % 2 == (a + b + c) % 2
  {
    var ab := Xor(a, b);
    XorDigits(a, b);
    XorDigits(ab, c);
    ParityChain(Xor(ab, c), ab, a, b, c);
  }

  lemma XorParity3(a: nat, b: nat, c: nat)
    ensures Xor(Xor(a, b), c) % 2 == (a + b + c) % 2
    ensures Xor(a, Xor(b, c)) % 2 == (a + b + c) % 2
  {
    XorParityLeft(a, b, c);
    XorParityLeft(b, c, a);
    XorCommutes(a, Xor(b, c));
  }

  lemma XorHalves3(a: nat, b: nat, c: nat)
    ensures Xor(Xor(a, b), c) / 2 == Xor(Xor(a / 2, b / 2), c / 2)
    ensures Xor(a, Xor(b, c)) / 2 == Xor(a / 2, Xor(b / 2, c / 2))
  {
    XorDigits(a, b);
    XorDigits(Xor(a, b), c);
    XorDigits(b, c);
    XorDigits(a, Xor(b, c));
  }

  lemma {:induction false} XorAssociates(a: nat, b: nat, c: nat)
    ensures Xor(Xor(a, b), c) == Xor(a, Xor(b, c))
    decreases a + b + c
  {
    if a + b + c != 0 {
      XorAssociates(a / 2, b / 2, c / 2);
      XorParity3(a, b, c);
      XorHalves3(a, b, c);
      HalvesDetermine(Xor(Xor(a, b), c), Xor(a, Xor(b, c)));
    }
  }

  /** Xor-ing with the same value on the left is injective. */
  lemma XorCancels(a: nat, x: nat, y: nat)
    requires Xor(a, x) == Xor(a, y)
    ensures x == y
  {
    XorAssociates(a, a, x);
    XorAssociates(a, a, y);
    XorSelf(a);
    XorZero(x);
    XorZero(y);
  }

  function Pow2(k: nat): nat {
    if k == 0 then 1 else 2 * Pow2(k - 1)
  }

  /** Xor never sets a bit above the highest bit of its operands. */
  lemma {:induction false} XorBelow(a: nat, b: nat, k: nat)
    requires a < Pow2(k) && b < Pow2(k)
    ensures Xor(a, b) < Pow2(k)
    decreases k
  {
    if k > 0 && (a != 0 || b != 0) {
      XorBelow(a / 2, b / 2, k - 1);
    }
  }

  /** The running value of `checksum ^= ord(char)` over the characters of `s`. */
  function CodeXor(s: string): nat {
    if |s| == 0 then 0 else Xor(CodeXor(s[..|s| - 1]), s[|s| - 1] as int)
  }

  /** The checksum of a concatenation is the xor of the two checksums. */
  lemma {:induction false} CodeXorAppend(s: string, t: string)
    ensures CodeXor(s + t) == Xor(CodeXor(s), CodeXor(t))
    decreases |t|
  {
    if |t| == 0 {
      assert s + t == s;
      XorZero(CodeXor(s));
    } else {
      var t' := t[..|t| - 1];
      var c := t[|t| - 1] as int;
      assert (s + t)[..|s + t| - 1] == s + t';
      CodeXorAppend(s, t');
      XorAssociates(CodeXor(s), CodeXor(t'), c);
    }
  }

  predicate IsAscii(s: string) {
    forall i :: 0 <= i < |s| ==> s[i] as int < 128
  }

  /** An ASCII body has a checksum below 128. */
  lemma {:induction false} AsciiCodeXorBelow128(s: string)
    requires IsAscii(s)
    ensures CodeXor(s) < 128
    decreases |s|
  {
    if |s| > 0 {
      assert IsAscii(s[..|s| - 1]);
      AsciiCodeXorBelow128(s[..|s| - 1]);
      assert Pow2(7) == 128;
      XorBelow(CodeXor(s[..|s| - 1]), s[|s| - 1] as int, 7);
    }
  }

  /** Replacing any one character of the body by a different one changes the checksum. */
  lemma ChecksumDetectsOneChange(s: string, i: nat, c: char)
    requires i < |s| && c != s[i]
    ensures CodeXor(s[i := c]) != CodeXor(s)
  {
    var a, b := s[..i], s[i + 1..];
    var s' := s[i := c];
    assert s == (a + [s[i]]) + b;
    assert s' == (a + [c]) + b;
    CodeXorAppend(a + [s[i]], b);
    CodeXorAppend(a + [c], b);
    CodeXorAppend(a, [s[i]]);
    CodeXorAppend(a, [c]);
    assert [s[i]][..0] == [] && [c][..0] == [];
    XorZero(s[i] as int);
    XorZero(c as int);
    if CodeXor(s') == CodeXor(s) {
      var ca, cb := CodeXor(a), CodeXor(b);
      XorCommutes(Xor(ca, s[i] as int), cb);
      XorCommutes(Xor(ca, c as int), cb);
      XorCancels(cb, Xor(ca, s[i] as int), Xor(ca, c as int));
      XorCancels(ca, s[i] as int, c as int);
      assert false;
    }
  }

  lemma HexByte(n: nat)
    requires n < 256
    ensures Hex2(n) == [HexDigit(n / 16), HexDigit(n % 16)]
    ensures HexValue(HexDigit(n / 16)) == n / 16 && HexValue(HexDigit(n % 16)) == n % 16
  {
    if n < 16 {
      assert Hex(n) == [HexDigit(n)];
      assert n / 16 == 0 && n % 16 == n;
      assert HexDigit(0) == '0';
    } else {
      assert n / 16 < 16;
      assert Hex(n / 16) == [HexDigit(n / 16)];
      assert Hex(n) == [HexDigit(n / 16)] + [HexDigit(n % 16)];
    }
  }

  /** `calculate_checksum`: for an ASCII body the result is exactly two uppercase
      hexadecimal digits whose value is the xor of the body's character codes. */
  function ChecksumText(body: string): (r: string)
    ensures |r| >= 2 && forall i :: 0 <= i < |r| ==> IsUpperHex(r[i])
    ensures IsAscii(body) ==>
      && |r| == 2
      && 16 * HexValue(r[0]) + HexValue(r[1]) == CodeXor(body)
  {
    if IsAscii(body) then
      AsciiCodeXorBelow128(body);
      HexByte(CodeXor(body));
      Hex2(CodeXor(body))
    else Hex2(CodeXor(body))
  }

  /** The source's loop form of `calculate_checksum`. */
  method CalculateChecksum(sentence: string) returns (cs: string)
    ensures cs == ChecksumText(sentence)
  {
    var checksum: nat := 0;
    var i := 0;
    while i < |sentence|
      invariant 0 <= i <= |sentence|
      invariant checksum == CodeXor(sentence[..i])
    {
      assert sentence[..i + 1][..i] == sentence[..i];
      checksum := Xor(checksum, sentence[i] as int);
      i := i + 1;
    }
    assert sentence[..i] == sentence;
    cs := Hex2(checksum);
  }
}

=== FILE: csvload.dfy ===
/** The `csv` generator's loader. Each CSV row
    `point_number,latitude,longitude,speed,elevation[,duration[,transition[,description]]]`
    becomes a route point; empty rows and rows whose first cell starts with
    `#` are skipped. The point number column is read past, not used. Any
    failure is one `ValueError("Failed to load CSV file: …")`, which the
    model names by its cause. Rows arrive already split into cells, as
    `csv.reader` gives them; `now` is the clock reading each point gets. */
module CsvSource {
  import opened Results
  import opened Text
  import opened Numerics
  import opened DateTimes
  import opened Positions

  type Row = seq<string>

  datatype CsvError =
    | MissingPath   // no file argument at all
    | ShortRow      // a data row with fewer than five cells
    | BadNumber     // `float()` rejected a numeric cell
    | NoPoints      // no data row at all

  /** `not row or row[0].startswith('#')`. */
  predicate Skipped(row: Row) {
    |row| == 0 || StartsWith(row[0], "#")
  }

  /** One data row: cells 1 to 4 are latitude, longitude, speed and
      elevation; cells 5 to 7 are optional with defaults 0.0, `auto` and the
      empty text. */
  function RowPoint(num: Numerics, now: Instant, row: Row): (r: Result<LegacyPosition, CsvError>)
    requires !Skipped(row)
    ensures |row| < 5 ==> r == Failure(ShortRow)
    ensures r.Success? ==>
      && |row| >= 5
      && Some(r.value.lat) == num.parseFloat(row[1])
      && Some(r.value.lon) == num.parseFloat(row[2])
      && Some(r.value.speed) == num.parseFloat(row[3])
      && Some(r.value.elevation) == num.parseFloat(row[4])
      && r.value.time == now
      && (if |row| > 5 then Some(r.value.duration) == num.parseFloat(row[5]) else r.value.duration == 0.0)
      && r.value.transition == (if |row| > 6 then row[6] else DefaultTransition)
      && r.value.description == (if |row| > 7 then row[7] else "")
    ensures r.Failure? && |row| >= 5 ==>
      r.error == BadNumber
      && exists i :: 1 <= i < 6 && i < |row| && num.parseFloat(row[i]).None?
  {
    if |row| < 5 then Failure(ShortRow)
    else
      var lat :- ReadFloat(num, row[1], BadNumber);
      var lon :- ReadFloat(num, row[2], BadNumber);
      var speed :- ReadFloat(num, row[3], BadNumber);
      var elevation :- ReadFloat(num, row[4], BadNumber);
      var duration :- if |row| > 5 then ReadFloat(num, row[5], BadNumber) else Success(0.0);
      var transition := if |row| > 6 then row[6] else DefaultTransition;
      var description := if |row| > 7 then row[7] else "";
      Success(LegacyPosition(lat, lon, speed, elevation, now, duration, transition, description))
  }

  /** The loop over the rows: the first bad row stops the load. */
  function LoadRows(num: Numerics, now: Instant, rows: seq<Row>): (r: Result<seq<LegacyPosition>, CsvError>)
    ensures r.Success? ==> |r.value| <= |rows|
    ensures r.Failure? ==> r.error in {ShortRow, BadNumber}
    decreases |rows|
  {
    if rows == [] then Success([])
    else if Skipped(rows[0]) then LoadRows(num, now, rows[1..])
    else
      var p :- RowPoint(num, now, rows[0]);
      var rest :- LoadRows(num, now, rows[1..]);
      Success([p] + rest)
  }

  /** `_load_csv`: the rows, then at least one point. */
  function LoadCsv(num: Numerics, now: Instant, rows: seq<Row>): (r: Result<seq<LegacyPosition>, CsvError>)
    ensures r.Success? <==> LoadRows(num, now, rows).Success? && LoadRows(num, now, rows).value != []
    ensures r.Success? ==> r == LoadRows(num, now, rows)
    ensures LoadRows(num, now, rows).Failure? ==> r == LoadRows(num, now, rows)
  {
    var points :- LoadRows(num, now, rows);
    if points == [] then Failure(NoPoints) else Success(points)
  }

  /** `CSVGenerator.__init__`: the file name is required; each argument
      stands for the rows of the file it names. */
  function Load(num: Numerics, now: Instant, args: seq<seq<Row>>): (r: Result<seq<LegacyPosition>, CsvError>)
    ensures |args| == 0 ==> r == Failure(MissingPath)
    ensures |args| > 0 ==> r == LoadCsv(num, now, args[0])
  {
    if |args| == 0 then Failure(MissingPath) else LoadCsv(num, now, args[0])
  }

  /** The data rows, as a reference definition. */
  function DataRows(rows: seq<Row>): (r: seq<Row>)
    ensures |r| <= |rows|
    decreases |rows|
  {
    if rows == [] then []
    else if Skipped(rows[0]) then DataRows(rows[1..])
    else [rows[0]] + DataRows(rows[1..])
  }

  /** Skipped rows leave no trace: the load sees only the data rows. */
  lemma {:induction false} SkippedRowsIgnored(num: Numerics, now: Instant, rows: seq<Row>)
    ensures LoadRows(num, now, rows) == LoadRows(num, now, DataRows(rows))
    decreases |rows|
  {
    if rows != [] {
      SkippedRowsIgnored(num, now, rows[1..]);
      if !Skipped(rows[0]) {
        var d := [rows[0]] + DataRows(rows[1..]);
        assert d[0] == rows[0] && d[1..] == DataRows(rows[1..]);
      }
    }
  }

  /** Over data rows the load succeeds exactly when every row converts, and
      the `k`-th point is the `k`-th row's, in file order. */
  lemma {:induction false} RowsConvertInOrder(num: Numerics, now: Instant, rows: seq<Row>)
    requires forall i :: 0 <= i < |rows| ==> !Skipped(rows[i])
    ensures LoadRows(num, now, rows).Success?
      <==> forall i :: 0 <= i < |rows| ==> RowPoint(num, now, rows[i]).Success?
    ensures LoadRows(num, now, rows).Success? ==>
      && |LoadRows(num, now, rows).value| == |rows|
      && forall i :: 0 <= i < |rows| ==> LoadRows(num, now, rows).value[i] == RowPoint(num, now, rows[i]).value
    decreases |rows|
  {
    if rows != [] {
      var tail := rows[1..];
      forall i | 0 <= i < |tail|
        ensures !Skipped(tail[i])
      {
        assert tail[i] == rows[i + 1];
      }
      RowsConvertInOrder(num, now, tail);
      assert !Skipped(rows[0]);
      if LoadRows(num, now, rows).Success? {
        forall i | 0 <= i < |rows|
          ensures RowPoint(num, now, rows[i]).Success?
        {
          if i > 0 { assert rows[i] == tail[i - 1]; }
        }
      } else if RowPoint(num, now, rows[0]).Success? {
        assert LoadRows(num, now, tail).Failure?;
        var j :| 0 <= j < |tail| && RowPoint(num, now, tail[j]).Failure?;
        assert tail[j] == rows[j + 1];
      }
    }
  }

  /** A file of comments and blank lines holds no route. */
  lemma OnlyCommentsNoRoute(num: Numerics, now: Instant, rows: seq<Row>)
    requires forall i :: 0 <= i < |rows| ==> Skipped(rows[i])
    ensures LoadCsv(num, now, rows) == Failure(NoPoints)
  {
    SkippedRowsIgnored(num, now, rows);
    NoDataRows(rows);
  }

  lemma {:induction false} NoDataRows(rows: seq<Row>)
    requires forall i :: 0 <= i < |rows| ==> Skipped(rows[i])
    ensures DataRows(rows) == []
    decreases |rows|
  {
    if rows != [] {
      assert Skipped(rows[0]);
      forall i | 0 <= i < |rows| - 1
        ensures Skipped(rows[1..][i])
      {
        assert rows[1..][i] == rows[i + 1];
      }
      NoDataRows(rows[1..]);
    }
  }

  /** The shortest data row is enough: five cells give a point with every
      optional field at its default. */
  lemma FiveCellsDefaults(num: Numerics, now: Instant, row: Row)
    requires |row| == 5 && !Skipped(row)
    requires forall i :: 1 <= i < 5 ==> num.parseFloat(row[i]).Some?
    ensures RowPoint(num, now, row).Success?
    ensures RowPoint(num, now, row).value.duration == 0.0
    ensures RowPoint(num, now, row).value.transition == DefaultTransition
    ensures RowPoint(num, now, row).value.description == ""
  {
    assert num.parseFloat(row[1]).Some? && num.parseFloat(row[2]).Some?;
    assert num.parseFloat(row[3]).Some? && num.parseFloat(row[4]).Some?;
  }
}

=== FILE: datetimes.dfy ===
/** The part of Python's `datetime` the codec touches: construction with
    range checks, `replace` of the time of day, and the `strftime` patterns
    `%H%M%S.%f` and `%d%m%y`. The clock itself (`datetime.now`) is never read
    here: callers pass the current instant in. */
module DateTimes {
  import opened Results
  import opened Text

  datatype DateTime = DateTime(
    year: int, month: int, day: int,
    hour: int, minute: int, second: int, micro: int)

  predicate IsLeap(y: int) {
    y % 4 == 0 && (y % 100 != 0 || y % 400 == 0)
  }

  function DaysInMonth(y: int, m: int): (r: int)
    requires 1 <= m <= 12
    ensures 28 <= r <= 31
    ensures r == 29 <==> m == 2 && IsLeap(y)
  {
    if m == 2 then (if IsLeap(y) then 29 else 28)
    else if m == 4 || m == 6 || m == 9 || m == 11 then 30
    else 31
  }

  /** The ranges `datetime(...)` enforces (MINYEAR is 1, MAXYEAR is 9999). */
  predicate ValidDate(y: int, m: int, d: int) {
    1 <= y <= 9999 && 1 <= m <= 12 && 1 <= d <= DaysInMonth(y, m)
  }

  predicate ValidTime(h: int, mi: int, s: int, us: int) {
    0 <= h < 24 && 0 <= mi < 60 && 0 <= s < 60 && 0 <= us < 1000000
  }

  predicate Valid(dt: DateTime) {
    ValidDate(dt.year, dt.month, dt.day) && ValidTime(dt.hour, dt.minute, dt.second, dt.micro)
  }

  /** A Python `datetime` object: it cannot exist out of range. */
  type Instant = dt: DateTime | Valid(dt) witness DateTime(2000, 1, 1, 0, 0, 0, 0)

  /** `datetime(y, m, d, h, mi, s, us)`, with `None` where the constructor raises. */
  function Make(y: int, m: int, d: int, h: int, mi: int, s: int, us: int): (r: Option<Instant>)
    ensures r.Some? <==> ValidDate(y, m, d) && ValidTime(h, mi, s, us)
    ensures r.Some? ==> r.value == DateTime(y, m, d, h, mi, s, us)
  {
    var dt := DateTime(y, m, d, h, mi, s, us);
    if Valid(dt) then Some(dt) else None
  }

  /** `now.replace(hour=h, minute=mi, second=s, microsecond=us)`: the date of
      `now` with a new time of day, `None` where `replace` raises. */
  function ReplaceTime(now: Instant, h: int, mi: int, s: int, us: int): (r: Option<Instant>)
    ensures r.Some? <==> ValidTime(h, mi, s, us)
    ensures r.Some? ==>
      && r.value.year == now.year && r.value.month == now.month && r.value.day == now.day
      && r.value.hour == h && r.value.minute == mi && r.value.second == s && r.value.micro == us
  {
    var dt := now.(hour := h, minute := mi, second := s, micro := us);
    if ValidTime(h, mi, s, us) then Some(dt) else None
  }

  function Pad2(n: nat): (r: string)
    ensures AllDigits(r) && DigitsValue(r) == n
    ensures n < 100 ==> |r| == 2
  {
    ZeroPad(n, 2)
  }

  /** `dt.strftime("%H%M%S.%f")[:-3]`: hours, minutes and seconds as two
      digits each, a dot, and the first three of the six microsecond digits. */
  function TimeText(dt: Instant): string {
    var full := Pad2(dt.hour) + Pad2(dt.minute) + Pad2(dt.second) + "." + ZeroPad(dt.micro, 6);
    full[..|full| - 3]
  }

  lemma TimeTextParts(dt: Instant)
    ensures var r := TimeText(dt);
      && |r| == 10 && r[6] == '.'
      && r[..2] == Pad2(dt.hour) && r[2..4] == Pad2(dt.minute) && r[4..6] == Pad2(dt.second)
      && AllDigits(r[..6]) && AllDigits(r[7..])
  {
    var h, m, s, us := Pad2(dt.hour), Pad2(dt.minute), Pad2(dt.second), ZeroPad(dt.micro, 6);
    assert |us| == 6 by { assert Pow10(6) == 1000000; }
    var r := TimeText(dt);
    CutParts(h, m, s, us);
    DigitsConcat(h, m, s);
  }

  /** Where the pieces of `h + m + s + "." + us`, cut to ten characters, sit. */
  lemma CutParts(h: string, m: string, s: string, us: string)
    requires |h| == 2 && |m| == 2 && |s| == 2 && |us| == 6
    ensures var r := (h + m + s + "." + us)[..10];
      && |r| == 10 && r[6] == '.'
      && r[..2] == h && r[2..4] == m && r[4..6] == s
      && r[..6] == h + m + s && r[7..] == us[..3]
  {
    var r := (h + m + s + "." + us)[..10];
    assert r[..6] == h + m + s;
    assert r[2..4] == (h + m + s)[2..4];
    assert (h + m + s)[2..4] == m;
  }

  lemma DigitsConcat(h: string, m: string, s: string)
    requires AllDigits(h) && AllDigits(m) && AllDigits(s)
    ensures AllDigits(h + m + s)
  {
    assert forall i :: 0 <= i < |h + m| ==> (h + m)[i] == (if i < |h| then h[i] else m[i - |h|]);
    assert forall i :: 0 <= i < |h + m + s| ==>
      (h + m + s)[i] == (if i < |h + m| then (h + m)[i] else s[i - |h + m|]);
  }

  /** `dt.strftime("%d%m%y")`: day, month and the year modulo 100, two digits each. */
  function DateText(dt: Instant): string {
    Pad2(dt.day) + Pad2(dt.month) + Pad2(dt.year % 100)
  }

  lemma DateTextParts(dt: Instant)
    ensures var r := DateText(dt);
      && |r| == 6
      && r[..2] == Pad2(dt.day) && r[2..4] == Pad2(dt.month) && r[4..] == Pad2(dt.year % 100)
  {
  }

  /** Reading a two-digit year as `2000 + YY` keeps a leap year a leap year. */
  lemma CenturyKeepsLeap(y: int)
    requires 1 <= y && IsLeap(y)
    ensures IsLeap(2000 + y % 100)
  {
    var yy := y % 100;
    var q, k := y / 100, y / 4;
    assert y == 100 * q + yy && y == 4 * k;
    assert yy == 4 * (k - 25 * q);
    assert 2000 + yy == 4 * (500 + k - 25 * q);
    if yy != 0 {
      assert (2000 + yy) % 100 == yy;
    }
  }

  /** A valid calendar date stays valid when its year is replaced by
      `2000 + year % 100`, as a round trip through `%y` does. */
  lemma CenturyKeepsDate(y: int, m: int, d: int)
    requires ValidDate(y, m, d)
    ensures ValidDate(2000 + y % 100, m, d)
  {
    if IsLeap(y) {
      CenturyKeepsLeap(y);
    }
  }
}

=== FILE: decoder.dfy ===
/** `NMEADecoder`: an RMC or GGA sentence read back into a `Position`. The
    talker-and-type tags the decoder accepts are a parameter (`Dialect`),
    because the two revisions of the program accept different sets. */
module Decoder {
  import opened Results
  import opened Text
  import opened Numerics
  import opened DateTimes
  import opened Positions
  import opened Sentences

  /** The tags read as RMC and the tags read as GGA. */
  datatype Dialect = Dialect(rmc: set<string>, gga: set<string>)

  /** The current revision accepts the GPS, bare and multi-constellation tags. */
  const CoreDialect: Dialect := Dialect({"GPRMC", "RMC", "GNRMC"}, {"GPGGA", "GGA", "GNGGA"})

  /** The exceptions `decode` raises, one per message of the source. */
  datatype DecodeError =
    | NotNmea          // "Not a valid NMEA sentence"
    | InvalidRmc       // "Invalid RMC sentence"
    | InvalidGga       // "Invalid GGA sentence"
    | BadNumber        // `int()` or `float()` of a coordinate, speed or altitude raised
    | NoDateTimeRmc    // "No valid datetime in RMC"
    | NoDateTimeGga    // "No valid datetime in GGA"
    | Unsupported      // "Unsupported NMEA sentence type"

  /** Knots to km/h, the factor the decoder applies to the RMC speed. */
  const KmhPerKnot: real := 1.852

  function ReadInt(s: string): (r: Result<int, DecodeError>)
    ensures r.Success? <==> PyInt(s).Some?
    ensures r.Success? ==> r.value == PyInt(s).value
    ensures r.Failure? ==> r.error == BadNumber
  {
    OrFail(PyInt(s), BadNumber)
  }

  /** `_parse_lat` (width 2, negative hemisphere `S`) and `_parse_lon`
      (width 3, negative hemisphere `W`): whole degrees from the first
      `width` characters, minutes from the rest. An empty text or hemisphere
      reads as 0; a number that does not parse raises. */
  function ParseDegrees(num: Numerics, width: nat, text: string, hemi: string, negative: string)
    : (r: Result<real, DecodeError>)
    ensures text == "" || hemi == "" ==> r == Success(0.0)
    ensures r.Failure? ==> r.error == BadNumber
  {
    if text == "" || hemi == "" then Success(0.0)
    else
      var deg :- ReadInt(Slice(text, 0, width));
      var minutes :- ReadFloat(num, Slice(text, width, |text|), BadNumber);
      var magnitude := deg as real + minutes / 60.0;
      Success(if hemi == negative then -magnitude else magnitude)
  }

  function ParseLat(num: Numerics, text: string, hemi: string): Result<real, DecodeError> {
    ParseDegrees(num, 2, text, hemi, "S")
  }

  function ParseLon(num: Numerics, text: string, hemi: string): Result<real, DecodeError> {
    ParseDegrees(num, 3, text, hemi, "W")
  }

  /** A latitude field led by the ASCII separator U+001C raises in `int()`,
      although `strip()` would treat that character as blank. */
  lemma SeparatorLatitudeRejected(num: Numerics)
    ensures ParseLat(num, "\U{001C}130.000", "N") == Failure(BadNumber)
  {
    var text := "\U{001C}130.000";
    assert Slice(text, 0, 2) == "\U{001C}1";
    IntRefusesSeparator();
  }

  /** The negative hemisphere letter flips the sign and nothing else: any
      other non-empty letter reads as the positive hemisphere. */
  lemma HemisphereFlips(num: Numerics, width: nat, text: string, negative: string, other: string)
    requires text != "" && negative != "" && other != "" && other != negative
    ensures ParseDegrees(num, width, text, negative, negative).Success?
        <==> ParseDegrees(num, width, text, other, negative).Success?
    ensures ParseDegrees(num, width, text, negative, negative).Success? ==>
      ParseDegrees(num, width, text, negative, negative).value
        == -ParseDegrees(num, width, text, other, negative).value
  {
  }

  /** `int(float('0.' + time_str.split('.')[1]) * 1e6)` when the time has a
      dot, 0 otherwise; `None` where `float()` raises. */
  function MicroOf(num: Numerics, time: string): (r: Option<int>)
    ensures '.' !in time ==> r == Some(0)
  {
    if '.' in time then
      var v :- num.parseFloat(FractionText(Split(time, '.')[1]));
      Some(Trunc(v * 1000000.0))
    else Some(0)
  }

  /** A time of day as the decoder reads it, before any range check. */
  datatype Clock = Clock(hour: int, minute: int, second: int, micro: int)

  /** A calendar date as the decoder reads it, before any range check. */
  datatype Day = Day(year: int, month: int, day: int)

  /** The four parts of a time of day, each of which may have failed to parse. */
  function AssembleClock(h: Option<int>, mi: Option<int>, s: Option<int>, us: Option<int>): (r: Option<Clock>)
    ensures r.Some? <==> h.Some? && mi.Some? && s.Some? && us.Some?
    ensures r.Some? ==> r.value == Clock(h.value, mi.value, s.value, us.value)
  {
    var h :- h;
    var mi :- mi;
    var s :- s;
    var us :- us;
    Some(Clock(h, mi, s, us))
  }

  /** The three parts of a `DDMMYY` date, each of which may have failed to parse. */
  function AssembleDay(d: Option<int>, mo: Option<int>, yy: Option<int>): (r: Option<Day>)
    ensures r.Some? <==> d.Some? && mo.Some? && yy.Some?
    ensures r.Some? ==> r.value == Day(yy.value + 2000, mo.value, d.value)
  {
    var d :- d;
    var mo :- mo;
    var yy :- yy;
    Some(Day(yy + 2000, mo, d))
  }

  /** Hours, minutes and seconds from `time[0:2]`, `time[2:4]`, `time[4:6]`,
      and the microseconds; `None` where `int()` or `float()` raises. */
  function ParseClock(num: Numerics, time: string): (r: Option<Clock>)
    ensures '.' !in time && r.Some? ==> r.value.micro == 0
  {
    AssembleClock(PyInt(Slice(time, 0, 2)), PyInt(Slice(time, 2, 4)), PyInt(Slice(time, 4, 6)),
                  MicroOf(num, time))
  }

  /** Day, month and `2000 + YY` from `date[0:2]`, `date[2:4]`, `date[4:6]`.
      Two characters give at most a sign and one digit or two digits, so the
      year lands in 1991-2099. */
  function ParseDay(date: string): (r: Option<Day>)
    ensures r.Some? ==> 1991 <= r.value.year <= 2099
  {
    TwoCharInt(Slice(date, 4, 6));
    AssembleDay(PyInt(Slice(date, 0, 2)), PyInt(Slice(date, 2, 4)), PyInt(Slice(date, 4, 6)))
  }

  /** `_parse_datetime`: the time of day from `time`, the calendar date from
      `date` when there is one and otherwise from `now`. Every failure,
      including an out-of-range field, gives `None`. */
  function ParseDateTime(num: Numerics, now: Instant, time: string, date: string): (r: Option<Instant>)
    ensures time == "" ==> r == None
    ensures r.Some? && date == "" ==>
      r.value.year == now.year && r.value.month == now.month && r.value.day == now.day
    ensures r.Some? && date != "" ==> 1991 <= r.value.year <= 2099
    ensures r.Some? ==>
      ParseClock(num, time) == Some(Clock(r.value.hour, r.value.minute, r.value.second, r.value.micro))
  {
    if time == "" then None
    else
      var c :- ParseClock(num, time);
      if date != "" then
        var d :- ParseDay(date);
        Make(d.year, d.month, d.day, c.hour, c.minute, c.second, c.micro)
      else ReplaceTime(now, c.hour, c.minute, c.second, c.micro)
  }

  lemma {:induction false} DigitsBelow(s: string)
    requires AllDigits(s)
    ensures DigitsValue(s) < Pow10(|s|)
    decreases |s|
  {
    if |s| > 0 {
      DigitsBelow(s[..|s| - 1]);
    }
  }

  /** `int()` of at most two characters lies in [-9, 99]: a sign leaves room
      for one digit only. */
  lemma TwoCharInt(s: string)
    requires |s| <= 2
    ensures PyInt(s).Some? ==> -9 <= PyInt(s).value <= 99
  {
    if |s| > 0 && AllDigits(s) {
      DigitsBelow(s);
      assert Pow10(|s|) <= 100;
    } else {
      assert PyInt(s) == IntOfText(s);
      assert |IntStrip(s)| <= 2;
      ShortIntOfText(s);
    }
  }

  /** The general reading of a stripped text of at most two characters. */
  lemma ShortIntOfText(s: string)
    requires |IntStrip(s)| <= 2
    ensures IntOfText(s).Some? ==> -9 <= IntOfText(s).value <= 99
  {
    var t := IntStrip(s);
    if |t| > 0 && (t[0] == '+' || t[0] == '-') {
      ShortGrouped(t[1..]);
      assert Pow10(|t[1..]|) <= 10;
    } else {
      ShortGrouped(t);
      assert Pow10(|t|) <= 100;
    }
  }

  /** At most two characters leave no room for an underscore, so grouped
      digits that short read as a value below `10^len`. */
  lemma ShortGrouped(g: string)
    requires |g| <= 2
    ensures GroupedValue(g).Some? ==> 0 <= GroupedValue(g).value < Pow10(|g|)
  {
    if WellGrouped(g) {
      assert AllDigits(g);
      DigitsBelow(g);
    }
  }

  /** The RMC branch: at least ten fields and status `A`; speed in knots
      converted to km/h; no altitude. */
  function DecodeRmc(num: Numerics, now: Instant, fs: seq<string>): (r: Result<Position, DecodeError>)
    ensures r == Failure(InvalidRmc) <==> |fs| < 10 || fs[2] != "A"
    ensures r.Failure? ==> r.error == InvalidRmc || r.error == BadNumber || r.error == NoDateTimeRmc
    ensures r.Success? ==> r.value == Fix(0, r.value.lat, r.value.lon, r.value.speed, 0.0, r.value.time)
    ensures r.Success? ==> ParseDateTime(num, now, fs[1], fs[9]) == Some(r.value.time)
  {
    if |fs| < 10 || fs[2] != "A" then Failure(InvalidRmc)
    else
      RmcFix(ParseLat(num, fs[3], fs[4]), ParseLon(num, fs[5], fs[6]),
             if fs[7] != "" then ReadFloat(num, fs[7], BadNumber) else Success(0.0),
             ParseDateTime(num, now, fs[1], fs[9]))
  }

  /** The RMC fix from its parts, read in order: the first part that failed
      decides the error. */
  function RmcFix(lat: Result<real, DecodeError>, lon: Result<real, DecodeError>,
                  knots: Result<real, DecodeError>, time: Option<Instant>): (r: Result<Position, DecodeError>)
    ensures r.Success? <==> lat.Success? && lon.Success? && knots.Success? && time.Some?
    ensures r.Success? ==> r.value == Fix(0, lat.value, lon.value, knots.value * KmhPerKnot, 0.0, time.value)
    ensures r.Failure? ==>
      || (lat.Failure? && r.error == lat.error)
      || (lon.Failure? && r.error == lon.error)
      || (knots.Failure? && r.error == knots.error)
      || r.error == NoDateTimeRmc
  {
    var la :- lat;
    var lo :- lon;
    var k :- knots;
    var t :- OrFail(time, NoDateTimeRmc);
    Success(Fix(0, la, lo, k * KmhPerKnot, 0.0, t))
  }

  /** The GGA branch: at least ten fields; altitude from field 9; no speed;
      the date is today's. */
  function DecodeGga(num: Numerics, now: Instant, fs: seq<string>): (r: Result<Position, DecodeError>)
    ensures r == Failure(InvalidGga) <==> |fs| < 10
    ensures r.Failure? ==> r.error == InvalidGga || r.error == BadNumber || r.error == NoDateTimeGga
    ensures r.Success? ==> r.value == Fix(0, r.value.lat, r.value.lon, 0.0, r.value.elevation, r.value.time)
    ensures r.Success? ==>
      r.value.time.year == now.year && r.value.time.month == now.month && r.value.time.day == now.day
  {
    if |fs| < 10 then Failure(InvalidGga)
    else
      GgaFix(ParseLat(num, fs[2], fs[3]), ParseLon(num, fs[4], fs[5]),
             if fs[9] != "" then ReadFloat(num, fs[9], BadNumber) else Success(0.0),
             ParseDateTime(num, now, fs[1], ""))
  }

  /** The GGA fix from its parts, read in order. */
  function GgaFix(lat: Result<real, DecodeError>, lon: Result<real, DecodeError>,
                  elevation: Result<real, DecodeError>, time: Option<Instant>): (r: Result<Position, DecodeError>)
    ensures r.Success? <==> lat.Success? && lon.Success? && elevation.Success? && time.Some?
    ensures r.Success? ==> r.value == Fix(0, lat.value, lon.value, 0.0, elevation.value, time.value)
    ensures r.Failure? ==>
      || (lat.Failure? && r.error == lat.error)
      || (lon.Failure? && r.error == lon.error)
      || (elevation.Failure? && r.error == elevation.error)
      || r.error == NoDateTimeGga
  {
    var la :- lat;
    var lo :- lon;
    var e :- elevation;
    var t :- OrFail(time, NoDateTimeGga);
    Success(Fix(0, la, lo, 0.0, e, t))
  }

  /** The branch on the tag, over the cut fields. */
  function DecodeFields(num: Numerics, now: Instant, dialect: Dialect, fs: seq<string>)
    : (r: Result<Position, DecodeError>)
    requires |fs| >= 1
    ensures r != Failure(NotNmea)
    ensures r == Failure(Unsupported) <==> fs[0] !in dialect.rmc && fs[0] !in dialect.gga
    ensures r.Success? ==>
      && r.value.index == 0 && r.value.duration == 0.0
      && r.value.transition == DefaultTransition && r.value.description == ""
    ensures r.Success? && fs[0] in dialect.rmc ==> |fs| >= 10 && fs[2] == "A" && r.value.elevation == 0.0
    ensures r.Success? && fs[0] !in dialect.rmc ==> |fs| >= 10 && r.value.speed == 0.0
  {
    if fs[0] in dialect.rmc then DecodeRmc(num, now, fs)
    else if fs[0] in dialect.gga then DecodeGga(num, now, fs)
    else Failure(Unsupported)
  }

  /** `NMEADecoder.decode`: the `$` test comes before any stripping; the tag
      picks the branch; any other tag is unsupported. */
  function Decode(num: Numerics, now: Instant, dialect: Dialect, raw: string): (r: Result<Position, DecodeError>)
    ensures r == Failure(NotNmea) <==> !StartsWith(raw, "$")
    ensures r == Failure(Unsupported) <==>
      StartsWith(raw, "$") && Fields(raw)[0] !in dialect.rmc && Fields(raw)[0] !in dialect.gga
    ensures r.Success? ==>
      && r.value.index == 0 && r.value.duration == 0.0
      && r.value.transition == DefaultTransition && r.value.description == ""
    ensures r.Success? && Fields(raw)[0] in dialect.rmc ==>
      |Fields(raw)| >= 10 && Fields(raw)[2] == "A" && r.value.elevation == 0.0
    ensures r.Success? && Fields(raw)[0] !in dialect.rmc ==>
      |Fields(raw)| >= 10 && r.value.speed == 0.0
  {
    if !StartsWith(raw, "$") then Failure(NotNmea)
    else DecodeFields(num, now, dialect, Fields(raw))
  }

  /** The checksum is never verified: whatever follows the first `*` has no
      effect on the result. */
  lemma DecodeIgnoresChecksum(num: Numerics, now: Instant, dialect: Dialect,
                              body: string, tail1: string, tail2: string)
    requires '*' !in body
    ensures Decode(num, now, dialect, "$" + body + "*" + tail1)
         == Decode(num, now, dialect, "$" + body + "*" + tail2)
  {
    FieldsIgnoreSuffix(body, tail1);
    FieldsIgnoreSuffix(body, tail2);
    assert StartsWith("$" + body + "*" + tail1, "$");
    assert StartsWith("$" + body + "*" + tail2, "$");
  }
}

=== FILE: dynamic.dfy ===
/** The `dynamic` generator: circles around a centre computed so that the
    starting point lies on the circle, one step per call, forever. Its
    settings come from `key=value` words after the latitude and longitude.
    The great-circle trigonometry is a given `Geometry`. */
module Dynamic {
  import opened Results
  import opened Text
  import opened Numerics
  import opened DateTimes
  import opened Positions
  import opened Options
  import opened Iteration

  /** `math.pi` as a double. */
  const Pi: real := 3.141592653589793

  const DefaultSpeed: real := 10.0     // km/h
  const DefaultDuration: real := 1.0   // seconds per step
  const DefaultRadius: real := 0.1     // km

  /** The settings the words may change. */
  datatype Settings = Settings(speed: real, duration: real, transition: string, radius: real)

  const Defaults: Settings := Settings(DefaultSpeed, DefaultDuration, DefaultTransition, DefaultRadius)

  /** The `ValueError`s the constructor raises; `BadCoordinate` is the one
      `float()` itself raises for the latitude or longitude. */
  datatype ConfigError = MissingLatLon | InvalidSpeed | InvalidDuration | InvalidRadius | BadCoordinate

  /** The great-circle formulas: the centre for a starting point and radius,
      and the point at an angle on the circle around a centre. */
  datatype Geometry = Geometry(
    center: (real, real, real) -> (real, real),
    onCircle: (real, real, real, real) -> (real, real))

  /** The generator's state between calls. */
  datatype Dynamic = Dynamic(index: int, angle: real, settings: Settings, centerLat: real, centerLon: real)

  /** The setting a word names, in the order the constructor tests them. */
  function KeyOf(word: string): (r: Option<string>)
    ensures r.Some? ==> HasKey(word, r.value)
  {
    if HasKey(word, "speed") then Some("speed")
    else if HasKey(word, "duration") then Some("duration")
    else if HasKey(word, "transition") then Some("transition")
    else if HasKey(word, "radius") then Some("radius")
    else None
  }

  /** The value the model reads is what `word.split("=", 1)[1]` gives. */
  lemma WordValueIsSplit(word: string)
    requires KeyOf(word).Some?
    ensures AfterFirstEquals(word) == Some(Setting(word, KeyOf(word).value))
  {
    var key := KeyOf(word).value;
    assert '=' !in key by {
      assert key == "speed" || key == "duration" || key == "transition" || key == "radius";
    }
    SettingIsSplit(word, key);
  }

  /** One word of the loop in `__init__`: a number for speed, duration and
      radius (or the matching error), the raw text for transition, and
      nothing for any other word. */
  function ApplyWord(num: Numerics, s: Settings, word: string): (r: Result<Settings, ConfigError>)
    ensures KeyOf(word).None? ==> r == Success(s)
    ensures r.Failure? ==> r.error in {InvalidSpeed, InvalidDuration, InvalidRadius}
    ensures KeyOf(word) == Some("transition") ==> r == Success(s.(transition := Setting(word, "transition")))
    ensures KeyOf(word) == Some("speed") ==>
      var v := num.parseFloat(Setting(word, "speed"));
      && (r.Success? <==> v.Some?) && (r.Failure? ==> r.error == InvalidSpeed)
      && (r.Success? ==> r.value == s.(speed := v.value))
    ensures KeyOf(word) == Some("duration") ==>
      var v := num.parseFloat(Setting(word, "duration"));
      && (r.Success? <==> v.Some?) && (r.Failure? ==> r.error == InvalidDuration)
      && (r.Success? ==> r.value == s.(duration := v.value))
    ensures KeyOf(word) == Some("radius") ==>
      var v := num.parseFloat(Setting(word, "radius"));
      && (r.Success? <==> v.Some?) && (r.Failure? ==> r.error == InvalidRadius)
      && (r.Success? ==> r.value == s.(radius := v.value))
  {
    match KeyOf(word)
    case None => Success(s)
    case Some(key) =>
      var text := Setting(word, key);
      if key == "speed" then
        var v :- OrFail(num.parseFloat(text), InvalidSpeed);
        Success(s.(speed := v))
      else if key == "duration" then
        var v :- OrFail(num.parseFloat(text), InvalidDuration);
        Success(s.(duration := v))
      else if key == "transition" then
        Success(s.(transition := text))
      else
        var v :- OrFail(num.parseFloat(text), InvalidRadius);
        Success(s.(radius := v))
  }

  /** The whole loop over the words: the first bad number stops it. */
  function ApplyWords(num: Numerics, s: Settings, words: seq<string>): (r: Result<Settings, ConfigError>)
    decreases |words|
  {
    if words == [] then Success(s)
    else
      var next :- ApplyWord(num, s, words[0]);
      ApplyWords(num, next, words[1..])
  }

  /** `DynamicGenerator.__init__`: at least latitude and longitude; then the
      words; then the two coordinates through `float()` and the centre. */
  function Configure(num: Numerics, geo: Geometry, args: seq<string>): (r: Result<Dynamic, ConfigError>)
    ensures |args| < 2 ==> r == Failure(MissingLatLon)
    ensures r.Success? ==>
      && |args| >= 2 && r.value.index == 0 && r.value.angle == 0.0
      && ApplyWords(num, Defaults, args[2..]) == Success(r.value.settings)
      && num.parseFloat(args[0]).Some? && num.parseFloat(args[1]).Some?
      && (r.value.centerLat, r.value.centerLon)
         == geo.center(num.parseFloat(args[0]).value, num.parseFloat(args[1]).value, r.value.settings.radius)
  {
    if |args| < 2 then Failure(MissingLatLon)
    else
      var s :- ApplyWords(num, Defaults, args[2..]);
      var lat :- OrFail(num.parseFloat(args[0]), BadCoordinate);
      var lon :- OrFail(num.parseFloat(args[1]), BadCoordinate);
      var c := geo.center(lat, lon, s.radius);
      Success(Dynamic(0, 0.0, s, c.0, c.1))
  }

  /** Words that name no setting change nothing. */
  lemma {:induction false} UnknownWordsIgnored(num: Numerics, s: Settings, words: seq<string>)
    requires forall i :: 0 <= i < |words| ==> KeyOf(words[i]).None?
    ensures ApplyWords(num, s, words) == Success(s)
    decreases |words|
  {
    if words != [] {
      assert KeyOf(words[0]).None?;
      UnknownWordsIgnored(num, s, words[1..]);
    }
  }

  /** Splitting the words splits the loop. */
  lemma {:induction false} WordsCompose(num: Numerics, s: Settings, a: seq<string>, b: seq<string>)
    ensures ApplyWords(num, s, a + b) ==
      match ApplyWords(num, s, a)
      case Failure(e) => Failure(e)
      case Success(t) => ApplyWords(num, t, b)
    decreases |a|
  {
    if a == [] {
      assert a + b == b;
    } else {
      assert (a + b)[0] == a[0];
      assert (a + b)[1..] == a[1..] + b;
      match ApplyWord(num, s, a[0])
      case Failure(e) =>
      case Success(t) => WordsCompose(num, t, a[1..], b);
    }
  }

  /** A later word for the same setting overrides an earlier one. */
  lemma LaterWordWins(num: Numerics, s: Settings, first: string, second: string)
    requires KeyOf(first).Some? && KeyOf(first) == KeyOf(second)
    requires ApplyWord(num, s, first).Success?
    ensures ApplyWords(num, s, [first, second]) == ApplyWord(num, s, second)
  {
    var t := ApplyWord(num, s, first).value;
    assert [first, second][1..] == [second];
    assert ApplyWords(num, t, [second]) == ApplyWord(num, t, second) by {
      assert [second][1..] == [];
      match ApplyWord(num, t, second)
      case Failure(e) =>
      case Success(u) =>
    }
  }

  /** With only the two coordinates every setting keeps its default. */
  lemma DefaultSettings(num: Numerics, geo: Geometry, lat: string, lon: string)
    requires num.parseFloat(lat).Some? && num.parseFloat(lon).Some?
    ensures Configure(num, geo, [lat, lon]).Success?
    ensures Configure(num, geo, [lat, lon]).value.settings == Defaults
  {
    assert [lat, lon][2..] == [];
  }

  /** The angle travelled in one step: the arc `speed * duration / 3600`
      over the circumference, as a fraction of a full turn; nothing when the
      circumference is not positive. */
  function Increment(s: Settings): (r: real)
    ensures s.radius <= 0.0 ==> r == 0.0
  {
    var circumference := 2.0 * Pi * s.radius;
    if circumference > 0.0 then (s.speed * s.duration / 3600.0) / circumference * 2.0 * Pi else 0.0
  }

  /** The state change of one call: turn by the increment modulo 2π and
      count one more point. */
  function Turned(d: Dynamic): (r: Dynamic)
    ensures r == d.(index := d.index + 1, angle := r.angle)
    ensures 0.0 <= r.angle < 2.0 * Pi
  {
    d.(index := d.index + 1, angle := FloorMod(d.angle + Increment(d.settings), 2.0 * Pi))
  }

  /** `_update_position` as evidently intended: turn, move to that point of
      the circle, count one more point, and hand out that point numbered. */
  function Step(geo: Geometry, d: Dynamic, now: Instant): (r: (Position, Dynamic))
    ensures r.1 == d.(index := d.index + 1, angle := r.1.angle)
    ensures 0.0 <= r.1.angle < 2.0 * Pi
    ensures r.0.index == d.index + 1 && r.0.time == now
    ensures r.0.speed == d.settings.speed && r.0.duration == d.settings.duration
    ensures r.0.transition == d.settings.transition
    ensures r.0.elevation == 0.0 && r.0.description == ""
    ensures (r.0.lat, r.0.lon) == geo.onCircle(d.centerLat, d.centerLon, d.settings.radius, r.1.angle)
  {
    var next := Turned(d);
    var at := geo.onCircle(d.centerLat, d.centerLon, d.settings.radius, next.angle);
    (Position(next.index, at.0, at.1, d.settings.speed, 0.0, now, d.settings.duration, d.settings.transition, ""), next)
  }

  /** The exception `_update_position` raises as written: the module takes
      its record type from `generator.py`, which has no `index` field, so
      the keyword `index=` is a `TypeError`. */
  datatype UpdateError = UnexpectedIndexArgument

  /** `_update_position` as written: the angle and the counter are updated
      first, then building the record raises, and `__next__` passes the
      exception on. */
  function StepAsWritten(geo: Geometry, d: Dynamic, now: Instant): (r: (Result<Position, UpdateError>, Dynamic))
    ensures r.0 == Failure(UnexpectedIndexArgument)
    ensures r.1 == d.(index := d.index + 1, angle := r.1.angle)
    ensures 0.0 <= r.1.angle < 2.0 * Pi
  {
    (Failure(UnexpectedIndexArgument), Turned(d))
  }

  /** As written a call moves the state exactly as intended but loses the
      point the intended call hands out. */
  lemma AsWrittenLosesPoint(geo: Geometry, d: Dynamic, now: Instant)
    ensures StepAsWritten(geo, d, now).1 == Step(geo, d, now).1
    ensures StepAsWritten(geo, d, now).0.Failure?
    ensures Step(geo, d, now).0.index == d.index + 1
  {
  }

  /** `next()` called once per clock reading on the code as written: every
      outcome and the final state. */
  function RunAsWritten(geo: Geometry, d: Dynamic, clock: seq<Instant>): (r: (seq<Result<Position, UpdateError>>, Dynamic))
    ensures |r.0| == |clock|
    decreases |clock|
  {
    if clock == [] then ([], d)
    else
      var s := StepAsWritten(geo, d, clock[0]);
      var rest := RunAsWritten(geo, s.1, clock[1..]);
      ([s.0] + rest.0, rest.1)
  }

  /** As written the generator never yields a point: every call raises,
      while the counter still goes up by one per call and the settings
      stay. */
  lemma {:induction false} EveryCallFails(geo: Geometry, d: Dynamic, clock: seq<Instant>)
    ensures forall k :: 0 <= k < |clock| ==> RunAsWritten(geo, d, clock).0[k] == Failure(UnexpectedIndexArgument)
    ensures RunAsWritten(geo, d, clock).1.index == d.index + |clock|
    ensures RunAsWritten(geo, d, clock).1.settings == d.settings
    decreases |clock|
  {
    if clock != [] {
      var s := StepAsWritten(geo, d, clock[0]);
      EveryCallFails(geo, s.1, clock[1..]);
      var rest := RunAsWritten(geo, s.1, clock[1..]);
      assert RunAsWritten(geo, d, clock).0 == [s.0] + rest.0;
    }
  }

  /** With no positive radius the generator stands still: the angle, once in
      range, never changes. */
  lemma StandsStill(geo: Geometry, d: Dynamic, now: Instant)
    requires d.settings.radius <= 0.0 && 0.0 <= d.angle < 2.0 * Pi
    ensures Step(geo, d, now).1.angle == d.angle
  {
    FloorModInRange(d.angle, 2.0 * Pi);
  }

  /** `next()` called once per clock reading: the generator never ends. */
  function Run(geo: Geometry, d: Dynamic, clock: seq<Instant>): (r: seq<Step<Position>>)
    ensures |r| == |clock|
    decreases |clock|
  {
    if clock == [] then []
    else
      var s := Step(geo, d, clock[0]);
      [Next(Some(s.0))] + Run(geo, s.1, clock[1..])
  }

  /** Every call yields, and the `k`-th yielded point is numbered `k + 1`
      past the starting count, stamped with its clock reading and carrying
      the configured speed, duration and transition. */
  lemma {:induction false} RunNumbersPoints(geo: Geometry, d: Dynamic, clock: seq<Instant>, k: int)
    requires 0 <= k < |clock|
    ensures Run(geo, d, clock)[k].Yield?
    ensures var p := Run(geo, d, clock)[k].value;
      && p.index == d.index + k + 1 && p.time == clock[k]
      && p.speed == d.settings.speed && p.duration == d.settings.duration
      && p.transition == d.settings.transition && p.elevation == 0.0
    decreases k
  {
    var s := Step(geo, d, clock[0]);
    if k > 0 {
      RunNumbersPoints(geo, s.1, clock[1..], k - 1);
      assert Run(geo, d, clock)[k] == Run(geo, s.1, clock[1..])[k - 1];
    }
  }
}

=== FILE: encoder.dfy ===
/** `NMEAEncoder` of the current revision: a `Position` rendered as an RMC
    (recommended minimum) and a GGA (fix data) sentence. */
module Encoder {
  import opened Text
  import opened Checksum
  import opened Numerics
  import opened DateTimes
  import opened Positions
  import opened Sentences

  const FixQuality: string := "1"
  const Satellites: string := "08"
  const Hdop: string := "1.0"
  const GeoidSeparation: string := "0.0"
  const DgpsAge: string := ""
  const DgpsRef: string := ""

  /** The factor `encode_rmc` applies to turn km/h into knots. */
  const KnotsPerKmh: real := 0.539957

  /** `(lat_str, lat_dir, lon_str, lon_dir)`. */
  datatype Coords = Coords(latText: string, latHemi: string, lonText: string, lonHemi: string)

  /** `abs((x - int(x)) * 60)`: the minutes left after the whole degrees, which
      together with the truncated degrees give `x` back, the sign carried apart. */
  function MinutesOf(x: real): (m: real)
    ensures 0.0 <= m < 60.0
    ensures x >= 0.0 ==> x == IntAbs(Trunc(x)) as real + m / 60.0
    ensures x < 0.0 ==> x == -(IntAbs(Trunc(x)) as real + m / 60.0)
  {
    Abs((x - Trunc(x) as real) * 60.0)
  }

  /** `f"{abs(int(x)):0{width}d}{minutes:09.6f}"`. */
  function DegreesText(num: Numerics, x: real, width: nat): string {
    ZeroPad(IntAbs(Trunc(x)), width) + num.minutes(MinutesOf(x))
  }

  /** When the whole degrees fit the width, the first `width` characters are
      their digits and the rest is the rendering of the minutes. */
  lemma DegreesTextParts(num: Numerics, x: real, width: nat)
    requires IntAbs(Trunc(x)) < Pow10(width) && width >= 1
    ensures var r := DegreesText(num, x, width);
      && |r| >= width && AllDigits(r[..width]) && DigitsValue(r[..width]) == IntAbs(Trunc(x))
      && r[width..] == num.minutes(MinutesOf(x))
  {
    var d := ZeroPad(IntAbs(Trunc(x)), width);
    var r := d + num.minutes(MinutesOf(x));
    assert r[..|d|] == d && r[|d|..] == num.minutes(MinutesOf(x));
  }

  /** `format_coords`: the hemisphere letters carry the sign, the degree
      digits carry the truncated magnitude. */
  function FormatCoords(num: Numerics, lat: real, lon: real): (c: Coords)
    ensures (c.latHemi == "N" || c.latHemi == "S") && (c.latHemi == "S" <==> lat < 0.0)
    ensures (c.lonHemi == "E" || c.lonHemi == "W") && (c.lonHemi == "W" <==> lon < 0.0)
  {
    Coords(
      DegreesText(num, lat, 2), if lat >= 0.0 then "N" else "S",
      DegreesText(num, lon, 3), if lon >= 0.0 then "E" else "W")
  }

  /** A latitude just south of the equator keeps `00` degrees and gets `S`. */
  lemma SouthOfEquator(num: Numerics)
    ensures FormatCoords(num, -0.5, 0.0).latHemi == "S"
    ensures FormatCoords(num, -0.5, 0.0).latText[..2] == "00"
    ensures FormatCoords(num, -0.5, 0.0).latText[2..] == num.minutes(30.0)
  {
    assert Trunc(-0.5) == 0;
    var d := ZeroPad(0, 2);
    assert Pow10(2) == 100;
    assert |d| == 2 && AllDigits(d) && DigitsValue(d) == 0;
    assert d[..1] == [d[0]];
    assert d == "00";
  }

  /** The thirteen comma-separated fields of the RMC body, in order: talker
      and type, time, status, latitude and hemisphere, longitude and
      hemisphere, speed in knots, course, date, magnetic variation and its
      direction (both empty), mode. */
  function RmcLayout(time: string, lat: string, ns: string, lon: string, ew: string,
                     knots: string, date: string): (fs: seq<string>)
    ensures |fs| == 13
    ensures fs[0] == "GPRMC" && fs[2] == "A" && fs[8] == "0.0"
    ensures fs[10] == "" && fs[11] == "" && fs[12] == "A"
    ensures fs[1] == time && fs[3] == lat && fs[4] == ns && fs[5] == lon && fs[6] == ew
    ensures fs[7] == knots && fs[9] == date
  {
    ["GPRMC", time, "A", lat, ns, lon, ew, knots, "0.0", date, "", "", "A"]
  }

  /** The fifteen comma-separated fields of the GGA body, in order: talker and
      type, time, latitude and hemisphere, longitude and hemisphere, fix
      quality, satellites, HDOP, altitude and its unit, geoid separation and
      its unit, DGPS age and station. */
  function GgaLayout(time: string, lat: string, ns: string, lon: string, ew: string,
                     elevation: string): (fs: seq<string>)
    ensures |fs| == 15
    ensures fs[0] == "GPGGA" && fs[6] == FixQuality && fs[7] == Satellites && fs[8] == Hdop
    ensures fs[10] == "M" && fs[11] == GeoidSeparation && fs[12] == "M"
    ensures fs[13] == DgpsAge && fs[14] == DgpsRef
    ensures fs[1] == time && fs[2] == lat && fs[3] == ns && fs[4] == lon && fs[5] == ew
    ensures fs[9] == elevation
  {
    ["GPGGA", time, lat, ns, lon, ew, FixQuality, Satellites, Hdop, elevation, "M",
     GeoidSeparation, "M", DgpsAge, DgpsRef]
  }

  /** The RMC fields of a fix. The point number, elevation and route hints
      are not part of the sentence. */
  function RmcFields(num: Numerics, lat: real, lon: real, speed: real, time: Instant): seq<string> {
    var c := FormatCoords(num, lat, lon);
    RmcLayout(TimeText(time), c.latText, c.latHemi, c.lonText, c.lonHemi,
              num.tenths(speed * KnotsPerKmh), DateText(time))
  }

  /** The GGA fields of a fix. The point number, speed and route hints are
      not part of the sentence. */
  function GgaFields(num: Numerics, lat: real, lon: real, elevation: real, time: Instant): seq<string> {
    var c := FormatCoords(num, lat, lon);
    GgaLayout(TimeText(time), c.latText, c.latHemi, c.lonText, c.lonHemi, num.tenths(elevation))
  }

  /** Where each part of a fix sits among the RMC fields. */
  lemma RmcFieldsParts(num: Numerics, lat: real, lon: real, speed: real, time: Instant)
    ensures var fs := RmcFields(num, lat, lon, speed, time); var c := FormatCoords(num, lat, lon);
      && |fs| == 13 && fs[0] == "GPRMC" && fs[1] == TimeText(time) && fs[2] == "A"
      && fs[3] == c.latText && fs[4] == c.latHemi && fs[5] == c.lonText && fs[6] == c.lonHemi
      && fs[7] == num.tenths(speed * KnotsPerKmh) && fs[9] == DateText(time)
  {
  }

  /** Where each part of a fix sits among the GGA fields. */
  lemma GgaFieldsParts(num: Numerics, lat: real, lon: real, elevation: real, time: Instant)
    ensures var fs := GgaFields(num, lat, lon, elevation, time); var c := FormatCoords(num, lat, lon);
      && |fs| == 15 && fs[0] == "GPGGA" && fs[1] == TimeText(time)
      && fs[2] == c.latText && fs[3] == c.latHemi && fs[4] == c.lonText && fs[5] == c.lonHemi
      && fs[9] == num.tenths(elevation)
  {
  }

  /** A field that cannot break the framing: ASCII, with neither the
      separator nor the checksum marker. */
  predicate Safe(f: string) {
    ',' !in f && '*' !in f && IsAscii(f)
  }

  predicate FieldSafe(fs: seq<string>) {
    forall k :: 0 <= k < |fs| ==> Safe(fs[k])
  }

  lemma SafeConcat(a: string, b: string)
    requires Safe(a) && Safe(b)
    ensures Safe(a + b)
  {
    assert forall i :: 0 <= i < |a + b| ==> (a + b)[i] == if i < |a| then a[i] else b[i - |a|];
  }

  lemma AsciiConcat(a: string, b: string)
    requires IsAscii(a) && IsAscii(b)
    ensures IsAscii(a + b)
  {
    assert forall i :: 0 <= i < |a + b| ==> (a + b)[i] == if i < |a| then a[i] else b[i - |a|];
  }

  lemma DigitsSafe(d: string)
    requires AllDigits(d)
    ensures Safe(d)
  {
    assert forall i :: 0 <= i < |d| ==> d[i] != ',' && d[i] != '*';
  }

  lemma RmcLayoutSafe(time: string, lat: string, ns: string, lon: string, ew: string,
                      knots: string, date: string)
    requires Safe(time) && Safe(lat) && Safe(ns) && Safe(lon) && Safe(ew)
    requires Safe(knots) && Safe(date)
    ensures FieldSafe(RmcLayout(time, lat, ns, lon, ew, knots, date))
  {
    var fs := RmcLayout(time, lat, ns, lon, ew, knots, date);
    assert Safe("GPRMC") && Safe("A") && Safe("0.0") && Safe("");
    forall k | 0 <= k < |fs|
      ensures Safe(fs[k])
    {
    }
  }

  lemma GgaLayoutSafe(time: string, lat: string, ns: string, lon: string, ew: string,
                      elevation: string)
    requires Safe(time) && Safe(lat) && Safe(ns) && Safe(lon) && Safe(ew) && Safe(elevation)
    ensures FieldSafe(GgaLayout(time, lat, ns, lon, ew, elevation))
  {
    var fs := GgaLayout(time, lat, ns, lon, ew, elevation);
    assert Safe("GPGGA") && Safe("1") && Safe("08") && Safe("1.0") && Safe("M");
    assert Safe("0.0") && Safe("");
    forall k | 0 <= k < |fs|
      ensures Safe(fs[k])
    {
    }
  }

  lemma SafePrefix(a: string, k: nat)
    requires Safe(a) && k <= |a|
    ensures Safe(a[..k])
  {
    assert forall i :: 0 <= i < k ==> a[..k][i] == a[i];
  }

  lemma TimeDateSafe(t: Instant)
    ensures Safe(TimeText(t)) && Safe(DateText(t))
  {
    var h, m, s, us := Pad2(t.hour), Pad2(t.minute), Pad2(t.second), ZeroPad(t.micro, 6);
    DigitsSafe(h);
    DigitsSafe(m);
    DigitsSafe(s);
    DigitsSafe(us);
    assert Safe(".");
    SafeConcat(h, m);
    SafeConcat(h + m, s);
    SafeConcat(h + m + s, ".");
    SafeConcat(h + m + s + ".", us);
    var full := h + m + s + "." + us;
    SafePrefix(full, |full| - 3);
    var dd, mm, yy := Pad2(t.day), Pad2(t.month), Pad2(t.year % 100);
    DigitsSafe(dd);
    DigitsSafe(mm);
    DigitsSafe(yy);
    SafeConcat(dd, mm);
    SafeConcat(dd + mm, yy);
  }

  lemma DegreesSafe(num: Numerics, x: real, width: nat)
    requires Rendered(num.minutes(MinutesOf(x)))
    ensures Safe(DegreesText(num, x, width))
  {
    DigitsSafe(ZeroPad(IntAbs(Trunc(x)), width));
    SafeConcat(ZeroPad(IntAbs(Trunc(x)), width), num.minutes(MinutesOf(x)));
  }

  lemma CoordsSafe(num: Numerics, lat: real, lon: real)
    requires Lawful(num)
    ensures var c := FormatCoords(num, lat, lon);
      Safe(c.latText) && Safe(c.latHemi) && Safe(c.lonText) && Safe(c.lonHemi)
  {
    assert MinutesReadBack(num, MinutesOf(lat)) && MinutesReadBack(num, MinutesOf(lon));
    DegreesSafe(num, lat, 2);
    DegreesSafe(num, lon, 3);
    assert Safe("N") && Safe("S") && Safe("E") && Safe("W");
  }

  lemma FieldSafeBody(fs: seq<string>)
    requires |fs| >= 1 && FieldSafe(fs)
    ensures IsAscii(Join(fs, ','))
    decreases |fs|
  {
    if |fs| > 1 {
      FieldSafeBody(fs[1..]);
      AsciiConcat(fs[0] + [','], Join(fs[1..], ','));
    }
  }

  /** `encode_rmc`: a `$`, the RMC body, the checksum and CR LF. */
  function EncodeRmc(num: Numerics, p: Position): (r: string)
    ensures |r| > 5 && r[0] == '$' && r[|r| - 2..] == "\r\n"
  {
    Frame(Join(RmcFields(num, p.lat, p.lon, p.speed, p.time), ','))
  }

  /** `encode_gga`: a `$`, the GGA body, the checksum and CR LF. */
  function EncodeGga(num: Numerics, p: Position): (r: string)
    ensures |r| > 5 && r[0] == '$' && r[|r| - 2..] == "\r\n"
  {
    Frame(Join(GgaFields(num, p.lat, p.lon, p.elevation, p.time), ','))
  }

  lemma RmcFieldsSafe(num: Numerics, lat: real, lon: real, speed: real, time: Instant)
    requires Lawful(num)
    ensures FieldSafe(RmcFields(num, lat, lon, speed, time))
  {
    var c := FormatCoords(num, lat, lon);
    CoordsSafe(num, lat, lon);
    TimeDateSafe(time);
    assert TenthsReadBack(num, speed * KnotsPerKmh);
    RmcLayoutSafe(TimeText(time), c.latText, c.latHemi, c.lonText, c.lonHemi,
                  num.tenths(speed * KnotsPerKmh), DateText(time));
  }

  lemma GgaFieldsSafe(num: Numerics, lat: real, lon: real, elevation: real, time: Instant)
    requires Lawful(num)
    ensures FieldSafe(GgaFields(num, lat, lon, elevation, time))
  {
    var c := FormatCoords(num, lat, lon);
    CoordsSafe(num, lat, lon);
    TimeDateSafe(time);
    assert TenthsReadBack(num, elevation);
    GgaLayoutSafe(TimeText(time), c.latText, c.latHemi, c.lonText, c.lonHemi, num.tenths(elevation));
  }

  /** A sentence built from field-safe fields carries a correct checksum and
      cuts back into exactly those fields. */
  lemma SafeSentence(fs: seq<string>)
    requires |fs| >= 1 && FieldSafe(fs)
    ensures ChecksumOk(Frame(Join(fs, ',')))
    ensures Fields(Frame(Join(fs, ','))) == fs
  {
    FieldSafeBody(fs);
    FrameChecksumOk(Join(fs, ','));
    FieldsOfFrame(fs);
  }

  /** An RMC sentence carries a correct checksum and cuts back into exactly
      the thirteen fields that were written. */
  lemma RmcSentence(num: Numerics, p: Position)
    requires Lawful(num)
    ensures ChecksumOk(EncodeRmc(num, p))
    ensures Fields(EncodeRmc(num, p)) == RmcFields(num, p.lat, p.lon, p.speed, p.time)
  {
    RmcFieldsSafe(num, p.lat, p.lon, p.speed, p.time);
    SafeSentence(RmcFields(num, p.lat, p.lon, p.speed, p.time));
  }

  /** A GGA sentence carries a correct checksum and cuts back into exactly
      the fifteen fields that were written. */
  lemma GgaSentence(num: Numerics, p: Position)
    requires Lawful(num)
    ensures ChecksumOk(EncodeGga(num, p))
    ensures Fields(EncodeGga(num, p)) == GgaFields(num, p.lat, p.lon, p.elevation, p.time)
  {
    GgaFieldsSafe(num, p.lat, p.lon, p.elevation, p.time);
    SafeSentence(GgaFields(num, p.lat, p.lon, p.elevation, p.time));
  }

  /** The point number is not part of either sentence. */
  lemma EncodeIgnoresIndex(num: Numerics, p: Position, index: int)
    ensures EncodeRmc(num, p.(index := index)) == EncodeRmc(num, p)
    ensures EncodeGga(num, p.(index := index)) == EncodeGga(num, p)
  {
  }
}

=== FILE: geojsonload.dfy ===
/** The `geojson` generator's loader: every `Point` feature of a GeoJSON
    document becomes a route point, in document order; other features are
    skipped. Any failure is one `ValueError("Failed to load route file: …")`,
    which the model names by its cause. `now` stands for the clock reading
    `datetime.now(timezone.utc)` gives each point. */
module GeoJsonSource {
  import opened Results
  import opened Numerics
  import opened DateTimes
  import opened Positions
  import opened Json

  datatype LoadError =
    | MissingPath      // no file argument at all
    | NotAnObject      // the document is not a dictionary
    | NoFeatures       // the document has no `features` member
    | BadFeature       // a lookup or conversion on a feature raised
    | NoPoints         // nothing was kept

  /** `feature['geometry']['type'] == 'Point'`; `None` when the lookups
      raise. */
  function IsPoint(f: Json): (r: Option<bool>)
    ensures r == Some(true) ==> Member(f, "geometry").Some?
  {
    var g :- Member(f, "geometry");
    var t :- Member(g, "type");
    Some(t == JString("Point"))
  }

  /** `props.get(key, default)` where the value must be a string. Python
      would store any value; the model requires text. */
  function TextOr(props: Json, key: string, default: string): (r: Option<string>)
    ensures props.JObject? && key !in props.members ==> r == Some(default)
  {
    var v :- GetOr(props, key, JString(default));
    if v.JString? then Some(v.s) else None
  }

  /** The record for one `Point` feature: latitude `coordinates[1]`,
      longitude `coordinates[0]`, and the optional properties with their
      defaults: speed, elevation and duration through `float()`, the two
      texts as stored. A `properties` that is not a dictionary raises. */
  function Convert(num: Numerics, now: Instant, f: Json): (r: Option<LegacyPosition>)
    ensures r.Some? ==> Member(f, "geometry").Some?
    ensures r.Some? ==> Member(Member(f, "geometry").value, "coordinates").Some?
    ensures r.Some? ==>
      var coords := Member(Member(f, "geometry").value, "coordinates").value;
      && Item(coords, 1) == Some(JNumber(r.value.lat))
      && Item(coords, 0) == Some(JNumber(r.value.lon))
      && r.value.time == now
    ensures r.Some? && f.JObject? && "properties" !in f.members ==>
      r.value.speed == 0.0 && r.value.elevation == 0.0 && r.value.duration == 0.0
      && r.value.transition == DefaultTransition && r.value.description == ""
    ensures r.Some? && f.JObject? && "properties" in f.members ==>
      var props := f.members["properties"];
      && props.JObject?
      && Float(num, GetOr(props, "speed", JNumber(0.0)).value) == Some(r.value.speed)
      && Float(num, GetOr(props, "elevation", JNumber(0.0)).value) == Some(r.value.elevation)
      && Float(num, GetOr(props, "duration", JNumber(0.0)).value) == Some(r.value.duration)
      && TextOr(props, "transition", DefaultTransition) == Some(r.value.transition)
      && TextOr(props, "description", "") == Some(r.value.description)
    ensures f.JObject? && "properties" in f.members && !f.members["properties"].JObject? ==> r.None?
  {
    var g :- Member(f, "geometry");
    var coords :- Member(g, "coordinates");
    var props := GetOr(f, "properties", JObject(map[])).value;
    var lat :- Item(coords, 1);
    var lon := coords.items[0];
    if !lat.JNumber? || !lon.JNumber? || !props.JObject? then None
    else
      var speed :- Float(num, GetOr(props, "speed", JNumber(0.0)).value);
      var elevation :- Float(num, GetOr(props, "elevation", JNumber(0.0)).value);
      var duration :- Float(num, GetOr(props, "duration", JNumber(0.0)).value);
      var transition :- TextOr(props, "transition", DefaultTransition);
      var description :- TextOr(props, "description", "");
      Some(LegacyPosition(lat.n, lon.n, speed, elevation, now, duration, transition, description))
  }

  /** The loop over the features: skip non-points, convert points, stop at
      the first feature that raises. */
  function LoadFeatures(num: Numerics, now: Instant, features: seq<Json>): (r: Result<seq<LegacyPosition>, LoadError>)
    ensures r.Failure? ==> r.error == BadFeature
    ensures r.Success? ==> |r.value| <= |features|
    decreases |features|
  {
    if features == [] then Success([])
    else
      var point :- OrFail(IsPoint(features[0]), BadFeature);
      if !point then LoadFeatures(num, now, features[1..])
      else
        var p :- OrFail(Convert(num, now, features[0]), BadFeature);
        var rest :- LoadFeatures(num, now, features[1..]);
        Success([p] + rest)
  }

  /** `_load_file` on a parsed document. */
  function LoadDocument(num: Numerics, now: Instant, doc: Json): (r: Result<seq<LegacyPosition>, LoadError>)
    ensures !doc.JObject? ==> r == Failure(NotAnObject)
    ensures doc.JObject? && "features" !in doc.members ==> r == Failure(NoFeatures)
    ensures r.Success? ==> |r.value| > 0
    ensures r.Success? <==>
      && doc.JObject? && "features" in doc.members
      && Iterate(doc.members["features"]).Some?
      && LoadFeatures(num, now, Iterate(doc.members["features"]).value).Success?
      && LoadFeatures(num, now, Iterate(doc.members["features"]).value).value != []
  {
    if !doc.JObject? then Failure(NotAnObject)
    else if "features" !in doc.members then Failure(NoFeatures)
    else
      var features :- OrFail(Iterate(doc.members["features"]), BadFeature);
      var points :- LoadFeatures(num, now, features);
      if points == [] then Failure(NoPoints) else Success(points)
  }

  /** `GeoJSONGenerator.__init__`: the file name is required; the file's
      contents arrive already parsed. */
  function Load(num: Numerics, now: Instant, args: seq<Json>): (r: Result<seq<LegacyPosition>, LoadError>)
    ensures |args| == 0 ==> r == Failure(MissingPath)
    ensures |args| > 0 ==> r == LoadDocument(num, now, args[0])
  {
    if |args| == 0 then Failure(MissingPath) else LoadDocument(num, now, args[0])
  }

  /** The features the loader keeps, as a reference definition. */
  function Points(features: seq<Json>): (r: seq<Json>)
    ensures forall k :: 0 <= k < |r| ==> IsPoint(r[k]) == Some(true)
    decreases |features|
  {
    if features == [] then []
    else if IsPoint(features[0]) == Some(true) then [features[0]] + Points(features[1..])
    else Points(features[1..])
  }

  /** A feature whose skip test does not raise. */
  predicate Typed(f: Json) {
    IsPoint(f).Some?
  }

  /** Non-point features leave no trace: loading all the features is loading
      just the points among them, and the points come out in document order,
      each the conversion of its feature. */
  lemma {:induction false} OnlyPointsInOrder(num: Numerics, now: Instant, features: seq<Json>)
    requires forall i :: 0 <= i < |features| ==> Typed(features[i])
    ensures LoadFeatures(num, now, features) == LoadFeatures(num, now, Points(features))
    decreases |features|
  {
    if features != [] {
      assert Typed(features[0]);
      forall i | 0 <= i < |features| - 1
        ensures Typed(features[1..][i])
      {
        assert features[1..][i] == features[i + 1];
      }
      OnlyPointsInOrder(num, now, features[1..]);
      if IsPoint(features[0]) == Some(true) {
        var ps := [features[0]] + Points(features[1..]);
        assert ps[0] == features[0] && ps[1..] == Points(features[1..]);
      }
    }
  }

  /** For point features: loading succeeds exactly when every one converts,
      and then the `k`-th record is the `k`-th feature's. */
  lemma {:induction false} PointsConvertInOrder(num: Numerics, now: Instant, features: seq<Json>)
    requires forall i :: 0 <= i < |features| ==> IsPoint(features[i]) == Some(true)
    ensures LoadFeatures(num, now, features).Success?
      <==> forall i :: 0 <= i < |features| ==> Convert(num, now, features[i]).Some?
    ensures LoadFeatures(num, now, features).Success? ==>
      && |LoadFeatures(num, now, features).value| == |features|
      && forall i :: 0 <= i < |features| ==>
           LoadFeatures(num, now, features).value[i] == Convert(num, now, features[i]).value
    decreases |features|
  {
    if features != [] {
      var tail := features[1..];
      forall i | 0 <= i < |tail|
        ensures IsPoint(tail[i]) == Some(true)
      {
        assert tail[i] == features[i + 1];
      }
      PointsConvertInOrder(num, now, tail);
      PointStep(num, now, features);
      if LoadFeatures(num, now, features).Success? {
        forall i | 0 <= i < |features|
          ensures Convert(num, now, features[i]).Some?
        {
          if i > 0 { assert features[i] == tail[i - 1]; }
        }
      } else if Convert(num, now, features[0]).Some? {
        var j :| 0 <= j < |tail| && Convert(num, now, tail[j]).None?;
        assert tail[j] == features[j + 1];
      }
    }
  }

  /** One point feature of the loop: it converts, then the rest loads. */
  lemma PointStep(num: Numerics, now: Instant, features: seq<Json>)
    requires features != [] && IsPoint(features[0]) == Some(true)
    ensures LoadFeatures(num, now, features).Success?
      <==> Convert(num, now, features[0]).Some? && LoadFeatures(num, now, features[1..]).Success?
    ensures LoadFeatures(num, now, features).Success? ==>
      LoadFeatures(num, now, features).value
        == [Convert(num, now, features[0]).value] + LoadFeatures(num, now, features[1..]).value
  {
  }

  /** A document whose features are all non-points loads nothing, which is
      an error. */
  lemma NoPointNoRoute(num: Numerics, now: Instant, features: seq<Json>)
    requires forall i :: 0 <= i < |features| ==> IsPoint(features[i]) == Some(false)
    ensures LoadDocument(num, now, JObject(map["features" := JArray(features)])) == Failure(NoPoints)
  {
    assert forall i :: 0 <= i < |features| ==> Typed(features[i]);
    OnlyPointsInOrder(num, now, features);
    NoPointsAmong(features);
  }

  lemma {:induction false} NoPointsAmong(features: seq<Json>)
    requires forall i :: 0 <= i < |features| ==> IsPoint(features[i]) == Some(false)
    ensures Points(features) == []
    decreases |features|
  {
    if features != [] {
      assert IsPoint(features[0]) == Some(false);
      forall i | 0 <= i < |features| - 1
        ensures IsPoint(features[1..][i]) == Some(false)
      {
        assert features[1..][i] == features[i + 1];
      }
      NoPointsAmong(features[1..]);
    }
  }
}

=== FILE: iteration.dfy ===
/** The generator protocol: `__next__` over `_update_position`, and the
    replay cursor of file-backed generators, which walks a list of records
    with Python's list indexing (negative positions count from the end). */
module Iteration {
  import opened Results

  /** What one `next()` does: hand out a record or raise `StopIteration`. */
  datatype Step<T> = Yield(value: T) | StopIteration

  /** `LodeGenerator.__next__`: `None` from `_update_position` ends the
      iteration; any record is passed on unchanged. */
  function Next<T>(update: Option<T>): (r: Step<T>)
    ensures r.StopIteration? <==> update.None?
    ensures r.Yield? ==> r.value == update.value
  {
    match update
    case None => StopIteration
    case Some(x) => Yield(x)
  }

  /** The step tells the update back: `__next__` loses nothing. */
  function Update<T>(s: Step<T>): (r: Option<T>)
    ensures r.None? <==> s.StopIteration?
  {
    match s
    case StopIteration => None
    case Yield(x) => Some(x)
  }

  lemma NextLosesNothing<T>(update: Option<T>)
    ensures Update(Next(update)) == update
  {
  }

  /** The exception `self._positions[self._index]` raises below `-len`. */
  datatype IterError = IndexOutOfRange

  /** One pull's outcome: a record, `None`, or the raised exception. */
  type Pull<T> = Result<Option<T>, IterError>

  /** The records of a file generator and its position among them. */
  datatype Cursor<T> = Cursor(items: seq<T>, index: int)

  /** Python's `items[i]`: negative positions count from the end; outside
      `[-len, len)` it raises. */
  function PyIndex<T>(items: seq<T>, i: int): (r: Option<T>)
    ensures r.Some? <==> -|items| <= i < |items|
    ensures 0 <= i < |items| ==> r == Some(items[i])
    ensures -|items| <= i < 0 ==> r == Some(items[|items| + i])
  {
    if 0 <= i < |items| then Some(items[i])
    else if -|items| <= i < 0 then Some(items[|items| + i])
    else None
  }

  /** `FileGenerator._update_position`: `None` once the position reaches the
      length, leaving the cursor where it is; otherwise the record at the
      position and a step forward. The exception leaves the cursor alone. */
  function Advance<T>(c: Cursor<T>): (r: (Pull<T>, Cursor<T>))
    ensures r.1.items == c.items
    ensures r.0 == Success(None) <==> c.index >= |c.items|
    ensures r.0.Failure? <==> c.index < -|c.items|
    ensures r.0.Success? && r.0.value.Some? ==> r.1.index == c.index + 1
    ensures !(r.0.Success? && r.0.value.Some?) ==> r.1 == c
  {
    if c.index >= |c.items| then (Success(None), c)
    else match PyIndex(c.items, c.index)
      case None => (Failure(IndexOutOfRange), c)
      case Some(x) => (Success(Some(x)), c.(index := c.index + 1))
  }

  /** The outcomes of `n` successive pulls. */
  function Pulls<T>(c: Cursor<T>, n: nat): (r: seq<Pull<T>>)
    ensures |r| == n
    decreases n
  {
    if n == 0 then [] else [Advance(c).0] + Pulls(Advance(c).1, n - 1)
  }

  /** One pull per record, each handing out that record. */
  function Yielded<T>(s: seq<T>): (r: seq<Pull<T>>)
    ensures |r| == |s|
    ensures forall i :: 0 <= i < |s| ==> r[i] == Success(Some(s[i]))
  {
    seq(|s|, i requires 0 <= i < |s| => Success(Some(s[i])))
  }

  function Repeat<T>(p: Pull<T>, n: nat): (r: seq<Pull<T>>)
    ensures |r| == n
    ensures forall i :: 0 <= i < n ==> r[i] == p
  {
    seq(n, _ => p)
  }

  /** Once the cursor has passed the end, every later pull gives `None`. */
  lemma {:induction false} ExhaustedForever<T>(c: Cursor<T>, n: nat)
    requires c.index >= |c.items|
    ensures Pulls(c, n) == Repeat(Success(None), n)
    decreases n
  {
    if n > 0 {
      ExhaustedForever(c, n - 1);
    }
  }

  /** A position below `-len` raises on every pull and never moves. */
  lemma {:induction false} OutOfRangeForever<T>(c: Cursor<T>, n: nat)
    requires c.index < -|c.items|
    ensures Pulls(c, n) == Repeat(Failure(IndexOutOfRange), n)
    decreases n
  {
    if n > 0 {
      OutOfRangeForever(c, n - 1);
    }
  }

  /** From position `k`, the records from `k` on come out in order, one per
      pull, and then `None` on every further pull. */
  lemma {:induction false} ReplayFrom<T>(items: seq<T>, k: nat, n: nat)
    requires k <= |items|
    ensures Pulls(Cursor(items, k), |items| - k + n) == Yielded(items[k..]) + Repeat(Success(None), n)
    decreases |items| - k
  {
    var c := Cursor(items, k);
    if k == |items| {
      ExhaustedForever(c, n);
      assert items[k..] == [];
      assert Yielded(items[k..]) == [];
    } else {
      ReplayFrom(items, k + 1, n);
      assert Advance(c) == (Success(Some(items[k])), Cursor(items, k + 1));
      assert Yielded(items[k..]) == [Success(Some(items[k]))] + Yielded(items[k + 1..]);
    }
  }

  /** A fresh replay hands out every record in file order, then ends. */
  lemma Replay<T>(items: seq<T>, n: nat)
    ensures Pulls(Cursor(items, 0), |items| + n) == Yielded(items) + Repeat(Success(None), n)
  {
    ReplayFrom(items, 0, n);
    assert items[0..] == items;
  }

  /** A negative start `-k` first hands out the last `k` records, then the
      whole list from the front, then ends. */
  lemma {:induction false} ReplayFromNegative<T>(items: seq<T>, k: int, n: nat)
    requires -|items| <= k < 0
    ensures Pulls(Cursor(items, k), -k + |items| + n)
         == Yielded(items[|items| + k..]) + Yielded(items) + Repeat(Success(None), n)
    decreases -k
  {
    var c := Cursor(items, k);
    var head := Success(Some(items[|items| + k]));
    assert Advance(c) == (head, Cursor(items, k + 1));
    var rest := Pulls(Cursor(items, k + 1), -k - 1 + |items| + n);
    assert Pulls(c, -k + |items| + n) == [head] + rest;
    var tail := Yielded(items[|items| + k + 1..]);
    assert Yielded(items[|items| + k..]) == [head] + tail;
    var later := Yielded(items) + Repeat(Success(None), n);
    if k == -1 {
      Replay(items, n);
      assert tail == [];
      assert rest == tail + later;
    } else {
      ReplayFromNegative(items, k + 1, n);
      assert rest == tail + later;
    }
    assert [head] + (tail + later) == ([head] + tail) + later;
  }
}

=== FILE: json.dfy ===
/** A parsed JSON document as Python's `json.load` hands it over, and the few
    dictionary operations the route loaders apply to it. Every way these
    operations can raise (`KeyError`, `TypeError`, `AttributeError`,
    `ValueError`) is `None` here: the loaders catch them all alike. */
module Json {
  import opened Results
  import opened Numerics

  datatype Json =
    | JNull
    | JBool(b: bool)
    | JNumber(n: real)
    | JString(s: string)
    | JArray(items: seq<Json>)
    | JObject(members: map<string, Json>)

  /** `v[key]` on a dictionary; raises on a missing key or a non-dictionary. */
  function Member(v: Json, key: string): (r: Option<Json>)
    ensures r.Some? <==> v.JObject? && key in v.members
    ensures r.Some? ==> r.value == v.members[key]
  {
    if v.JObject? && key in v.members then Some(v.members[key]) else None
  }

  /** `v.get(key, default)`: the default for a missing key; raises when `v`
      is not a dictionary. */
  function GetOr(v: Json, key: string, default: Json): (r: Option<Json>)
    ensures r.Some? <==> v.JObject?
    ensures v.JObject? && key !in v.members ==> r == Some(default)
    ensures v.JObject? && key in v.members ==> r == Some(v.members[key])
  {
    if !v.JObject? then None
    else if key in v.members then Some(v.members[key])
    else Some(default)
  }

  /** `float(v)`: numbers as they are, booleans as 1.0 and 0.0, strings
      through Python's parser; anything else raises. */
  function Float(num: Numerics, v: Json): (r: Option<real>)
    ensures v.JNumber? ==> r == Some(v.n)
    ensures v.JNull? || v.JArray? || v.JObject? ==> r.None?
  {
    match v
    case JNumber(n) => Some(n)
    case JBool(b) => Some(if b then 1.0 else 0.0)
    case JString(s) => num.parseFloat(s)
    case _ => None
  }

  /** `v[i]` on a list; raises out of range or on a non-list. Only the
      non-negative indices the loaders use are modelled. */
  function Item(v: Json, i: nat): (r: Option<Json>)
    ensures r.Some? <==> v.JArray? && i < |v.items|
    ensures r.Some? ==> r.value == v.items[i]
  {
    if v.JArray? && i < |v.items| then Some(v.items[i]) else None
  }

  /** `for x in v`: a list gives its items and a string its characters. A
      non-empty dictionary gives its keys, and the loaders' first lookup on a
      key string raises; that is reported here as not iterable. Numbers,
      booleans and `None` are not iterable. */
  function Iterate(v: Json): (r: Option<seq<Json>>)
    ensures v.JArray? ==> r == Some(v.items)
    ensures v.JString? ==> r.Some? && |r.value| == |v.s|
    ensures v.JNull? || v.JBool? || v.JNumber? ==> r.None?
  {
    match v
    case JArray(items) => Some(items)
    case JString(s) => Some(seq(|s|, i requires 0 <= i < |s| => JString([s[i]])))
    case JObject(m) => if |m| == 0 then Some([]) else None
    case _ => None
  }
}

=== FILE: legacy.dfy ===
/** The older revision of the codec. Its record has no point number and its
    decoder knows only the GPS (`GP`) and bare tags, not the
    multi-constellation `GN` ones; everything else is the current codec. */
module Legacy {
  import opened Results
  import opened Text
  import opened Numerics
  import opened DateTimes
  import opened Positions
  import opened Sentences
  import opened Encoder
  import opened Decoder
  import opened RoundTrip

  /** The tags the older decoder dispatches on. */
  const LegacyDialect: Dialect := Dialect({"GPRMC", "RMC"}, {"GPGGA", "GGA"})

  /** The older `encode_rmc`: the same sentence, built from a record without a point number. */
  function LegacyEncodeRmc(num: Numerics, q: LegacyPosition): (r: string)
    ensures |r| > 5 && r[0] == '$' && r[|r| - 2..] == "\r\n"
  {
    EncodeRmc(num, WithIndex(q, 0))
  }

  /** The older `encode_gga`. */
  function LegacyEncodeGga(num: Numerics, q: LegacyPosition): (r: string)
    ensures |r| > 5 && r[0] == '$' && r[|r| - 2..] == "\r\n"
  {
    EncodeGga(num, WithIndex(q, 0))
  }

  /** Both revisions write the same sentences: the current encoder, given the
      older record with any point number attached, produces the same text. */
  lemma LegacyEncoderAgrees(num: Numerics, q: LegacyPosition, index: int)
    ensures LegacyEncodeRmc(num, q) == EncodeRmc(num, WithIndex(q, index))
    ensures LegacyEncodeGga(num, q) == EncodeGga(num, WithIndex(q, index))
  {
    assert WithIndex(q, 0).(index := index) == WithIndex(q, index);
    EncodeIgnoresIndex(num, WithIndex(q, 0), index);
  }

  /** The older `NMEADecoder.decode`: the current pipeline over the narrower
      tag set, returning the record without a point number. */
  function LegacyDecode(num: Numerics, now: Instant, raw: string): (r: Result<LegacyPosition, DecodeError>)
    ensures r == Failure(NotNmea) <==> !StartsWith(raw, "$")
    ensures r == Failure(Unsupported) <==>
      StartsWith(raw, "$") && Fields(raw)[0] !in LegacyDialect.rmc && Fields(raw)[0] !in LegacyDialect.gga
    ensures r.Success? ==> r.value.duration == 0.0 && r.value.transition == DefaultTransition && r.value.description == ""
  {
    match Decode(num, now, LegacyDialect, raw)
    case Success(p) => Success(DropIndex(p))
    case Failure(e) => Failure(e)
  }

  /** Two dialects that file a tag under the same branch decode a sentence
      with that tag identically. */
  lemma DialectsAgree(num: Numerics, now: Instant, d1: Dialect, d2: Dialect, raw: string)
    requires StartsWith(raw, "$") ==>
      && (Fields(raw)[0] in d1.rmc <==> Fields(raw)[0] in d2.rmc)
      && (Fields(raw)[0] in d1.gga <==> Fields(raw)[0] in d2.gga)
    ensures Decode(num, now, d1, raw) == Decode(num, now, d2, raw)
  {
  }

  /** Apart from the `GN` tags, the older decoder returns what the current one
      does, less the point number. */
  lemma LegacyDecodeAgrees(num: Numerics, now: Instant, raw: string)
    requires StartsWith(raw, "$") ==> Fields(raw)[0] != "GNRMC" && Fields(raw)[0] != "GNGGA"
    ensures Decode(num, now, CoreDialect, raw).Success? <==> LegacyDecode(num, now, raw).Success?
    ensures LegacyDecode(num, now, raw).Success? ==>
      LegacyDecode(num, now, raw).value == DropIndex(Decode(num, now, CoreDialect, raw).value)
    ensures LegacyDecode(num, now, raw).Failure? ==>
      LegacyDecode(num, now, raw).error == Decode(num, now, CoreDialect, raw).error
  {
    DialectsAgree(num, now, CoreDialect, LegacyDialect, raw);
  }

  /** The multi-constellation tags are unsupported by the older decoder and
      dispatched by the current one. */
  lemma GnTalkersUnsupported(num: Numerics, now: Instant, raw: string)
    requires StartsWith(raw, "$") && (Fields(raw)[0] == "GNRMC" || Fields(raw)[0] == "GNGGA")
    ensures LegacyDecode(num, now, raw) == Failure(Unsupported)
    ensures Decode(num, now, CoreDialect, raw) != Failure(Unsupported)
  {
    GnTags();
    var tag := Fields(raw)[0];
    assert tag !in LegacyDialect.rmc && tag !in LegacyDialect.gga;
    assert tag in CoreDialect.rmc || tag in CoreDialect.gga;
  }

  /** Where the two dialects file the `GN` tags. */
  lemma GnTags()
    ensures "GNRMC" !in LegacyDialect.rmc && "GNRMC" !in LegacyDialect.gga && "GNRMC" in CoreDialect.rmc
    ensures "GNGGA" !in LegacyDialect.rmc && "GNGGA" !in LegacyDialect.gga && "GNGGA" in CoreDialect.gga
  {
    assert "GNRMC"[1] == 'N' && "GNGGA"[1] == 'N' && "GPRMC"[1] == 'P' && "GPGGA"[1] == 'P';
    assert "RMC"[0] == 'R' && "GGA"[0] == 'G' && "GNGGA"[2] == 'G' && "GNRMC"[2] == 'R';
  }

  /** The older codec reads back its own RMC sentence as the current one does. */
  lemma {:induction false} LegacyRmcRoundTrip(num: Numerics, now: Instant, q: LegacyPosition)
    requires Lawful(num) && OnEarth(q.lat, q.lon)
    ensures var r := LegacyDecode(num, now, LegacyEncodeRmc(num, q));
      && r.Success?
      && r.value.elevation == 0.0
      && Within(r.value.lat, q.lat, DegreesTolerance)
      && Within(r.value.lon, q.lon, DegreesTolerance)
      && r.value.time.year == 2000 + q.time.year % 100
      && r.value.time.month == q.time.month && r.value.time.day == q.time.day
      && r.value.time.hour == q.time.hour && r.value.time.minute == q.time.minute
      && r.value.time.second == q.time.second
  {
    var p := WithIndex(q, 0);
    var s := EncodeRmc(num, p);
    LegacyEncoderAgrees(num, q, 0);
    RmcSentence(num, p);
    RmcFieldsParts(num, p.lat, p.lon, p.speed, p.time);
    assert Fields(s)[0] == "GPRMC";
    LegacyDecodeAgrees(num, now, s);
    RmcRoundTrip(num, now, p);
  }

  /** The older codec reads back its own GGA sentence as the current one does. */
  lemma {:induction false} LegacyGgaRoundTrip(num: Numerics, now: Instant, q: LegacyPosition)
    requires Lawful(num) && OnEarth(q.lat, q.lon)
    ensures var r := LegacyDecode(num, now, LegacyEncodeGga(num, q));
      && r.Success?
      && r.value.speed == 0.0
      && Within(r.value.lat, q.lat, DegreesTolerance)
      && Within(r.value.lon, q.lon, DegreesTolerance)
      && Within(r.value.elevation, q.elevation, 1.0 / 10.0)
      && r.value.time.year == now.year && r.value.time.month == now.month && r.value.time.day == now.day
      && r.value.time.hour == q.time.hour && r.value.time.minute == q.time.minute
      && r.value.time.second == q.time.second
  {
    var p := WithIndex(q, 0);
    var s := EncodeGga(num, p);
    LegacyEncoderAgrees(num, q, 0);
    GgaSentence(num, p);
    GgaFieldsParts(num, p.lat, p.lon, p.elevation, p.time);
    assert Fields(s)[0] == "GPGGA";
    LegacyDecodeAgrees(num, now, s);
    GgaRoundTrip(num, now, p);
  }
}

=== FILE: nmeaload.dfy ===
/** The `nmea` generator: replays a file of NMEA sentences. Lines the older
    decoder reads become records numbered 1, 2, … in file order, each with
    the pause given by the `duration=` word; other lines are skipped. The
    `index=` word sets where the cursor starts. `lines` is what iterating
    over the opened file yields; opening it is not modelled. */
module NmeaSource {
  import opened Results
  import opened Text
  import opened Numerics
  import opened DateTimes
  import opened Positions
  import opened Options
  import opened Decoder
  import opened RoundTrip
  import opened Legacy
  import opened Iteration

  /** Both bad words raise the same `ValueError("Invalid duration value")`. */
  datatype NmeaError = MissingPath | InvalidDuration

  /** What the words set: the pause (unset unless a word gives it) and the
      cursor start (the class default 0 unless a word gives it). */
  datatype NmeaOptions = NmeaOptions(duration: Option<real>, start: int)

  const NoOptions: NmeaOptions := NmeaOptions(None, 0)

  /** One word after the file name: `duration=` through `float()`, `index=`
      through `int()`, anything else ignored. */
  function ApplyParam(num: Numerics, o: NmeaOptions, word: string): (r: Result<NmeaOptions, NmeaError>)
    ensures !HasKey(word, "duration") && !HasKey(word, "index") ==> r == Success(o)
    ensures r.Failure? ==> r.error == InvalidDuration
    ensures HasKey(word, "duration") ==>
      var v := num.parseFloat(Setting(word, "duration"));
      (r.Success? <==> v.Some?) && (r.Success? ==> r.value == o.(duration := v))
    ensures !HasKey(word, "duration") && HasKey(word, "index") ==>
      var v := PyInt(Setting(word, "index"));
      (r.Success? <==> v.Some?) && (r.Success? ==> r.value == o.(start := v.value))
  {
    if HasKey(word, "duration") then
      var v :- OrFail(num.parseFloat(Setting(word, "duration")), InvalidDuration);
      Success(o.(duration := Some(v)))
    else if HasKey(word, "index") then
      var v :- OrFail(PyInt(Setting(word, "index")), InvalidDuration);
      Success(o.(start := v))
    else Success(o)
  }

  /** The loop over the words; the first bad one stops it. */
  function ApplyParams(num: Numerics, o: NmeaOptions, words: seq<string>): (r: Result<NmeaOptions, NmeaError>)
    ensures r.Failure? ==> r.error == InvalidDuration
    decreases |words|
  {
    if words == [] then Success(o)
    else
      var next :- ApplyParam(num, o, words[0]);
      ApplyParams(num, next, words[1..])
  }

  /** The record a decoded line becomes: numbered, and with the configured
      pause when there is one. */
  function Stamp(q: LegacyPosition, index: int, duration: Option<real>): (p: Position)
    ensures p.index == index && DropIndex(p) == q.(duration := p.duration)
    ensures duration.Some? ==> p.duration == duration.value
    ensures duration.None? ==> p.duration == q.duration
  {
    var p := WithIndex(q, index);
    if duration.Some? then p.(duration := duration.value) else p
  }

  /** What `NMEADecoder.decode` makes of one line: a record, or nothing
      when it returns `None` or raises. */
  function Attempt(num: Numerics, now: Instant, line: string): (r: Option<LegacyPosition>)
    ensures r.Some? <==> LegacyDecode(num, now, line).Success?
    ensures r.Some? ==> r.value == LegacyDecode(num, now, line).value
  {
    match LegacyDecode(num, now, line)
    case Success(q) => Some(q)
    case Failure(_) => None
  }

  function Attempts(num: Numerics, now: Instant, lines: seq<string>): (r: seq<Option<LegacyPosition>>)
    ensures |r| == |lines|
    ensures forall i :: 0 <= i < |lines| ==> r[i] == Attempt(num, now, lines[i])
  {
    seq(|lines|, i requires 0 <= i < |lines| => Attempt(num, now, lines[i]))
  }

  /** The loop of `_load_file` as written, over the decoder's answers.
      Without a `duration=` word the attribute `_duration` was never set, so
      reading it raises `AttributeError`; the loop's `except` swallows that
      and the line is lost. */
  function NumberAsWritten(attempts: seq<Option<LegacyPosition>>, duration: Option<real>, index: int)
    : (r: seq<Position>)
    ensures |r| <= |attempts|
    ensures duration.None? ==> r == []
    decreases |attempts|
  {
    if attempts == [] then []
    else if attempts[0].None? || duration.None? then NumberAsWritten(attempts[1..], duration, index)
    else [Stamp(attempts[0].value, index, duration)] + NumberAsWritten(attempts[1..], duration, index + 1)
  }

  /** The loop as intended: every decoded line is kept, and the decoded
      pause (0.0) stands when no `duration=` word gave another. */
  function Number(attempts: seq<Option<LegacyPosition>>, duration: Option<real>, index: int)
    : (r: seq<Position>)
    ensures |r| <= |attempts|
    decreases |attempts|
  {
    if attempts == [] then []
    else if attempts[0].None? then Number(attempts[1..], duration, index)
    else [Stamp(attempts[0].value, index, duration)] + Number(attempts[1..], duration, index + 1)
  }

  /** The decoded records, as a reference definition. */
  function Kept(attempts: seq<Option<LegacyPosition>>): (r: seq<LegacyPosition>)
    ensures |r| <= |attempts|
    decreases |attempts|
  {
    if attempts == [] then []
    else if attempts[0].None? then Kept(attempts[1..])
    else [attempts[0].value] + Kept(attempts[1..])
  }

  /** `_load_file` as written, on the file's lines, numbering from 1. */
  function LoadLinesAsWritten(num: Numerics, now: Instant, duration: Option<real>, lines: seq<string>): (r: seq<Position>)
    ensures duration.None? ==> r == []
  {
    NumberAsWritten(Attempts(num, now, lines), duration, 1)
  }

  /** `_load_file` as intended, on the file's lines, numbering from 1. */
  function LoadLines(num: Numerics, now: Instant, duration: Option<real>, lines: seq<string>): (r: seq<Position>)
    ensures |r| == |Kept(Attempts(num, now, lines))|
  {
    NumberDecoded(Attempts(num, now, lines), duration, 1);
    Number(Attempts(num, now, lines), duration, 1)
  }

  /** The intended loader keeps every decodable line, in file order,
      numbered 1, 2, … without gaps, with the configured pause. */
  lemma LoadLinesInOrder(num: Numerics, now: Instant, duration: Option<real>, lines: seq<string>)
    ensures |LoadLines(num, now, duration, lines)| == |Kept(Attempts(num, now, lines))|
    ensures forall k :: 0 <= k < |LoadLines(num, now, duration, lines)| ==>
      LoadLines(num, now, duration, lines)[k] == Stamp(Kept(Attempts(num, now, lines))[k], k + 1, duration)
  {
    NumberDecoded(Attempts(num, now, lines), duration, 1);
  }

  /** With a `duration=` word the code as written is the intended loader. */
  lemma {:induction false} AsWrittenWithDuration(attempts: seq<Option<LegacyPosition>>, d: real, index: int)
    ensures NumberAsWritten(attempts, Some(d), index) == Number(attempts, Some(d), index)
    decreases |attempts|
  {
    if attempts != [] {
      AsWrittenWithDuration(attempts[1..], d, index);
      AsWrittenWithDuration(attempts[1..], d, index + 1);
    }
  }

  /** The defect: a file whose line decodes still yields nothing without a
      `duration=` word, where the intended loader keeps the record. */
  lemma NoDurationLosesDecodedLine(num: Numerics, now: Instant, line: string)
    requires LegacyDecode(num, now, line).Success?
    ensures LoadLinesAsWritten(num, now, None, [line]) == []
    ensures LoadLines(num, now, None, [line]) == [WithIndex(LegacyDecode(num, now, line).value, 1)]
  {
    var a := Attempts(num, now, [line]);
    assert a[1..] == [];
    assert Kept(a) == [LegacyDecode(num, now, line).value];
    LoadLinesInOrder(num, now, None, [line]);
  }

  /** A sentence the older encoder wrote is such a line. */
  lemma EncodedLineLost(num: Numerics, now: Instant, q: LegacyPosition)
    requires Lawful(num) && OnEarth(q.lat, q.lon)
    ensures LoadLinesAsWritten(num, now, None, [LegacyEncodeRmc(num, q)]) == []
    ensures |LoadLines(num, now, None, [LegacyEncodeRmc(num, q)])| == 1
  {
    LegacyRmcRoundTrip(num, now, q);
    NoDurationLosesDecodedLine(num, now, LegacyEncodeRmc(num, q));
  }

  /** The intended loop keeps every decoded record, in order, numbered
      consecutively from the first number, with the configured pause. */
  lemma {:induction false} NumberDecoded(attempts: seq<Option<LegacyPosition>>, duration: Option<real>, index: int)
    ensures |Number(attempts, duration, index)| == |Kept(attempts)|
    ensures forall k :: 0 <= k < |Kept(attempts)| ==>
      Number(attempts, duration, index)[k] == Stamp(Kept(attempts)[k], index + k, duration)
    decreases |attempts|
  {
    if attempts != [] {
      NumberDecoded(attempts[1..], duration, index);
      NumberDecoded(attempts[1..], duration, index + 1);
      if attempts[0].Some? {
        var q := attempts[0].value;
        var rest := Number(attempts[1..], duration, index + 1);
        var ds := Kept(attempts[1..]);
        forall k | 0 <= k < |ds| + 1
          ensures ([Stamp(q, index, duration)] + rest)[k] == Stamp(([q] + ds)[k], index + k, duration)
        {
          if k > 0 {
            assert ([Stamp(q, index, duration)] + rest)[k] == rest[k - 1];
            assert ([q] + ds)[k] == ds[k - 1];
          }
        }
      }
    }
  }

  /** Lines that do not decode leave no trace. */
  lemma UndecodableSkipped(num: Numerics, now: Instant, duration: Option<real>, bad: string, lines: seq<string>)
    requires LegacyDecode(num, now, bad).Failure?
    ensures LoadLines(num, now, duration, [bad] + lines) == LoadLines(num, now, duration, lines)
  {
    var a := Attempts(num, now, lines);
    AttemptsCons(num, now, bad, lines);
    assert Attempt(num, now, bad) == None;
    assert ([None] + a)[1..] == a;
    assert Number([None] + a, duration, 1) == Number(a, duration, 1);
  }

  lemma AttemptsCons(num: Numerics, now: Instant, line: string, lines: seq<string>)
    ensures Attempts(num, now, [line] + lines) == [Attempt(num, now, line)] + Attempts(num, now, lines)
  {
    var a, b := Attempts(num, now, [line] + lines), [Attempt(num, now, line)] + Attempts(num, now, lines);
    assert |a| == |b|;
    forall i | 0 <= i < |a|
      ensures a[i] == b[i]
    {
      if i > 0 { assert ([line] + lines)[i] == lines[i - 1]; }
    }
  }

  /** `NMEAGenerator.__init__` with `_load_file` as intended (the records
      are those of `LoadLines`, not of the loop as written): the file name,
      the words, then the records from 1 and a cursor at the `index=` start. */
  function Load(num: Numerics, now: Instant, args: seq<string>, lines: seq<string>): (r: Result<Cursor<Position>, NmeaError>)
    ensures |args| == 0 ==> r == Failure(MissingPath)
    ensures |args| > 0 ==> (r.Success? <==> ApplyParams(num, NoOptions, args[1..]).Success?)
    ensures r.Failure? && |args| > 0 ==> r.error == InvalidDuration
    ensures r.Success? ==>
      var o := ApplyParams(num, NoOptions, args[1..]).value;
      r.value == Cursor(LoadLines(num, now, o.duration, lines), o.start)
  {
    if |args| == 0 then Failure(MissingPath)
    else
      var o :- ApplyParams(num, NoOptions, args[1..]);
      Success(Cursor(LoadLines(num, now, o.duration, lines), o.start))
  }

  /** `NMEAGenerator.__init__` as written: the same checks as `Load`, with
      the records of the loop as written. */
  function LoadAsWritten(num: Numerics, now: Instant, args: seq<string>, lines: seq<string>): (r: Result<Cursor<Position>, NmeaError>)
    ensures |args| == 0 ==> r == Failure(MissingPath)
    ensures |args| > 0 ==> (r.Success? <==> ApplyParams(num, NoOptions, args[1..]).Success?)
    ensures r.Failure? && |args| > 0 ==> r.error == InvalidDuration
    ensures r.Success? && ApplyParams(num, NoOptions, args[1..]).value.duration.None? ==> r.value.items == []
  {
    if |args| == 0 then Failure(MissingPath)
    else
      var o :- ApplyParams(num, NoOptions, args[1..]);
      Success(Cursor(LoadLinesAsWritten(num, now, o.duration, lines), o.start))
  }

  /** The constructor as written and as intended differ only in the
      records, and not at all once a `duration=` word was given. */
  lemma AsWrittenLoadAgrees(num: Numerics, now: Instant, args: seq<string>, lines: seq<string>)
    ensures LoadAsWritten(num, now, args, lines).Success? <==> Load(num, now, args, lines).Success?
    ensures LoadAsWritten(num, now, args, lines).Success? ==>
      LoadAsWritten(num, now, args, lines).value.index == Load(num, now, args, lines).value.index
    ensures (|args| > 0 && ApplyParams(num, NoOptions, args[1..]).Success? &&
             ApplyParams(num, NoOptions, args[1..]).value.duration.Some?) ==>
      LoadAsWritten(num, now, args, lines) == Load(num, now, args, lines)
  {
    if |args| > 0 && ApplyParams(num, NoOptions, args[1..]).Success? {
      var o := ApplyParams(num, NoOptions, args[1..]).value;
      if o.duration.Some? {
        AsWrittenWithDuration(Attempts(num, now, lines), o.duration.value, 1);
      }
    }
  }

  /** As written, a replay with no words over any file ends at once: every
      pull reports exhaustion. */
  lemma {:induction false} PlainReplayAsWritten(num: Numerics, now: Instant, path: string, lines: seq<string>, n: nat)
    ensures LoadAsWritten(num, now, [path], lines) == Success(Cursor([], 0))
    ensures Pulls(LoadAsWritten(num, now, [path], lines).value, n) == Repeat(Success(None), n)
  {
    assert [path][1..] == [];
    assert ApplyParams(num, NoOptions, []) == Success(NoOptions);
    Replay<Position>([], n);
    assert Yielded<Position>([]) == [];
  }

  /** With no words the replay plays every decoded line once, numbered from
      1, then reports exhaustion forever. */
  lemma {:induction false} PlainReplay(num: Numerics, now: Instant, path: string, lines: seq<string>, n: nat)
    ensures Load(num, now, [path], lines) == Success(Cursor(LoadLines(num, now, None, lines), 0))
    ensures var items := LoadLines(num, now, None, lines);
      Pulls(Cursor(items, 0), |items| + n) == Yielded(items) + Repeat(Success(None), n)
  {
    NoWordsLoad(num, now, path, lines);
    Replay(LoadLines(num, now, None, lines), n);
  }

  /** With no words the cursor starts at 0 over the intended records. */
  lemma NoWordsLoad(num: Numerics, now: Instant, path: string, lines: seq<string>)
    ensures Load(num, now, [path], lines) == Success(Cursor(LoadLines(num, now, None, lines), 0))
  {
    assert [path][1..] == [];
    assert ApplyParams(num, NoOptions, []) == Success(NoOptions);
  }
}

=== FILE: numerics.dfy ===
/** Python's float rendering and parsing, and the integer conversions the
    codec applies to reals.

    Decimal rendering (`f"{x:09.6f}"`, `f"{x:.1f}"`) and `float(s)` depend on
    binary floating point and are not modelled digit by digit: they are the
    fields of a `Numerics` record, and the facts the codec relies on are
    collected in the predicate `Lawful`, which the round-trip lemmas take as a
    precondition. */
module Numerics {
  import opened Results
  import opened Text
  import opened Checksum

  /** The three uninterpreted numeric primitives. */
  datatype Numerics = Numerics(
    parseFloat: string -> Option<real>,  // `float(s)`, `None` where Python raises
    minutes: real -> string,             // `f"{x:09.6f}"`
    tenths: real -> string)              // `f"{x:.1f}"`

  /** A rendered number can sit inside an NMEA field: it is non-empty ASCII
      and holds neither the field separator nor the checksum marker. */
  predicate Rendered(s: string) {
    |s| > 0 && IsAscii(s) && ',' !in s && '*' !in s
  }

  /** `'0.' + digits`, the text the time parser hands to `float()`. */
  function FractionText(digits: string): (r: string)
    ensures |r| == |digits| + 2 && r[..2] == "0." && r[2..] == digits
  {
    "0." + digits
  }

  /** `float(s)` where a raise becomes the caller's error `e`. */
  function ReadFloat<E>(num: Numerics, s: string, e: E): (r: Result<real, E>)
    ensures r.Success? <==> num.parseFloat(s).Some?
    ensures r.Success? ==> r.value == num.parseFloat(s).value
    ensures r.Failure? ==> r.error == e
  {
    OrFail(num.parseFloat(s), e)
  }

  predicate Within(x: real, y: real, eps: real) {
    -eps <= x - y <= eps
  }

  /** `float()` reads back the six-decimal rendering of a non-negative value
      to within its rounding; the rendering is field-safe. */
  predicate MinutesReadBack(num: Numerics, x: real) {
    && Rendered(num.minutes(x))
    && (x >= 0.0 ==>
          && num.parseFloat(num.minutes(x)).Some?
          && Within(num.parseFloat(num.minutes(x)).value, x, 1.0 / 1000000.0))
  }

  /** `float()` reads back the one-decimal rendering of any value to within
      a tenth; the rendering is field-safe. */
  predicate TenthsReadBack(num: Numerics, x: real) {
    && Rendered(num.tenths(x))
    && num.parseFloat(num.tenths(x)).Some?
    && Within(num.parseFloat(num.tenths(x)).value, x, 1.0 / 10.0)
  }

  /** `float('0.' + d)` for 1 to 15 decimal digits `d` lies in [0, 1). */
  predicate FractionReads(num: Numerics, d: string) {
    AllDigits(d) && 1 <= |d| <= 15 ==>
      && num.parseFloat(FractionText(d)).Some?
      && 0.0 <= num.parseFloat(FractionText(d)).value < 1.0
  }

  /** What the codec assumes of Python's number formatting and parsing, for
      every value. */
  ghost predicate Lawful(num: Numerics) {
    && (forall x: real :: MinutesReadBack(num, x))
    && (forall x: real :: TenthsReadBack(num, x))
    && (forall d: string :: FractionReads(num, d))
  }

  /** Python's `int(x)` for a float: truncation toward zero. */
  function Trunc(x: real): (r: int)
    ensures x >= 0.0 ==> 0 <= r && r as real <= x < r as real + 1.0
    ensures x < 0.0 ==> r <= 0 && r as real - 1.0 < x <= r as real
  {
    if x >= 0.0 then x.Floor else -((-x).Floor)
  }

  function Abs(x: real): (r: real)
    ensures r >= 0.0 && (r == x || r == -x)
  {
    if x >= 0.0 then x else -x
  }

  function IntAbs(n: int): (r: nat)
    ensures r == n || r == -n
  {
    if n >= 0 then n else -n
  }

  /** Python's `x % m` for floats with `m > 0`: the result takes the sign of
      the divisor, so it lies in [0, m). */
  function FloorMod(x: real, m: real): (r: real)
    requires m > 0.0
    ensures 0.0 <= r < m
    ensures (x - r) / m == ((x - r) / m).Floor as real
  {
    var q := (x / m).Floor;
    FloorBounds(x, m, q);
    assert (x - (x - m * q as real)) / m == q as real;
    x - m * q as real
  }

  lemma FloorBounds(x: real, m: real, q: int)
    requires m > 0.0 && q == (x / m).Floor
    ensures q as real * m <= x < q as real * m + m
  {
    var y := x / m;
    assert y * m == x;
    assert q as real <= y < q as real + 1.0;
    MulMono(q as real, y, m);
    MulMono(y, q as real + 1.0, m);
    assert y * m < (q as real + 1.0) * m;
    assert (q as real + 1.0) * m == q as real * m + m;
    assert x < q as real * m + m;
  }

  lemma MulMono(a: real, b: real, m: real)
    requires m > 0.0 && a <= b
    ensures a * m <= b * m && (a < b ==> a * m < b * m)
  {
  }

  /** Values already in range are left alone by `x % m`. */
  lemma FloorModInRange(x: real, m: real)
    requires m > 0.0 && 0.0 <= x < m
    ensures FloorMod(x, m) == x
  {
    DivInUnit(x, m);
    assert (x / m).Floor == 0;
    assert FloorMod(x, m) == x - m * 0.0;
  }

  /** A value in [0, m) divided by `m` lies in [0, 1). */
  lemma DivInUnit(x: real, m: real)
    requires m > 0.0 && 0.0 <= x < m
    ensures 0.0 <= x / m < 1.0
  {
    DivTimes(x, m);
    FactorBounds(x / m, m, x);
  }

  lemma DivTimes(x: real, m: real)
    requires m > 0.0
    ensures x / m * m == x
  {
  }

  /** A factor whose product with a positive `m` lies in [0, m) lies in [0, 1). */
  lemma FactorBounds(y: real, m: real, x: real)
    requires m > 0.0 && 0.0 <= x < m && y * m == x
    ensures 0.0 <= y < 1.0
  {
  }
}

=== FILE: options.dfy ===
/** The `key=value` words generator plugins take after their positional
    arguments: a word selects a setting when it starts with `key=`, and its
    value is `word.split("=", 1)[1]`, everything after the first `=`. */
module Options {
  import opened Results
  import opened Text

  /** `word.startswith(key + "=")`. */
  predicate HasKey(word: string, key: string) {
    StartsWith(word, key + "=")
  }

  /** `word.split("=", 1)[1]`: what follows the first `=`; `None` where the
      indexing raises because there is no `=`. */
  function AfterFirstEquals(word: string): (r: Option<string>)
    ensures r.Some? <==> '=' in word
    ensures r.Some? ==>
      var i := |word| - |r.value| - 1;
      0 <= i && word[i] == '=' && '=' !in word[..i] && r.value == word[i + 1..]
  {
    match IndexOf(word, '=')
    case None => None
    case Some(i) => Some(word[i + 1..])
  }

  /** The value of a word known to carry `key=`. */
  function Setting(word: string, key: string): (r: string)
    requires HasKey(word, key)
    ensures key + "=" + r == word
  {
    word[|key| + 1..]
  }

  /** For a key without `=` of its own the value is what `split` gives. */
  lemma SettingIsSplit(word: string, key: string)
    requires HasKey(word, key) && '=' !in key
    ensures AfterFirstEquals(word) == Some(Setting(word, key))
  {
    var k := |key|;
    assert word[..k + 1] == key + "=";
    assert word[k] == '=';
    assert word[..k] == key;
  }
}

=== FILE: positions.dfy ===
/** The navigation record every generator yields. `Position` is the current
    revision's record (with a point number); `LegacyPosition` is the older
    revision's record, which has no point number. */
module Positions {
  import opened DateTimes

  const DefaultTransition: string := "auto"

  /** A fix: degrees of latitude and longitude, speed in km/h, elevation in
      metres, a timestamp, and the route hints (pause in seconds, transition
      mode, free text). */
  datatype Position = Position(
    index: int,
    lat: real,
    lon: real,
    speed: real,
    elevation: real,
    time: Instant,
    duration: real,
    transition: string,
    description: string)

  datatype LegacyPosition = LegacyPosition(
    lat: real,
    lon: real,
    speed: real,
    elevation: real,
    time: Instant,
    duration: real,
    transition: string,
    description: string)

  /** `Position(index, lat, lon, speed, elevation, time)` with the dataclass
      defaults for the three optional fields. */
  function Fix(index: int, lat: real, lon: real, speed: real, elevation: real, time: Instant): (p: Position)
    ensures p.duration == 0.0 && p.transition == DefaultTransition && p.description == ""
    ensures p.index == index && p.lat == lat && p.lon == lon
    ensures p.speed == speed && p.elevation == elevation && p.time == time
  {
    Position(index, lat, lon, speed, elevation, time, 0.0, DefaultTransition, "")
  }

  /** The older record: everything except the point number. */
  function DropIndex(p: Position): (q: LegacyPosition)
    ensures WithIndex(q, p.index) == p
  {
    LegacyPosition(p.lat, p.lon, p.speed, p.elevation, p.time, p.duration, p.transition, p.description)
  }

  function WithIndex(q: LegacyPosition, index: int): (p: Position)
    ensures p.index == index && p.lat == q.lat && p.lon == q.lon && p.time == q.time
  {
    Position(index, q.lat, q.lon, q.speed, q.elevation, q.time, q.duration, q.transition, q.description)
  }
}

=== FILE: registry.dfy ===
/** The generator plugin registry: a map from source names to generator
    classes, filled by the `register_generator(name)` class decorator and
    read by `get_generator`. Classes are values of an arbitrary type `K`. */
module Registry {
  import opened Results

  type Registry<K> = map<string, K>

  /** `get_generator` raises `ValueError` for a name nobody registered. */
  datatype RegistryError = UnknownGenerator(name: string)

  /** The text of that `ValueError`. */
  function Message(e: RegistryError): (r: string)
    ensures |r| > |e.name| && r[|r| - |e.name|..] == e.name
  {
    "Unknown generator type: " + e.name
  }

  /** `register_generator(name)(cls)`: the decorator records the class under
      the name, replacing any earlier entry, and hands the class back
      unchanged. */
  function Register<K>(reg: Registry<K>, name: string, cls: K): (r: (Registry<K>, K))
    ensures r.1 == cls
    ensures r.0.Keys == reg.Keys + {name}
  {
    (reg[name := cls], cls)
  }

  /** `get_generator(name)`. */
  function Get<K>(reg: Registry<K>, name: string): (r: Result<K, RegistryError>)
    ensures r.Failure? <==> name !in reg
    ensures r.Failure? ==> r.error == UnknownGenerator(name)
    ensures r.Success? ==> r.value == reg[name]
  {
    if name !in reg then Failure(UnknownGenerator(name)) else Success(reg[name])
  }

  /** A registered class is found under its name. */
  lemma GetAfterRegister<K>(reg: Registry<K>, name: string, cls: K)
    ensures Get(Register(reg, name, cls).0, name) == Success(cls)
  {
  }

  /** Registering leaves every other name as it was, found or not. */
  lemma OtherNamesUnaffected<K>(reg: Registry<K>, name: string, cls: K, other: string)
    requires other != name
    ensures Get(Register(reg, name, cls).0, other) == Get(reg, other)
  {
  }

  /** Registering a name again replaces the earlier class: the registry is
      as if only the later registration had happened. */
  lemma ReRegisterOverwrites<K>(reg: Registry<K>, name: string, first: K, second: K)
    ensures Register(Register(reg, name, first).0, name, second).0 == Register(reg, name, second).0
    ensures Get(Register(Register(reg, name, first).0, name, second).0, name) == Success(second)
  {
  }

  /** Registrations applied in order, as module imports run the decorators. */
  function RegisterAll<K>(reg: Registry<K>, decls: seq<(string, K)>): (r: Registry<K>)
    ensures reg.Keys <= r.Keys
    ensures forall i :: 0 <= i < |decls| ==> decls[i].0 in r
    decreases |decls|
  {
    if decls == [] then reg
    else
      var r := RegisterAll(Register(reg, decls[0].0, decls[0].1).0, decls[1..]);
      assert forall i :: 0 < i < |decls| ==> decls[i] == decls[1..][i - 1];
      r
  }

  /** The last registration of a name wins. */
  lemma {:induction false} LastRegistrationWins<K>(reg: Registry<K>, decls: seq<(string, K)>, i: int)
    requires 0 <= i < |decls|
    requires forall j :: i < j < |decls| ==> decls[j].0 != decls[i].0
    ensures Get(RegisterAll(reg, decls), decls[i].0) == Success(decls[i].1)
    decreases |decls|
  {
    var next := Register(reg, decls[0].0, decls[0].1).0;
    if i == 0 {
      KeptAfter(next, decls[1..], decls[0].0);
    } else {
      forall j | i - 1 < j < |decls| - 1
        ensures decls[1..][j].0 != decls[1..][i - 1].0
      {
        assert decls[1..][j] == decls[j + 1];
      }
      LastRegistrationWins(next, decls[1..], i - 1);
    }
  }

  /** Registrations under other names keep an entry. */
  lemma {:induction false} KeptAfter<K>(reg: Registry<K>, decls: seq<(string, K)>, name: string)
    requires name in reg
    requires forall j :: 0 <= j < |decls| ==> decls[j].0 != name
    ensures name in RegisterAll(reg, decls) && RegisterAll(reg, decls)[name] == reg[name]
    decreases |decls|
  {
    if decls != [] {
      forall j | 0 <= j < |decls| - 1
        ensures decls[1..][j].0 != name
      {
        assert decls[1..][j] == decls[j + 1];
      }
      KeptAfter(Register(reg, decls[0].0, decls[0].1).0, decls[1..], name);
    }
  }
}

=== FILE: results.dfy ===
/** Failure-compatible wrappers used for Python's `None` results and raised exceptions. */
module Results {

  /** A value that may be absent (Python's `Optional[...]`). */
  datatype Option<+T> = None | Some(value: T) {

    predicate IsFailure() {
      None?
    }

    function PropagateFailure<U>(): Option<U>
      requires None?
    {
      None
    }

    function Extract(): T
      requires Some?
    {
      value
    }

    function GetOr(default: T): T {
      match this
      case Some(v) => v
      case None => default
    }
  }

  /** Either a computed value or the exception the source would raise. */
  datatype Result<+T, +E> = Success(value: T) | Failure(error: E) {

    predicate IsFailure() {
      Failure?
    }

    function PropagateFailure<U>(): Result<U, E>
      requires Failure?
    {
      Failure(error)
    }

    function Extract(): T
      requires Success?
    {
      value
    }
  }

  /** Lifts an absent value to a failure carrying `e`. */
  function OrFail<T, E>(o: Option<T>, e: E): (r: Result<T, E>)
    ensures r.Success? <==> o.Some?
    ensures r.Success? ==> r.value == o.value
    ensures r.Failure? ==> r.error == e
  {
    match o
    case Some(v) => Success(v)
    case None => Failure(e)
  }
}

=== FILE: roundtrip.dfy ===
/** Reading back what the encoder writes: a fix encoded as RMC or GGA and
    decoded again keeps its position to within the rounding of the decimal
    renderings, its time of day to the second, and (RMC) its calendar date
    with the year folded into 2000-2099 by the two-digit `%y`. */
module RoundTrip {
  import opened Results
  import opened Text
  import opened Numerics
  import opened DateTimes
  import opened Positions
  import opened Sentences
  import opened Encoder
  import opened Decoder

  /** Six decimals of minutes are a millionth of a minute of arc. */
  const DegreesTolerance: real := 1.0 / 60000000.0

  /** Latitude and longitude the sentences can carry: two and three whole-degree digits. */
  predicate OnEarth(lat: real, lon: real) {
    -90.0 <= lat <= 90.0 && -180.0 <= lon <= 180.0
  }

  /** The degree digits and the minutes rendering of `DegreesText` read back
      as `x` to within a millionth of a minute, the hemisphere letter
      restoring the sign. */
  lemma {:induction false} DegreesRoundTrip(num: Numerics, x: real, width: nat, hemi: string, negative: string)
    requires MinutesReadBack(num, MinutesOf(x))
    requires width >= 1 && IntAbs(Trunc(x)) < Pow10(width)
    requires hemi != "" && (hemi == negative <==> x < 0.0)
    ensures ParseDegrees(num, width, DegreesText(num, x, width), hemi, negative).Success?
    ensures Within(ParseDegrees(num, width, DegreesText(num, x, width), hemi, negative).value, x, DegreesTolerance)
  {
    var text := DegreesText(num, x, width);
    DegreesTextParts(num, x, width);
    var deg := IntAbs(Trunc(x));
    var m := MinutesOf(x);
    assert Slice(text, 0, width) == text[..width];
    assert ReadInt(Slice(text, 0, width)) == Success(deg);
    assert Slice(text, width, |text|) == num.minutes(m);
    var v := num.parseFloat(num.minutes(m)).value;
    assert Within(v, m, 1.0 / 1000000.0);
    var magnitude := deg as real + v / 60.0;
    assert Within(magnitude, deg as real + m / 60.0, DegreesTolerance);
  }

  lemma LatitudeRoundTrip(num: Numerics, lat: real, lon: real)
    requires Lawful(num) && OnEarth(lat, lon)
    ensures var c := FormatCoords(num, lat, lon);
      && ParseLat(num, c.latText, c.latHemi).Success?
      && Within(ParseLat(num, c.latText, c.latHemi).value, lat, DegreesTolerance)
  {
    assert MinutesReadBack(num, MinutesOf(lat));
    assert Pow10(2) == 100;
    DegreesRoundTrip(num, lat, 2, FormatCoords(num, lat, lon).latHemi, "S");
  }

  lemma LongitudeRoundTrip(num: Numerics, lat: real, lon: real)
    requires Lawful(num) && OnEarth(lat, lon)
    ensures var c := FormatCoords(num, lat, lon);
      && ParseLon(num, c.lonText, c.lonHemi).Success?
      && Within(ParseLon(num, c.lonText, c.lonHemi).value, lon, DegreesTolerance)
  {
    assert MinutesReadBack(num, MinutesOf(lon));
    assert Pow10(3) == 1000;
    DegreesRoundTrip(num, lon, 3, FormatCoords(num, lat, lon).lonHemi, "W");
  }

  /** Two dot-free pieces joined by a dot split back into those pieces. */
  lemma SplitAtDot(a: string, b: string)
    requires '.' !in a && '.' !in b
    ensures Split(a + "." + b, '.') == [a, b]
  {
    var t := "." + b;
    assert a + "." + b == a + t;
    SplitPrefix(a, t, '.');
    assert t[0] == '.' && t[1..] == b;
    assert Split(t, '.') == [""] + Split(b, '.');
    assert a + "" == a;
  }

  lemma DigitsDotFree(s: string)
    requires AllDigits(s)
    ensures '.' !in s
  {
    assert forall i :: 0 <= i < |s| ==> s[i] != '.';
  }

  /** Two characters of zero padding read back as the padded number. */
  lemma ReadsPadded(r: string, i: nat, n: nat)
    requires i + 2 <= |r| && r[i..i + 2] == Pad2(n)
    ensures PyInt(Slice(r, i, i + 2)) == Some(n)
  {
    PyIntOfPadded(n, 2);
  }

  lemma AssembledClock(h: Option<int>, mi: Option<int>, s: Option<int>, us: Option<int>)
    requires h.Some? && mi.Some? && s.Some? && us.Some?
    ensures AssembleClock(h, mi, s, us) == Some(Clock(h.value, mi.value, s.value, us.value))
  {
  }

  lemma AssembledDay(d: Option<int>, mo: Option<int>, yy: Option<int>)
    requires d.Some? && mo.Some? && yy.Some?
    ensures AssembleDay(d, mo, yy) == Some(Day(yy.value + 2000, mo.value, d.value))
  {
  }

  /** The digits after the dot of `HHMMSS.mmm` give some microsecond count in range. */
  lemma ReadsMicro(num: Numerics, r: string)
    requires |r| == 10 && r[6] == '.' && AllDigits(r[..6]) && AllDigits(r[7..])
    requires FractionReads(num, r[7..])
    ensures MicroOf(num, r).Some? && 0 <= MicroOf(num, r).value < 1000000
  {
    var ms := r[7..];
    DigitsDotFree(r[..6]);
    DigitsDotFree(ms);
    assert r == r[..6] + "." + ms;
    SplitAtDot(r[..6], ms);
    assert '.' in r;
    var v := num.parseFloat(FractionText(ms)).value;
    assert 0.0 <= v < 1.0;
    MulMono(v, 1.0, 1000000.0);
    MulMono(0.0, v, 1000000.0);
  }

  /** A ten-character `HHMMSS.mmm` reads back as its hours, minutes and
      seconds, and some microsecond count in range. */
  lemma ReadsClock(num: Numerics, r: string, h: nat, mi: nat, s: nat)
    requires |r| == 10 && r[6] == '.' && AllDigits(r[..6]) && AllDigits(r[7..])
    requires r[..2] == Pad2(h) && r[2..4] == Pad2(mi) && r[4..6] == Pad2(s)
    requires FractionReads(num, r[7..])
    ensures var c := ParseClock(num, r);
      && c.Some? && c.value.hour == h && c.value.minute == mi && c.value.second == s
      && 0 <= c.value.micro < 1000000
  {
    ReadsPadded(r, 0, h);
    ReadsPadded(r, 2, mi);
    ReadsPadded(r, 4, s);
    ReadsMicro(num, r);
    AssembledClock(PyInt(Slice(r, 0, 2)), PyInt(Slice(r, 2, 4)), PyInt(Slice(r, 4, 6)), MicroOf(num, r));
  }

  /** The time of day read back from `TimeText`: hours, minutes and seconds
      exactly, and some microsecond count in range (the three millisecond
      digits go through `float()`). */
  lemma ClockRoundTrip(num: Numerics, t: Instant)
    requires Lawful(num)
    ensures var c := ParseClock(num, TimeText(t));
      && c.Some? && c.value.hour == t.hour && c.value.minute == t.minute && c.value.second == t.second
      && 0 <= c.value.micro < 1000000
  {
    var r := TimeText(t);
    TimeTextParts(t);
    assert FractionReads(num, r[7..]);
    ReadsClock(num, r, t.hour, t.minute, t.second);
  }

  /** A six-character `DDMMYY` reads back as its day, month and `2000 + YY`. */
  lemma ReadsDay(r: string, d: nat, m: nat, y: nat)
    requires |r| == 6 && r[..2] == Pad2(d) && r[2..4] == Pad2(m) && r[4..] == Pad2(y)
    ensures ParseDay(r) == Some(Day(2000 + y, m, d))
  {
    ReadsPadded(r, 0, d);
    ReadsPadded(r, 2, m);
    ReadsPadded(r, 4, y);
    AssembledDay(PyInt(Slice(r, 0, 2)), PyInt(Slice(r, 2, 4)), PyInt(Slice(r, 4, 6)));
  }

  /** The calendar date read back from `DateText`: day and month exactly,
      the year folded to `2000 + year % 100`. */
  lemma DayRoundTrip(t: Instant)
    ensures ParseDay(DateText(t)) == Some(Day(2000 + t.year % 100, t.month, t.day))
  {
    var r, y := DateText(t), t.year % 100;
    assert |r| == 6 && r[..2] == Pad2(t.day) && r[2..4] == Pad2(t.month) && r[4..] == Pad2(y) by {
      DateTextParts(t);
    }
    ReadsDay(r, t.day, t.month, y);
  }

  /** `_parse_datetime` with a date: both parts parsed and in range give that instant. */
  lemma ParsedWithDate(num: Numerics, now: Instant, time: string, date: string, c: Clock, d: Day)
    requires time != "" && date != ""
    requires ParseClock(num, time) == Some(c) && ParseDay(date) == Some(d)
    requires ValidDate(d.year, d.month, d.day) && ValidTime(c.hour, c.minute, c.second, c.micro)
    ensures ParseDateTime(num, now, time, date)
      == Some(DateTime(d.year, d.month, d.day, c.hour, c.minute, c.second, c.micro))
  {
  }

  /** `_parse_datetime` without a date: the parsed time of day on `now`'s date. */
  lemma ParsedOnToday(num: Numerics, now: Instant, time: string, c: Clock)
    requires time != "" && ParseClock(num, time) == Some(c)
    requires ValidTime(c.hour, c.minute, c.second, c.micro)
    ensures ParseDateTime(num, now, time, "")
      == Some(DateTime(now.year, now.month, now.day, c.hour, c.minute, c.second, c.micro))
  {
  }

  /** Time and date written by the RMC encoder are read back as the same
      instant up to the century and the sub-second part. */
  lemma {:induction false} DateTimeRoundTrip(num: Numerics, now: Instant, t: Instant)
    requires Lawful(num)
    ensures var r := ParseDateTime(num, now, TimeText(t), DateText(t));
      && r.Some?
      && r.value.year == 2000 + t.year % 100 && r.value.month == t.month && r.value.day == t.day
      && r.value.hour == t.hour && r.value.minute == t.minute && r.value.second == t.second
  {
    var time, date := TimeText(t), DateText(t);
    var d := Day(2000 + t.year % 100, t.month, t.day);
    assert time != "" && date != "" by { TextsNonEmpty(t); }
    assert ParseClock(num, time).Some? by { ClockRoundTrip(num, t); }
    var c := ParseClock(num, time).value;
    assert c.hour == t.hour && c.minute == t.minute && c.second == t.second && 0 <= c.micro < 1000000 by {
      ClockRoundTrip(num, t);
    }
    assert ParseDay(date) == Some(d) by { DayRoundTrip(t); }
    assert ValidDate(d.year, d.month, d.day) by { CenturyKeepsDate(t.year, t.month, t.day); }
    ParsedWithDate(num, now, time, date, c, d);
  }

  lemma TextsNonEmpty(t: Instant)
    ensures TimeText(t) != "" && DateText(t) != ""
  {
    TimeTextParts(t);
    DateTextParts(t);
  }

  /** The time written by the GGA encoder is read back on `now`'s date. */
  lemma {:induction false} TimeOnTodayRoundTrip(num: Numerics, now: Instant, t: Instant)
    requires Lawful(num)
    ensures var r := ParseDateTime(num, now, TimeText(t), "");
      && r.Some?
      && r.value.year == now.year && r.value.month == now.month && r.value.day == now.day
      && r.value.hour == t.hour && r.value.minute == t.minute && r.value.second == t.second
  {
    TimeTextParts(t);
    ClockRoundTrip(num, t);
    ParsedOnToday(num, now, TimeText(t), ParseClock(num, TimeText(t)).value);
  }

  /** The RMC branch succeeds when every part it reads parses. */
  lemma DecodedRmc(num: Numerics, now: Instant, fs: seq<string>, lat: real, lon: real, knots: real, time: Instant)
    requires |fs| >= 10 && fs[2] == "A"
    requires ParseLat(num, fs[3], fs[4]) == Success(lat) && ParseLon(num, fs[5], fs[6]) == Success(lon)
    requires fs[7] != "" && num.parseFloat(fs[7]) == Some(knots)
    requires ParseDateTime(num, now, fs[1], fs[9]) == Some(time)
    ensures DecodeRmc(num, now, fs) == Success(Fix(0, lat, lon, knots * KmhPerKnot, 0.0, time))
  {
    assert ReadFloat(num, fs[7], BadNumber) == Success(knots);
    assert DecodeRmc(num, now, fs) == RmcFix(Success(lat), Success(lon), Success(knots), Some(time));
    RmcFixOf(lat, lon, knots, time);
  }

  lemma RmcFixOf(lat: real, lon: real, knots: real, time: Instant)
    ensures RmcFix(Success(lat), Success(lon), Success(knots), Some(time))
         == Success(Fix(0, lat, lon, knots * KmhPerKnot, 0.0, time))
  {
  }

  /** The GGA branch succeeds when every part it reads parses. */
  lemma DecodedGga(num: Numerics, now: Instant, fs: seq<string>, lat: real, lon: real, elevation: real, time: Instant)
    requires |fs| >= 10
    requires ParseLat(num, fs[2], fs[3]) == Success(lat) && ParseLon(num, fs[4], fs[5]) == Success(lon)
    requires fs[9] != "" && num.parseFloat(fs[9]) == Some(elevation)
    requires ParseDateTime(num, now, fs[1], "") == Some(time)
    ensures DecodeGga(num, now, fs) == Success(Fix(0, lat, lon, 0.0, elevation, time))
  {
  }

  /** The RMC decoder reads the RMC fields back. */
  lemma {:induction false} RmcFieldsRoundTrip(num: Numerics, now: Instant, p: Position)
    requires Lawful(num) && OnEarth(p.lat, p.lon)
    ensures var r := DecodeRmc(num, now, RmcFields(num, p.lat, p.lon, p.speed, p.time));
      && r.Success?
      && Within(r.value.lat, p.lat, DegreesTolerance)
      && Within(r.value.lon, p.lon, DegreesTolerance)
      && Within(r.value.speed, p.speed * KnotsPerKmh * KmhPerKnot, KmhPerKnot / 10.0)
      && r.value.time.year == 2000 + p.time.year % 100
      && r.value.time.month == p.time.month && r.value.time.day == p.time.day
      && r.value.time.hour == p.time.hour && r.value.time.minute == p.time.minute
      && r.value.time.second == p.time.second
  {
    var fs := RmcFields(num, p.lat, p.lon, p.speed, p.time);
    var c := FormatCoords(num, p.lat, p.lon);
    RmcFieldsParts(num, p.lat, p.lon, p.speed, p.time);
    LatitudeRoundTrip(num, p.lat, p.lon);
    LongitudeRoundTrip(num, p.lat, p.lon);
    var k := p.speed * KnotsPerKmh;
    assert TenthsReadBack(num, k);
    assert fs[7] == num.tenths(k) && fs[7] != "";
    var v := num.parseFloat(fs[7]).value;
    assert KmhPerKnot == 1.852;
    assert Within(v, k, 1.0 / 10.0);
    assert v * KmhPerKnot - k * KmhPerKnot == (v - k) * 1.852;
    DateTimeRoundTrip(num, now, p.time);
    DecodedRmc(num, now, fs, ParseLat(num, c.latText, c.latHemi).value, ParseLon(num, c.lonText, c.lonHemi).value,
               v, ParseDateTime(num, now, TimeText(p.time), DateText(p.time)).value);
  }

  /** The GGA decoder reads the GGA fields back. */
  lemma {:induction false} GgaFieldsRoundTrip(num: Numerics, now: Instant, p: Position)
    requires Lawful(num) && OnEarth(p.lat, p.lon)
    ensures var r := DecodeGga(num, now, GgaFields(num, p.lat, p.lon, p.elevation, p.time));
      && r.Success?
      && Within(r.value.lat, p.lat, DegreesTolerance)
      && Within(r.value.lon, p.lon, DegreesTolerance)
      && Within(r.value.elevation, p.elevation, 1.0 / 10.0)
      && r.value.time.year == now.year && r.value.time.month == now.month && r.value.time.day == now.day
      && r.value.time.hour == p.time.hour && r.value.time.minute == p.time.minute
      && r.value.time.second == p.time.second
  {
    var fs := GgaFields(num, p.lat, p.lon, p.elevation, p.time);
    var c := FormatCoords(num, p.lat, p.lon);
    GgaFieldsParts(num, p.lat, p.lon, p.elevation, p.time);
    LatitudeRoundTrip(num, p.lat, p.lon);
    LongitudeRoundTrip(num, p.lat, p.lon);
    assert TenthsReadBack(num, p.elevation);
    assert fs[9] == num.tenths(p.elevation) && fs[9] != "";
    TimeOnTodayRoundTrip(num, now, p.time);
    DecodedGga(num, now, fs, ParseLat(num, c.latText, c.latHemi).value, ParseLon(num, c.lonText, c.lonHemi).value,
               num.parseFloat(fs[9]).value, ParseDateTime(num, now, TimeText(p.time), "").value);
  }

  /** The tags the encoder writes are the ones the decoder reads as RMC and as GGA. */
  lemma EncoderTags()
    ensures "GPRMC" in CoreDialect.rmc
    ensures "GPGGA" !in CoreDialect.rmc && "GPGGA" in CoreDialect.gga
  {
    assert "GPGGA"[2] == 'G' && "GPRMC"[2] == 'R' && "RMC"[0] == 'R' && "GNRMC"[2] == 'R';
  }

  /** A sentence that starts with `$` goes to the branch its tag names. */
  lemma Dispatch(num: Numerics, now: Instant, s: string, fs: seq<string>)
    requires StartsWith(s, "$") && Fields(s) == fs
    ensures fs[0] in CoreDialect.rmc ==> Decode(num, now, CoreDialect, s) == DecodeRmc(num, now, fs)
    ensures fs[0] !in CoreDialect.rmc && fs[0] in CoreDialect.gga ==>
      Decode(num, now, CoreDialect, s) == DecodeGga(num, now, fs)
  {
  }

  /** `decode(encode_rmc(p))` succeeds and gives `p` back: position to a
      millionth of a minute, speed to the rounding of one decimal of knots,
      date with the century folded, time of day to the second; no altitude
      and point number 0. */
  lemma {:induction false} RmcRoundTrip(num: Numerics, now: Instant, p: Position)
    requires Lawful(num) && OnEarth(p.lat, p.lon)
    ensures var r := Decode(num, now, CoreDialect, EncodeRmc(num, p));
      && r.Success?
      && r.value.index == 0 && r.value.elevation == 0.0
      && Within(r.value.lat, p.lat, DegreesTolerance)
      && Within(r.value.lon, p.lon, DegreesTolerance)
      && Within(r.value.speed, p.speed * KnotsPerKmh * KmhPerKnot, KmhPerKnot / 10.0)
      && r.value.time.year == 2000 + p.time.year % 100
      && r.value.time.month == p.time.month && r.value.time.day == p.time.day
      && r.value.time.hour == p.time.hour && r.value.time.minute == p.time.minute
      && r.value.time.second == p.time.second
  {
    RmcDispatch(num, now, p);
    RmcFieldsRoundTrip(num, now, p);
  }

  /** An encoded RMC sentence reaches the RMC branch with the fields written. */
  lemma RmcDispatch(num: Numerics, now: Instant, p: Position)
    requires Lawful(num)
    ensures Decode(num, now, CoreDialect, EncodeRmc(num, p)) == DecodeRmc(num, now, RmcFields(num, p.lat, p.lon, p.speed, p.time))
  {
    var s := EncodeRmc(num, p);
    var fs := RmcFields(num, p.lat, p.lon, p.speed, p.time);
    RmcSentence(num, p);
    assert StartsWith(s, "$");
    assert fs[0] in CoreDialect.rmc by { RmcFieldsParts(num, p.lat, p.lon, p.speed, p.time); }
    Dispatch(num, now, s, fs);
  }

  /** `decode(encode_gga(p))` succeeds and gives `p` back: position to a
      millionth of a minute, altitude to a tenth of a metre, time of day to
      the second on today's date; no speed and point number 0. */
  lemma {:induction false} GgaRoundTrip(num: Numerics, now: Instant, p: Position)
    requires Lawful(num) && OnEarth(p.lat, p.lon)
    ensures var r := Decode(num, now, CoreDialect, EncodeGga(num, p));
      && r.Success?
      && r.value.index == 0 && r.value.speed == 0.0
      && Within(r.value.lat, p.lat, DegreesTolerance)
      && Within(r.value.lon, p.lon, DegreesTolerance)
      && Within(r.value.elevation, p.elevation, 1.0 / 10.0)
      && r.value.time.year == now.year && r.value.time.month == now.month && r.value.time.day == now.day
      && r.value.time.hour == p.time.hour && r.value.time.minute == p.time.minute
      && r.value.time.second == p.time.second
  {
    GgaDispatch(num, now, p);
    GgaFieldsRoundTrip(num, now, p);
  }

  /** An encoded GGA sentence reaches the GGA branch with the fields written. */
  lemma GgaDispatch(num: Numerics, now: Instant, p: Position)
    requires Lawful(num)
    ensures Decode(num, now, CoreDialect, EncodeGga(num, p)) == DecodeGga(num, now, GgaFields(num, p.lat, p.lon, p.elevation, p.time))
  {
    var s := EncodeGga(num, p);
    var fs := GgaFields(num, p.lat, p.lon, p.elevation, p.time);
    GgaSentence(num, p);
    assert StartsWith(s, "$");
    assert fs[0] !in CoreDialect.rmc && fs[0] in CoreDialect.gga by {
      GgaFieldsParts(num, p.lat, p.lon, p.elevation, p.time);
      EncoderTags();
    }
    Dispatch(num, now, s, fs);
  }
}

=== FILE: sentences.dfy ===
/** NMEA 0183 sentence framing: `$` + body + `*` + checksum + CR LF on the way
    out, and on the way in the decoder's cut into comma-separated fields
    (strip, drop everything from the first `*`, drop the `$`, split). The
    checksum is never verified on the way in. */
module Sentences {
  import opened Results
  import opened Text
  import opened Checksum

  /** `f"${body}*{calculate_checksum(body)}\r\n"`. */
  function Frame(body: string): (r: string)
    ensures |r| == |body| + |ChecksumText(body)| + 4
    ensures r[0] == '$' && r[1..|body| + 1] == body && r[|body| + 1] == '*'
    ensures r[|body| + 2..|r| - 2] == ChecksumText(body) && r[|r| - 2..] == "\r\n"
  {
    "$" + body + "*" + ChecksumText(body) + "\r\n"
  }

  /** A sentence whose checksum is right: a `$`, a body, a `*`, the two hex
      digits of the body's checksum and CR LF. */
  predicate ChecksumOk(s: string) {
    && |s| >= 6 && s[0] == '$' && s[|s| - 5] == '*' && s[|s| - 2..] == "\r\n"
    && s[|s| - 4..|s| - 2] == ChecksumText(s[1..|s| - 5])
  }

  /** An ASCII body always frames into a sentence with a correct checksum. */
  lemma FrameChecksumOk(body: string)
    requires IsAscii(body)
    ensures ChecksumOk(Frame(body))
  {
    var r := Frame(body);
    assert |ChecksumText(body)| == 2;
    assert r[1..|r| - 5] == body;
  }

  /** The decoder's field list: `nmea.strip()`, cut before the first `*`,
      drop the leading character, `split(',')`. */
  function Fields(raw: string): (fs: seq<string>)
    ensures |fs| >= 1
  {
    var t := Strip(raw);
    var cut := match IndexOf(t, '*') case Some(i) => t[..i] case None => t;
    Split(if |cut| > 0 then cut[1..] else "", ',')
  }

  /** Whatever follows the first `*` is ignored by the field cut. */
  lemma {:induction false} FieldsIgnoreSuffix(body: string, tail: string)
    requires '*' !in body
    ensures Fields("$" + body + "*" + tail) == Split(body, ',')
  {
    var raw := "$" + body + "*" + tail;
    var star := |body| + 1;
    assert raw[star] == '*';
    assert raw[0] == '$' && !IsSpace(raw[0]);
    assert TrimLeft(IsSpace, raw) == raw;
    var t := TrimRight(IsSpace, raw);
    assert |t| > star;
    assert t == Strip(raw);
    assert t[..star + 1] == raw[..star + 1];
    assert t[..star] == "$" + body;
    assert '*' !in t[..star];
    var i := IndexOf(t, '*');
    assert i == Some(star);
    assert ("$" + body)[1..] == body;
  }

  /** Framing a body made of the fields `fs` and cutting the sentence back
      into fields gives `fs` again. */
  lemma FieldsOfFrame(fs: seq<string>)
    requires |fs| >= 1
    requires forall k :: 0 <= k < |fs| ==> ',' !in fs[k] && '*' !in fs[k]
    ensures Fields(Frame(Join(fs, ','))) == fs
  {
    var body := Join(fs, ',');
    JoinAvoids(fs, ',', '*');
    assert Frame(body) == "$" + body + "*" + (ChecksumText(body) + "\r\n");
    FieldsIgnoreSuffix(body, ChecksumText(body) + "\r\n");
    SplitJoin(fs, ',');
  }
}

=== FILE: servercli.dfy ===
/** The server's command-line glue that holds logic: building a generator
    through the plugin registry, and sending one fix to every client with
    the older codec, dropping the clients whose send fails. */
module ServerCli {
  import opened Results
  import opened Numerics
  import opened Positions
  import opened Registry
  import opened Legacy
  import opened Broadcast

  /** A constructor takes the remaining command-line words and may raise. */
  type Constructor<G, E> = seq<string> -> Result<G, E>

  /** Why `create_generator` raised: `get_generator`'s `ValueError`, or
      whatever the constructor raised. */
  datatype CreateError<E> = Unregistered(reason: RegistryError) | ConstructorFailed(error: E)

  /** `create_generator(source, *params)`: look the class up, then call it. */
  function CreateGenerator<G, E>(reg: Registry<Constructor<G, E>>, source: string, params: seq<string>)
    : (r: Result<G, CreateError<E>>)
    ensures source !in reg <==> r == Failure(Unregistered(UnknownGenerator(source)))
    ensures source in reg && reg[source](params).Success? ==> r == Success(reg[source](params).value)
    ensures source in reg && reg[source](params).Failure? ==> r == Failure(ConstructorFailed(reg[source](params).error))
  {
    match Get(reg, source)
    case Failure(e) => Failure(Unregistered(e))
    case Success(cls) =>
      match cls(params)
      case Success(g) => Success(g)
      case Failure(e) => Failure(ConstructorFailed(e))
  }

  /** A registered constructor is the one `create_generator` applies. */
  lemma CreateAfterRegister<G, E>(reg: Registry<Constructor<G, E>>, name: string,
                                  cls: Constructor<G, E>, params: seq<string>)
    ensures CreateGenerator(Register(reg, name, cls).0, name, params).Success? <==> cls(params).Success?
    ensures cls(params).Success? ==> CreateGenerator(Register(reg, name, cls).0, name, params) == Success(cls(params).value)
  {
    GetAfterRegister(reg, name, cls);
  }

  /** `broadcast_data`: both sentences are encoded once, then every client
      in a snapshot of the list gets RMC then GGA, and a client whose send
      raises is closed and removed. */
  method BroadcastData<C(==)>(num: Numerics, data: LegacyPosition, clients: seq<C>, delivers: (C, string) -> bool)
    returns (kept: seq<C>, events: seq<Event<C>>)
    ensures kept == Survivors(clients, LegacyEncodeRmc(num, data), LegacyEncodeGga(num, data), delivers)
    ensures events == Events(clients, LegacyEncodeRmc(num, data), LegacyEncodeGga(num, data), delivers)
    ensures forall i :: 0 <= i < |kept| ==> kept[i] in clients
  {
    var rmc := LegacyEncodeRmc(num, data);
    var gga := LegacyEncodeGga(num, data);
    kept, events := BroadcastTo(clients, rmc, gga, delivers);
  }
}

=== FILE: star.dfy ===
/** The `lode_star` client's generators: a base generator that emits RMC
    and GGA sentences only once transmission has started, a GeoJSON route
    follower whose current point advances on request, and the factory that
    picks one by method name. The sentences are the same as the server
    codec's; the route follower's lock is modelled as far as it decides
    whether an advance can finish. */
module Star {
  import opened Results
  import opened Text
  import opened Numerics
  import opened DateTimes
  import opened Positions
  import opened Sentences
  import opened Encoder
  import opened Options
  import opened Json
  import GeoJsonSource

  /** The state every generator shares: the transmitting gate, the time
      stamp and the current coordinates. */
  datatype StarState = StarState(transmitting: bool, time: Instant, lat: real, lon: real)

  /** `NMEAGenerator.__init__`: not transmitting, at 0°, 0°, stamped now. */
  function NewState(now: Instant): (s: StarState)
    ensures !s.transmitting && s.lat == 0.0 && s.lon == 0.0 && s.time == now
  {
    StarState(false, now, 0.0, 0.0)
  }

  /** `start_transmission`. */
  function StartTransmission(s: StarState): (r: StarState)
    ensures r.transmitting && r.(transmitting := s.transmitting) == s
  {
    s.(transmitting := true)
  }

  /** `generate_rmc`, given what `get_speed_knots` returns: the empty text
      before transmission, then an RMC sentence carrying the knots as they
      are. */
  function GenerateRmc(num: Numerics, s: StarState, knots: real): (r: string)
    ensures r == "" <==> !s.transmitting
    ensures s.transmitting ==> |r| > 5 && r[0] == '$' && r[|r| - 2..] == "\r\n"
  {
    if !s.transmitting then ""
    else
      var c := FormatCoords(num, s.lat, s.lon);
      Frame(Join(RmcLayout(TimeText(s.time), c.latText, c.latHemi, c.lonText, c.lonHemi,
                           num.tenths(knots), DateText(s.time)), ','))
  }

  /** `generate_gga`, given what `get_elevation` returns. */
  function GenerateGga(num: Numerics, s: StarState, elevation: real): (r: string)
    ensures r == "" <==> !s.transmitting
    ensures s.transmitting ==> |r| > 5 && r[0] == '$' && r[|r| - 2..] == "\r\n"
  {
    if !s.transmitting then ""
    else
      var c := FormatCoords(num, s.lat, s.lon);
      Frame(Join(GgaLayout(TimeText(s.time), c.latText, c.latHemi, c.lonText, c.lonHemi,
                           num.tenths(elevation)), ','))
  }

  /** Converting knots to km/h and back gives the knots. */
  lemma KnotsBack(knots: real)
    ensures knots / KnotsPerKmh * KnotsPerKmh == knots
  {
  }

  /** Once transmitting, the client's RMC sentence is the server codec's for
      a fix moving at the km/h that convert to those knots. */
  lemma SameRmcAsServer(num: Numerics, s: StarState, knots: real)
    requires s.transmitting
    ensures GenerateRmc(num, s, knots) == EncodeRmc(num, Fix(0, s.lat, s.lon, knots / KnotsPerKmh, 0.0, s.time))
  {
    var speed := knots / KnotsPerKmh;
    KnotsBack(knots);
    RmcAtSpeed(num, s, speed, knots);
  }

  lemma RmcAtSpeed(num: Numerics, s: StarState, speed: real, knots: real)
    requires s.transmitting && speed * KnotsPerKmh == knots
    ensures GenerateRmc(num, s, knots) == EncodeRmc(num, Fix(0, s.lat, s.lon, speed, 0.0, s.time))
  {
  }

  /** Once transmitting, the client's GGA sentence is the server codec's for
      a fix at that elevation. */
  lemma SameGgaAsServer(num: Numerics, s: StarState, elevation: real)
    requires s.transmitting
    ensures GenerateGga(num, s, elevation) == EncodeGga(num, Fix(0, s.lat, s.lon, 0.0, elevation, s.time))
  {
  }

  /** A fresh generator says nothing until transmission starts, and then
      emits both sentences. */
  lemma SilentUntilStarted(num: Numerics, now: Instant, knots: real, elevation: real)
    ensures GenerateRmc(num, NewState(now), knots) == "" && GenerateGga(num, NewState(now), elevation) == ""
    ensures GenerateRmc(num, StartTransmission(NewState(now)), knots) != ""
    ensures GenerateGga(num, StartTransmission(NewState(now)), elevation) != ""
  {
  }

  /** A route point as `load_route` stores it: the raw coordinates and the
      raw properties. */
  datatype RoutePoint = RoutePoint(coords: Json, properties: Json)

  datatype StarError =
    | MissingPath              // `route` without a file
    | NotFeatureCollection     // not a dictionary, or `type` is not `FeatureCollection`
    | BadFeature               // a lookup on a feature raised
    | NoRoutePoints            // no `Point` feature
    | BadPoint                 // the point's coordinates or properties made a lookup raise
    | MissingLatLon            // `generate` with fewer than two arguments
    | BadCoordinate            // `float()` rejected the latitude or longitude
    | InvalidSpeed
    | InvalidInterval
    | AbstractClass            // `TypeError`: the class leaves `update_position` abstract
    | UnknownMethod(name: string)

  /** The loop of `load_route`: every `Point` feature is kept with its
      coordinates and its properties (an empty dictionary when absent). */
  function RoutePoints(features: seq<Json>): (r: Result<seq<RoutePoint>, StarError>)
    ensures r.Failure? ==> r.error == BadFeature
    decreases |features|
  {
    if features == [] then Success([])
    else
      var point :- OrFail(GeoJsonSource.IsPoint(features[0]), BadFeature);
      if !point then RoutePoints(features[1..])
      else
        var coords :- OrFail(Member(Member(features[0], "geometry").value, "coordinates"), BadFeature);
        var props := GetOr(features[0], "properties", JObject(map[])).value;
        var rest :- RoutePoints(features[1..]);
        Success([RoutePoint(coords, props)] + rest)
  }

  /** `load_route` on the parsed document. */
  function LoadRoute(doc: Json): (r: Result<seq<RoutePoint>, StarError>)
    ensures !doc.JObject? || Member(doc, "type") != Some(JString("FeatureCollection")) ==>
      r == Failure(NotFeatureCollection)
    ensures r.Success? ==> |r.value| > 0
    ensures r == Failure(NoRoutePoints) ==>
      doc.JObject? && Iterate(GetOr(doc, "features", JArray([])).value).Some?
  {
    if !doc.JObject? || Member(doc, "type") != Some(JString("FeatureCollection")) then Failure(NotFeatureCollection)
    else
      var features :- OrFail(Iterate(GetOr(doc, "features", JArray([])).value), BadFeature);
      var points :- RoutePoints(features);
      if points == [] then Failure(NoRoutePoints) else Success(points)
  }

  /** The points kept are the `Point` features, in document order, each with
      its own coordinates. */
  lemma {:induction false} RouteKeepsPointsInOrder(features: seq<Json>)
    requires forall i :: 0 <= i < |features| ==> GeoJsonSource.Typed(features[i])
    requires RoutePoints(features).Success?
    ensures |RoutePoints(features).value| == |GeoJsonSource.Points(features)|
    ensures forall k :: 0 <= k < |GeoJsonSource.Points(features)| ==>
      Member(Member(GeoJsonSource.Points(features)[k], "geometry").value, "coordinates")
        == Some(RoutePoints(features).value[k].coords)
    decreases |features|
  {
    if features != [] {
      var tail := features[1..];
      forall i | 0 <= i < |tail|
        ensures GeoJsonSource.Typed(tail[i])
      {
        assert tail[i] == features[i + 1];
      }
      assert GeoJsonSource.Typed(features[0]);
      RouteKeepsPointsInOrder(tail);
      if GeoJsonSource.IsPoint(features[0]) == Some(true) {
        var ps := [features[0]] + GeoJsonSource.Points(tail);
        assert GeoJsonSource.Points(features) == ps;
        var rs := RoutePoints(features).value;
        assert rs[1..] == RoutePoints(tail).value;
        forall k | 0 <= k < |ps|
          ensures Member(Member(ps[k], "geometry").value, "coordinates") == Some(rs[k].coords)
        {
          if k > 0 {
            assert ps[k] == GeoJsonSource.Points(tail)[k - 1];
            assert rs[k] == RoutePoints(tail).value[k - 1];
          }
        }
      }
    }
  }

  /** A document that is not a feature collection is refused whatever its
      features. */
  lemma OnlyFeatureCollections(features: Json)
    ensures LoadRoute(JObject(map["type" := JString("Feature"), "features" := features])) == Failure(NotFeatureCollection)
  {
    assert JString("Feature") != JString("FeatureCollection") by {
      assert "Feature" != "FeatureCollection" by { assert |"Feature"| != |"FeatureCollection"|; }
    }
  }

  /** `self.lon, self.lat = point['coords']`: exactly two numbers, longitude
      first; the time becomes now. The properties must be a dictionary, as
      the report printed next looks up its name. */
  function SetPosition(s: StarState, p: RoutePoint, now: Instant): (r: Result<StarState, StarError>)
    ensures r.Success? <==>
      && p.coords.JArray? && |p.coords.items| == 2
      && p.coords.items[0].JNumber? && p.coords.items[1].JNumber? && p.properties.JObject?
    ensures r.Success? ==>
      r.value == s.(lon := p.coords.items[0].n, lat := p.coords.items[1].n, time := now)
    ensures r.Failure? ==> r.error == BadPoint
  {
    if !p.coords.JArray? || |p.coords.items| != 2 then Failure(BadPoint)
    else if !p.coords.items[0].JNumber? || !p.coords.items[1].JNumber? || !p.properties.JObject? then Failure(BadPoint)
    else Success(s.(lon := p.coords.items[0].n, lat := p.coords.items[1].n, time := now))
  }

  /** The route follower's state. */
  datatype RouteGen = RouteGen(
    base: StarState,
    points: seq<RoutePoint>,
    index: nat,
    stopStart: Option<real>,
    manualWaiting: bool)

  /** The index names a point. */
  predicate InRange(r: RouteGen) {
    r.index < |r.points|
  }

  /** `GeoJSONRouteNMEAGenerator.__init__`: a file, a loaded route, and the
      position of its first point. */
  function NewRoute(now: Instant, args: seq<Json>): (r: Result<RouteGen, StarError>)
    ensures |args| == 0 ==> r == Failure(MissingPath)
    ensures r.Success? ==> InRange(r.value) && r.value.index == 0
    ensures r.Success? ==> !r.value.base.transmitting && !r.value.manualWaiting && r.value.stopStart.None?
    ensures r.Success? ==> LoadRoute(args[0]) == Success(r.value.points)
    ensures r.Success? ==>
      SetPosition(NewState(now), r.value.points[0], now) == Success(r.value.base)
  {
    if |args| == 0 then Failure(MissingPath)
    else
      var points :- LoadRoute(args[0]);
      var base :- SetPosition(NewState(now), points[0], now);
      Success(RouteGen(base, points, 0, None, false))
  }

  /** `props.get(key, 0.0)` through `float()` for the current point; 0.0
      when there is no current point. `None` where the lookup or `float()`
      raises. */
  function CurrentProperty(num: Numerics, r: RouteGen, key: string): (v: Option<real>)
    ensures r.points == [] || r.index >= |r.points| ==> v == Some(0.0)
    ensures r.index < |r.points| ==>
      var props := r.points[r.index].properties;
      && (props.JObject? && key !in props.members ==> v == Some(0.0))
      && (props.JObject? && key in props.members && props.members[key].JNumber? ==> v == Some(props.members[key].n))
    ensures r.index < |r.points| && !r.points[r.index].properties.JObject? ==> v.None?
  {
    if r.points == [] || r.index >= |r.points| then Some(0.0)
    else
      var value :- GetOr(r.points[r.index].properties, key, JNumber(0.0));
      Float(num, value)
  }

  /** `get_speed_knots`: the current point's `speed`, 0.0 past the end or
      when the point has none. */
  function SpeedKnots(num: Numerics, r: RouteGen): (v: Option<real>)
    ensures r.index >= |r.points| ==> v == Some(0.0)
    ensures r.index < |r.points| ==>
      var props := r.points[r.index].properties;
      && (props.JObject? && "speed" !in props.members ==> v == Some(0.0))
      && (props.JObject? && "speed" in props.members && props.members["speed"].JNumber? ==>
            v == Some(props.members["speed"].n))
      && (!props.JObject? ==> v.None?)
  {
    CurrentProperty(num, r, "speed")
  }

  /** `get_elevation`: the current point's `elevation`, 0.0 past the end
      or when the point has none. */
  function Elevation(num: Numerics, r: RouteGen): (v: Option<real>)
    ensures r.index >= |r.points| ==> v == Some(0.0)
    ensures r.index < |r.points| ==>
      var props := r.points[r.index].properties;
      && (props.JObject? && "elevation" !in props.members ==> v == Some(0.0))
      && (props.JObject? && "elevation" in props.members && props.members["elevation"].JNumber? ==>
            v == Some(props.members["elevation"].n))
      && (!props.JObject? ==> v.None?)
  {
    CurrentProperty(num, r, "elevation")
  }

  /** Moving on to the next point once its position is set: the index
      grows by one and the stop and the wait are over. */
  function Moved(r: RouteGen, next: Result<StarState, StarError>): (m: Result<RouteGen, StarError>)
    ensures m.Success? <==> next.Success?
    ensures m.Success? ==>
      m.value == r.(base := next.value, index := r.index + 1, stopStart := None, manualWaiting := false)
  {
    match next
    case Failure(e) => Failure(e)
    case Success(b) => Success(r.(base := b, index := r.index + 1, stopStart := None, manualWaiting := false))
  }

  /** Whether a point follows the current one. */
  predicate HasNext(r: RouteGen) {
    r.index < |r.points| - 1
  }

  /** `advance_to_next_point` as intended: when waiting for a manual
      transition and not at the last point, move to the next point;
      otherwise change nothing. */
  function Advance(r: RouteGen, now: Instant): (a: Result<RouteGen, StarError>)
    ensures !(r.manualWaiting && HasNext(r)) ==> a == Success(r)
    ensures r.manualWaiting && HasNext(r) && a.Success? ==>
      && a.value.index == r.index + 1 && !a.value.manualWaiting && a.value.stopStart.None?
      && a.value.points == r.points
      && SetPosition(r.base, r.points[r.index + 1], now) == Success(a.value.base)
  {
    if r.manualWaiting && HasNext(r) then Moved(r, SetPosition(r.base, r.points[r.index + 1], now))
    else Success(r)
  }

  /** The advancing tail of `update_position`, given whether the pacing
      decided to move on: the same move, guarded by the same last-point
      test. */
  function AutoStep(r: RouteGen, now: Instant, moveToNext: bool): (a: Result<RouteGen, StarError>)
    ensures !(moveToNext && HasNext(r)) ==> a == Success(r)
    ensures moveToNext && HasNext(r) && a.Success? ==>
      a.value.index == r.index + 1 && a.value.points == r.points && !a.value.manualWaiting
  {
    if moveToNext && HasNext(r) then Moved(r, SetPosition(r.base, r.points[r.index + 1], now))
    else Success(r)
  }

  /** Neither way of advancing takes the index past the last point. */
  lemma AdvanceStaysInRange(r: RouteGen, now: Instant, moveToNext: bool)
    requires InRange(r)
    ensures Advance(r, now).Success? ==> InRange(Advance(r, now).value)
    ensures AutoStep(r, now, moveToNext).Success? ==> InRange(AutoStep(r, now, moveToNext).value)
  {
  }

  /** Advancing is at most one step: repeated requests reach the last point
      and stay there. */
  lemma {:induction false} AdvanceStopsAtLast(r: RouteGen, now: Instant)
    requires InRange(r) && !HasNext(r)
    ensures Advance(r, now) == Success(r)
  {
  }

  /** What running a piece of code under the generator's `threading.Lock`
      comes to: `Blocked` when it tries to take the lock its caller already
      holds, which a non-re-entrant lock never grants. */
  datatype Run<T> = Blocked | Ran(value: T)

  /** `_set_position_from_point` as written: it takes `self.lock` itself. */
  function SetPositionAsWritten(held: bool, s: StarState, p: RoutePoint, now: Instant): (r: Run<Result<StarState, StarError>>)
    ensures held <==> r.Blocked?
    ensures !held ==> r == Ran(SetPosition(s, p, now))
  {
    if held then Blocked else Ran(SetPosition(s, p, now))
  }

  /** `advance_to_next_point` as written: it holds `self.lock` while it calls
      `_set_position_from_point`. Before that call it reads the next point's
      name through `properties.get`, which raises when the properties are not
      a dictionary; the `with` block then releases the lock and the request
      fails without moving. */
  function AdvanceAsWritten(r: RouteGen, now: Instant): (a: Run<Result<RouteGen, StarError>>)
  {
    if !(r.manualWaiting && HasNext(r)) then Ran(Success(r))
    else if !r.points[r.index + 1].properties.JObject? then Ran(Failure(BadPoint))
    else
      match SetPositionAsWritten(true, r.base, r.points[r.index + 1], now)
      case Blocked => Blocked
      case Ran(next) => Ran(Moved(r, next))
  }

  /** The defect: every request that should move the route to a point with
      dictionary properties blocks the generator forever; every other request
      is the intended outcome, a no-op or the failure of the name lookup. */
  lemma AdvanceAsWrittenBlocks(r: RouteGen, now: Instant)
    ensures r.manualWaiting && HasNext(r) && r.points[r.index + 1].properties.JObject?
      <==> AdvanceAsWritten(r, now).Blocked?
    ensures AdvanceAsWritten(r, now).Ran? ==> AdvanceAsWritten(r, now) == Ran(Advance(r, now))
  {
  }

  /** The tail of `update_position` as written, which also holds the lock. */
  function AutoStepAsWritten(r: RouteGen, now: Instant, moveToNext: bool): (a: Run<Result<RouteGen, StarError>>)
  {
    if moveToNext && HasNext(r) then
      match SetPositionAsWritten(true, r.base, r.points[r.index + 1], now)
      case Blocked => Blocked
      case Ran(next) => Ran(Moved(r, next))
    else Ran(Success(r))
  }

  lemma AutoStepAsWrittenBlocks(r: RouteGen, now: Instant, moveToNext: bool)
    ensures moveToNext && HasNext(r) <==> AutoStepAsWritten(r, now, moveToNext).Blocked?
    ensures AutoStepAsWritten(r, now, moveToNext).Ran? ==>
      AutoStepAsWritten(r, now, moveToNext) == Ran(AutoStep(r, now, moveToNext))
  {
  }

  /** The `generate` method's generator: it circles nowhere yet, keeping
      the speed in km/h, a heading and the pacing interval. */
  datatype DynamicStar = DynamicStar(base: StarState, speed: real, heading: int, interval: real)

  /** One word of `DynamicNMEAGenerator.__init__`: `speed=` and `interval=`
      through `float()`, everything else ignored. */
  function ApplyStarWord(num: Numerics, d: DynamicStar, word: string): (r: Result<DynamicStar, StarError>)
    ensures !HasKey(word, "speed") && !HasKey(word, "interval") ==> r == Success(d)
    ensures HasKey(word, "speed") ==>
      (r.Success? <==> num.parseFloat(Setting(word, "speed")).Some?)
      && (r.Success? ==> r.value == d.(speed := num.parseFloat(Setting(word, "speed")).value))
      && (r.Failure? ==> r.error == InvalidSpeed)
    ensures !HasKey(word, "speed") && HasKey(word, "interval") ==>
      (r.Success? <==> num.parseFloat(Setting(word, "interval")).Some?)
      && (r.Success? ==> r.value == d.(interval := num.parseFloat(Setting(word, "interval")).value))
      && (r.Failure? ==> r.error == InvalidInterval)
  {
    if HasKey(word, "speed") then
      var v :- OrFail(num.parseFloat(Setting(word, "speed")), InvalidSpeed);
      Success(d.(speed := v))
    else if HasKey(word, "interval") then
      var v :- OrFail(num.parseFloat(Setting(word, "interval")), InvalidInterval);
      Success(d.(interval := v))
    else Success(d)
  }

  function ApplyStarWords(num: Numerics, d: DynamicStar, words: seq<string>): (r: Result<DynamicStar, StarError>)
    ensures r.Failure? ==> r.error in {InvalidSpeed, InvalidInterval}
    ensures r.Success? ==> r.value.base == d.base && r.value.heading == d.heading
    decreases |words|
  {
    if words == [] then Success(d)
    else
      var next :- ApplyStarWord(num, d, words[0]);
      ApplyStarWords(num, next, words[1..])
  }

  /** `DynamicNMEAGenerator.__init__`: two coordinates through `float()`
      first, then the defaults 10 km/h, heading 0 and 1 s, then the words. */
  function NewDynamic(num: Numerics, now: Instant, args: seq<string>): (r: Result<DynamicStar, StarError>)
    ensures |args| < 2 ==> r == Failure(MissingLatLon)
    ensures |args| >= 2 && num.parseFloat(args[0]).None? ==> r == Failure(BadCoordinate)
    ensures r.Success? ==>
      && Some(r.value.base.lat) == num.parseFloat(args[0])
      && Some(r.value.base.lon) == num.parseFloat(args[1])
      && !r.value.base.transmitting && r.value.heading == 0
  {
    if |args| < 2 then Failure(MissingLatLon)
    else
      var lat :- OrFail(num.parseFloat(args[0]), BadCoordinate);
      var lon :- OrFail(num.parseFloat(args[1]), BadCoordinate);
      var d := DynamicStar(NewState(now).(lat := lat, lon := lon), 10.0, 0, 1.0);
      ApplyStarWords(num, d, args[2..])
  }

  /** The generator `create_generator` hands back. */
  datatype StarGenerator = GenerateStar(dynamic: DynamicStar) | RouteStar(route: RouteGen)

  /** `create_generator` as written. `DynamicNMEAGenerator` does not define
      `update_position`, which its base class declares abstract, so Python
      refuses to instantiate it before `__init__` runs. */
  function CreateGeneratorAsWritten(now: Instant, kind: string, args: seq<string>, route: seq<Json>)
    : (r: Result<StarGenerator, StarError>)
  {
    if kind == "generate" then Failure(AbstractClass)
    else if kind == "route" then
      var g :- NewRoute(now, route);
      Success(RouteStar(g))
    else Failure(UnknownMethod(kind))
  }

  /** `create_generator` as intended: `generate` builds the dynamic generator
      from its arguments. `args` are the method's words; for `route` the
      file's parsed document stands in for its path. */
  function CreateGenerator(num: Numerics, now: Instant, kind: string, args: seq<string>, route: seq<Json>)
    : (r: Result<StarGenerator, StarError>)
    ensures kind != "generate" && kind != "route" ==> r == Failure(UnknownMethod(kind))
    ensures kind == "generate" ==> (r.Success? <==> NewDynamic(num, now, args).Success?)
    ensures kind == "generate" && r.Success? ==> r.value == GenerateStar(NewDynamic(num, now, args).value)
    ensures kind == "route" ==> (r.Success? <==> NewRoute(now, route).Success?)
    ensures kind == "route" && r.Success? ==> r.value == RouteStar(NewRoute(now, route).value)
  {
    if kind == "generate" then
      var d :- NewDynamic(num, now, args);
      Success(GenerateStar(d))
    else if kind == "route" then
      var g :- NewRoute(now, route);
      Success(RouteStar(g))
    else Failure(UnknownMethod(kind))
  }

  /** The defect: `generate` never yields a generator, even for arguments the
      constructor accepts; `route` and unknown methods behave as intended. */
  lemma GenerateNeverBuilds(num: Numerics, now: Instant, kind: string, args: seq<string>, route: seq<Json>)
    ensures kind == "generate" ==> CreateGeneratorAsWritten(now, kind, args, route) == Failure(AbstractClass)
    ensures kind != "generate" ==>
      CreateGeneratorAsWritten(now, kind, args, route) == CreateGenerator(num, now, kind, args, route)
  {
  }

  /** Two numbers suffice for the intended `generate`: the defaults hold. */
  lemma GenerateWithDefaults(num: Numerics, now: Instant, lat: string, lon: string)
    requires num.parseFloat(lat).Some? && num.parseFloat(lon).Some?
    ensures CreateGenerator(num, now, "generate", [lat, lon], []).Success?
    ensures var d := CreateGenerator(num, now, "generate", [lat, lon], []).value.dynamic;
      d.speed == 10.0 && d.interval == 1.0 && d.heading == 0
  {
    assert [lat, lon][2..] == [];
  }

  /** What `get_speed_knots` gives for either generator: the dynamic one
      keeps the base class's 0.0. */
  function GeneratorKnots(num: Numerics, g: StarGenerator): (v: Option<real>)
    ensures g.GenerateStar? ==> v == Some(0.0)
    ensures g.RouteStar? && g.route.index >= |g.route.points| ==> v == Some(0.0)
    ensures g.RouteStar? && g.route.index < |g.route.points| ==>
      var props := g.route.points[g.route.index].properties;
      props.JObject? && "speed" in props.members && props.members["speed"].JNumber? ==>
        v == Some(props.members["speed"].n)
  {
    match g
    case GenerateStar(_) => Some(0.0)
    case RouteStar(r) => SpeedKnots(num, r)
  }
}

=== FILE: text.dfy ===
/** The Python `str` and `int` operations the codec and the loaders rely on,
    stated over `string` (a `seq<char>`). */
module Text {
  import opened Results

  /** Python's `str.isspace()`: the characters `str.strip()` discards. */
  predicate IsSpace(c: char) {
    || c == ' ' || c == '\t' || c == '\n' || c == '\r'
    || c == '\U{000B}' || c == '\U{000C}'
    || ('\U{001C}' <= c <= '\U{001F}')
    || c == '\U{0085}' || c == '\U{00A0}' || c == '\U{1680}'
    || ('\U{2000}' <= c <= '\U{200A}')
    || c == '\U{2028}' || c == '\U{2029}' || c == '\U{202F}' || c == '\U{205F}' || c == '\U{3000}'
  }

  /** The blanks `int()` skips around a number. CPython first turns every
      non-ASCII `isspace()` character into a space and leaves ASCII alone,
      then skips only space, tab, LF, VT, FF and CR; so the ASCII separators
      U+001C to U+001F, blank to `strip()`, make `int()` raise. */
  predicate IsIntBlank(c: char) {
    IsSpace(c) && !('\U{001C}' <= c <= '\U{001F}')
  }

  predicate IsDigit(c: char) {
    '0' <= c <= '9'
  }

  predicate AllDigits(s: string) {
    forall i :: 0 <= i < |s| ==> IsDigit(s[i])
  }

  predicate StartsWith(s: string, prefix: string) {
    |prefix| <= |s| && s[..|prefix|] == prefix
  }

  /** Python's `s.lstrip()` over the given blank characters. */
  function TrimLeft(blank: char -> bool, s: string): (r: string)
    ensures |r| <= |s| && r == s[|s| - |r|..]
    ensures |r| > 0 ==> !blank(r[0])
    ensures forall i :: 0 <= i < |s| - |r| ==> blank(s[i])
  {
    if |s| > 0 && blank(s[0]) then
      var r := TrimLeft(blank, s[1..]);
      assert s[1..][|s| - 1 - |r|..] == s[|s| - |r|..];
      r
    else s
  }

  /** Python's `s.rstrip()` over the given blank characters. */
  function TrimRight(blank: char -> bool, s: string): (r: string)
    ensures |r| <= |s| && r == s[..|r|]
    ensures |r| > 0 ==> !blank(r[|r| - 1])
    ensures forall i :: |r| <= i < |s| ==> blank(s[i])
  {
    if |s| > 0 && blank(s[|s| - 1]) then TrimRight(blank, s[..|s| - 1]) else s
  }

  /** Python's `s.strip()`. */
  function Strip(s: string): (r: string)
    ensures |r| <= |s|
    ensures |r| > 0 ==> !IsSpace(r[0]) && !IsSpace(r[|r| - 1])
  {
    TrimRight(IsSpace, TrimLeft(IsSpace, s))
  }

  /** The blanks `int()` skips before and after the number. */
  function IntStrip(s: string): (r: string)
    ensures |r| <= |s|
    ensures |r| > 0 ==> !IsIntBlank(r[0]) && !IsIntBlank(r[|r| - 1])
  {
    TrimRight(IsIntBlank, TrimLeft(IsIntBlank, s))
  }

  /** A string whose two ends are not blank is left alone by `strip()`. */
  lemma StripKeepsTrimmed(s: string)
    requires |s| > 0 && !IsSpace(s[0]) && !IsSpace(s[|s| - 1])
    ensures Strip(s) == s
  {
  }

  /** `strip()` removes a trailing CR LF and nothing else from a trimmed string. */
  lemma StripDropsLineEnd(s: string)
    requires |s| > 0 && !IsSpace(s[0]) && !IsSpace(s[|s| - 1])
    ensures Strip(s + "\r\n") == s
  {
    var t := s + "\r\n";
    assert TrimLeft(IsSpace, t) == t;
    assert t[..|t| - 1] == s + "\r";
    assert (s + "\r")[..|s|] == s;
  }

  /** Python's `s.index(c)` as an option: the first position holding `c`. */
  function IndexOf(s: string, c: char): (r: Option<nat>)
    ensures r.None? <==> c !in s
    ensures r.Some? ==> r.value < |s| && s[r.value] == c && c !in s[..r.value]
  {
    if |s| == 0 then None
    else if s[0] == c then Some(0)
    else
      match IndexOf(s[1..], c)
      case None => None
      case Some(i) => Some(i + 1)
  }

  /** Python's `s[i:j]` for non-negative bounds: both bounds are clamped to the length. */
  function Slice(s: string, i: nat, j: nat): (r: string)
    ensures |r| <= |s|
    ensures i <= j <= |s| ==> r == s[i..j]
  {
    var lo := if i < |s| then i else |s|;
    var hi := if j < |s| then j else |s|;
    if lo <= hi then s[lo..hi] else ""
  }

  /** Python's `s.split(sep)` for a one-character separator: every separator cuts,
      empty pieces are kept, and the result is never empty. */
  function Split(s: string, sep: char): (r: seq<string>)
    ensures |r| >= 1
    ensures forall k :: 0 <= k < |r| ==> sep !in r[k]
    ensures sep !in s ==> r == [s]
    ensures sep in s ==> |r| >= 2
    decreases |s|
  {
    if |s| == 0 then [""]
    else if s[0] == sep then [""] + Split(s[1..], sep)
    else
      var rest := Split(s[1..], sep);
      assert sep !in s ==> [s[0]] + s[1..] == s;
      [[s[0]] + rest[0]] + rest[1..]
  }

  /** Python's `sep.join(fs)`. */
  function Join(fs: seq<string>, sep: char): string
    requires |fs| >= 1
  {
    if |fs| == 1 then fs[0] else fs[0] + [sep] + Join(fs[1..], sep)
  }

  lemma {:induction false} SplitPrefix(f: string, t: string, sep: char)
    requires sep !in f
    ensures Split(f + t, sep) == [f + Split(t, sep)[0]] + Split(t, sep)[1..]
    decreases |f|
  {
    if |f| == 0 {
      assert f + t == t;
      assert f + Split(t, sep)[0] == Split(t, sep)[0];
      assert [Split(t, sep)[0]] + Split(t, sep)[1..] == Split(t, sep);
    } else {
      assert (f + t)[0] == f[0];
      assert (f + t)[1..] == f[1..] + t;
      SplitPrefix(f[1..], t, sep);
      assert [f[0]] + (f[1..] + Split(t, sep)[0]) == f + Split(t, sep)[0];
    }
  }

  /** Splitting a joined list gives the list back when no piece holds the separator. */
  lemma {:induction false} SplitJoin(fs: seq<string>, sep: char)
    requires |fs| >= 1
    requires forall k :: 0 <= k < |fs| ==> sep !in fs[k]
    ensures Split(Join(fs, sep), sep) == fs
    decreases |fs|
  {
    if |fs| == 1 {
      SplitPrefix(fs[0], "", sep);
      assert fs[0] + "" == fs[0];
    } else {
      SplitJoin(fs[1..], sep);
      var t := [sep] + Join(fs[1..], sep);
      assert Join(fs, sep) == fs[0] + t;
      SplitPrefix(fs[0], t, sep);
      assert t[0] == sep && t[1..] == Join(fs[1..], sep);
      assert Split(t, sep) == [""] + fs[1..];
      assert fs[0] + Split(t, sep)[0] == fs[0];
      assert [fs[0]] + fs[1..] == fs;
    }
  }

  /** A joined list holds the separator only where the join put it. */
  lemma {:induction false} JoinAvoids(fs: seq<string>, sep: char, c: char)
    requires |fs| >= 1 && c != sep
    requires forall k :: 0 <= k < |fs| ==> c !in fs[k]
    ensures c !in Join(fs, sep)
    decreases |fs|
  {
    if |fs| > 1 {
      JoinAvoids(fs[1..], sep, c);
    }
  }

  function DigitValue(c: char): nat
    requires IsDigit(c)
  {
    (c as int) - ('0' as int)
  }

  function DigitChar(d: nat): (c: char)
    requires d < 10
    ensures IsDigit(c) && DigitValue(c) == d
  {
    (('0' as int) + d) as char
  }

  /** The number a string of decimal digits denotes (leading zeros allowed). */
  function DigitsValue(s: string): nat
    requires AllDigits(s)
  {
    if |s| == 0 then 0 else 10 * DigitsValue(s[..|s| - 1]) + DigitValue(s[|s| - 1])
  }

  /** Python's `str(n)` for `n >= 0`: the shortest decimal rendering. */
  function Decimal(n: nat): (r: string)
    ensures |r| >= 1 && AllDigits(r)
    ensures DigitsValue(r) == n
  {
    if n < 10 then [DigitChar(n)]
    else
      var r := Decimal(n / 10) + [DigitChar(n % 10)];
      assert r[..|r| - 1] == Decimal(n / 10);
      r
  }

  function Pow10(k: nat): nat {
    if k == 0 then 1 else 10 * Pow10(k - 1)
  }

  lemma {:induction false} DecimalFits(n: nat, w: nat)
    requires w >= 1 && n < Pow10(w)
    ensures |Decimal(n)| <= w
    decreases w
  {
    if n >= 10 {
      assert w >= 2;
      DecimalFits(n / 10, w - 1);
    }
  }

  function Zeros(k: nat): (r: string)
    ensures |r| == k && AllDigits(r)
    ensures forall i :: 0 <= i < k ==> r[i] == '0'
  {
    if k == 0 then "" else "0" + Zeros(k - 1)
  }

  lemma {:induction false} LeadingZeros(k: nat, d: string)
    requires AllDigits(d)
    ensures AllDigits(Zeros(k) + d) && DigitsValue(Zeros(k) + d) == DigitsValue(d)
    decreases |d|
  {
    var z := Zeros(k);
    assert AllDigits(z + d);
    if |d| == 0 {
      assert z + d == z;
      ZerosValue(k);
    } else {
      var d' := d[..|d| - 1];
      assert (z + d)[..|z + d| - 1] == z + d';
      LeadingZeros(k, d');
    }
  }

  lemma {:induction false} ZerosValue(k: nat)
    ensures DigitsValue(Zeros(k)) == 0
    decreases k
  {
    if k > 0 {
      var z := Zeros(k);
      assert z[..k - 1] == Zeros(k - 1) by {
        assert forall i :: 0 <= i < k - 1 ==> z[i] == '0';
      }
      ZerosValue(k - 1);
    }
  }

  /** Python's `f"{n:0{width}d}"` for `n >= 0`: zero-padded to at least `width` digits. */
  function ZeroPad(n: nat, width: nat): (r: string)
    ensures AllDigits(r)
    ensures DigitsValue(r) == n
    ensures |r| >= width
    ensures n < Pow10(width) && width >= 1 ==> |r| == width
  {
    var d := Decimal(n);
    PaddingFacts(n, width);
    if |d| < width then Zeros(width - |d|) + d else d
  }

  lemma PaddingFacts(n: nat, width: nat)
    ensures var d := Decimal(n);
      && AllDigits(Zeros(if |d| < width then width - |d| else 0) + d)
      && DigitsValue(Zeros(if |d| < width then width - |d| else 0) + d) == n
      && (n < Pow10(width) && width >= 1 ==> |d| <= width)
  {
    var d := Decimal(n);
    LeadingZeros(if |d| < width then width - |d| else 0, d);
    if n < Pow10(width) && width >= 1 {
      DecimalFits(n, width);
    }
  }

  /** The underscore grouping Python's `int()` accepts: digits, with single
      underscores allowed only between two digits. */
  predicate WellGrouped(s: string) {
    && |s| > 0 && IsDigit(s[0]) && IsDigit(s[|s| - 1])
    && forall i :: 0 <= i < |s| ==>
         IsDigit(s[i]) || (s[i] == '_' && i + 1 < |s| && IsDigit(s[i + 1]))
  }

  function OnlyDigits(s: string): (r: string)
    ensures AllDigits(r)
    ensures AllDigits(s) ==> r == s
  {
    if |s| == 0 then ""
    else if IsDigit(s[0]) then [s[0]] + OnlyDigits(s[1..])
    else OnlyDigits(s[1..])
  }

  function GroupedValue(s: string): Option<int> {
    if WellGrouped(s) then Some(DigitsValue(OnlyDigits(s))) else None
  }

  /** Python's `int(s)` (base 10, ASCII digits): blanks around the number, an
      optional sign and underscore grouping are accepted; anything else raises. */
  function IntOfText(s: string): Option<int> {
    var t := IntStrip(s);
    if |t| > 0 && (t[0] == '+' || t[0] == '-') then
      var v :- GroupedValue(t[1..]);
      Some(if t[0] == '-' then -v else v)
    else GroupedValue(t)
  }

  /** `int(s)`, read directly when `s` is a plain run of digits and by the
      general rule otherwise; `PyIntAgrees` shows the two readings agree. */
  function PyInt(s: string): (r: Option<int>)
    ensures |s| > 0 && AllDigits(s) ==> r == Some(DigitsValue(s))
  {
    if |s| > 0 && AllDigits(s) then Some(DigitsValue(s)) else IntOfText(s)
  }

  /** A non-empty run of digits is read by `int()` as its decimal value. */
  lemma PyIntOfDigits(s: string)
    requires |s| > 0 && AllDigits(s)
    ensures IntOfText(s) == Some(DigitsValue(s))
  {
    DigitNotBlank(s[0]);
    DigitNotBlank(s[|s| - 1]);
    assert IntStrip(s) == s by {
      assert TrimLeft(IsIntBlank, s) == s;
      assert TrimRight(IsIntBlank, s) == s;
    }
    assert GroupedValue(s) == Some(DigitsValue(s)) by {
      assert WellGrouped(s);
      assert OnlyDigits(s) == s;
    }
  }

  /** A digit is neither a blank nor a sign. */
  lemma DigitNotBlank(c: char)
    requires IsDigit(c)
    ensures !IsIntBlank(c) && !IsSpace(c) && c != '+' && c != '-'
  {
  }

  lemma PyIntAgrees(s: string)
    ensures PyInt(s) == IntOfText(s)
  {
    if |s| > 0 && AllDigits(s) {
      PyIntOfDigits(s);
    }
  }

  /** `strip()` drops a leading U+001C, an ASCII separator `isspace()` accepts. */
  lemma StripDropsSeparator()
    ensures Strip("\U{001C}1") == "1"
  {
    var sep := "\U{001C}1";
    assert IsSpace(sep[0]) && !IsSpace(sep[1]);
    assert sep[1..] == "1";
    assert TrimLeft(IsSpace, sep[1..]) == "1";
    assert TrimLeft(IsSpace, sep) == "1";
    assert TrimRight(IsSpace, "1") == "1";
  }

  /** `int()` refuses the same text: U+001C is not one of its blanks. */
  lemma IntRefusesSeparator()
    ensures PyInt("\U{001C}1").None?
  {
    var sep := "\U{001C}1";
    assert !IsIntBlank(sep[0]) && !IsIntBlank(sep[1]);
    assert TrimLeft(IsIntBlank, sep) == sep;
    assert TrimRight(IsIntBlank, sep) == sep;
    assert IntStrip(sep) == sep;
    assert !IsDigit(sep[0]);
    assert !WellGrouped(sep);
  }

  /** `int()` skips a leading no-break space, as CPython maps it to a space. */
  lemma IntSkipsNoBreakSpace()
    ensures PyInt("\U{00A0}1") == Some(1)
  {
    assert "\U{00A0}1" == ['\U{00A0}'] + "1";
    LeadingBlankSkipped('\U{00A0}', "1");
    assert DigitsValue("1") == 1;
  }

  /** A blank `int()` skips may precede a run of digits. */
  lemma LeadingBlankSkipped(c: char, s: string)
    requires IsIntBlank(c) && |s| > 0 && AllDigits(s)
    ensures PyInt([c] + s) == Some(DigitsValue(s))
  {
    var t := [c] + s;
    assert !AllDigits(t) by { assert t[0] == c; }
    assert IntStrip(t) == IntStrip(s) by {
      assert t[1..] == s;
      assert !IsIntBlank(s[0]);
      assert TrimLeft(IsIntBlank, t) == TrimLeft(IsIntBlank, s);
    }
    SameStripSameInt(t, s);
    PyIntOfDigits(s);
  }

  /** `int()` looks only at what remains after trimming its blanks. */
  lemma SameStripSameInt(s: string, t: string)
    requires IntStrip(s) == IntStrip(t)
    ensures IntOfText(s) == IntOfText(t)
  {
  }

  /** `int()` inverts zero padding. */
  lemma PyIntOfPadded(n: nat, width: nat)
    requires width >= 1
    ensures PyInt(ZeroPad(n, width)) == Some(n)
  {
  }

  predicate IsUpperHex(c: char) {
    IsDigit(c) || 'A' <= c <= 'F'
  }

  function HexDigit(d: nat): (c: char)
    requires d < 16
    ensures IsUpperHex(c)
  {
    if d < 10 then DigitChar(d) else (('A' as int) + d - 10) as char
  }

  function HexValue(c: char): nat
    requires IsUpperHex(c)
  {
    if IsDigit(c) then DigitValue(c) else (c as int) - ('A' as int) + 10
  }

  /** Python's `f"{n:X}"`: uppercase hexadecimal without padding. */
  function Hex(n: nat): (r: string)
    ensures |r| >= 1
    ensures forall i :: 0 <= i < |r| ==> IsUpperHex(r[i])
  {
    if n < 16 then [HexDigit(n)] else Hex(n / 16) + [HexDigit(n % 16)]
  }

  /** Python's `f"{n:02X}"`: uppercase hexadecimal padded to at least two digits. */
  function Hex2(n: nat): (r: string)
    ensures |r| >= 2
    ensures forall i :: 0 <= i < |r| ==> IsUpperHex(r[i])
  {
    var h := Hex(n);
    if |h| < 2 then "0" + h else h
  }
}
